=== FILE: README.md ===
# Socialearn front-end decision rules in Dafny

This project models the pure decision rules inside the Socialearn React
front-end: a watch-to-earn and social-promotion site where users spend points
to promote their videos and social posts, and earn points by watching and
interacting. The rules modelled are:

- the four platform classifiers and the YouTube, TikTok, Instagram, Facebook,
  Twitter and LinkedIn embed rewriters (`detectPlatformFromUrl`,
  `detectPlatform`, `getEmbedUrl`, `normalizeUrl`, `SocialEmbed`,
  `renderVideoEmbed`, `getPlatform`);
- the pricing of the promotion forms (`2 * ceil(duration / 30)` points per
  view, the per-action price table, the shortfall) and their submit guards;
- the promotion-cost cascades of the dashboard, the task feed and the
  promoted-tasks page, and marking a task promoted;
- the countdown timers of the watch players and of the TikTok promo page;
- the wallet history grouping and totals, the wallet's redeem and transfer
  checks, the admin route guard and the daily login calendar.

Each source file has its own module. Shared modules hold the JavaScript
semantics the code relies on (`Js`: `||` against `??`, and `Strings`:
`includes`, `split`, first-occurrence `replace`, `endsWith`, `toLowerCase`).
`Platforms` holds an ordered rule-table classifier that the detectors are
proved equal to. `Countdown`, `WatchPricing`, `ActionPricing` and `Promotion`
hold rules that several components repeat.

HTTP replies, the `URL` constructor, `encodeURIComponent`, `Number()`, the
current day and the stored user id are parameters. Each handler is a pure
function from the component state and the reply to the new state and the
alert or toast shown.

The watch player is modelled with the stale closure its interval keeps: the
completion handler reads the `completed` flag and the balance of the render
in which Play was pressed. A Play right after a completion therefore stalls
the player without a reward, and only a Stop followed by another Play
rewards again.

Verification command, all files together:
`dafny verify --resource-limit 2000000 --verification-time-limit 0 *.dfy`.
A few proofs can need more than the default 30-second time limit on a slow
machine, so the time limit is lifted and the solver's effort is capped by a
resource limit instead.

## Model

| member | source | states |
|---|---|---|
| Strings.JoinSplit | src/utils/youtube.js:6 | `split` is modelled faithfully: joining its segments with the separator gives the string back. |
| Strings.SecondSegment | src/utils/youtube.js:6 | `s.split(sep)[1]` is present iff `sep` occurs, and it is the text between the first and the second occurrence (or the end). |
| Strings.ReplaceFirstOnlyFirst | src/utils/normalizeUrl.js:21 | `replace` with a string pattern rewrites only the first occurrence; everything before it and after it is kept. |
| Strings.ToLowerIdempotent | src/utils/detectPlatform.js:11 | Lower-casing twice is lower-casing once. |
| Strings.LastSegmentIsSuffix | src/components/SocialEmbed.jsx:9 | `split("/").pop()` is the `/`-free suffix after the last `/`, or the whole string without a `/`. |
| Platforms.FirstMatch | src/utils/detectPlatform.js:13-25 | An ordered rule table: the platform of the first rule with a matching marker wins, and no match gives Unknown. |
| DetectPlatform.DetectPlatformFromUrl | src/utils/detectPlatform.js:8-26 | A missing or empty URL is unknown; the result is one of six platforms; it is Unknown iff none of the seven markers occurs in the lower-cased URL. |
| DetectPlatform.MatchesRuleTable | src/utils/detectPlatform.js:13-22 | The classifier equals the ordered table youtube, tiktok, facebook (with `fb.watch`), instagram, twitter (with `x.com`), first match wins. |
| DetectPlatform.CaseInsensitive | src/utils/detectPlatform.js:11 | Two URLs with the same lower-cased form are classified alike. |
| DetectPlatform.LowerCasedInputSameResult | src/utils/detectPlatform.js:11 | Lower-casing the input first does not change the result. |
| DetectPlatform.FbWatchIsFacebook | src/utils/detectPlatform.js:17 | A `fb.watch` link without a YouTube or TikTok marker is Facebook. |
| PlatformUtils.DetectPlatform | src/utils/PlatformUtils.jsx:1-10 | An empty URL is unknown; otherwise the result is the first match of the table youtube, facebook, tiktok, instagram, twitter over the lower-cased URL. |
| PlatformUtils.CaseInsensitive | src/utils/PlatformUtils.jsx:3 | Two URLs with the same lower-cased form are classified alike. |
| PlatformUtils.AgreesWithDetectPlatformFromUrl | src/utils/PlatformUtils.jsx:4-9 | On URLs with no `fb.watch` and not both `facebook.com` and `tiktok.com`, the two classifiers agree. |
| PlatformUtils.FbWatchDiverges | src/utils/PlatformUtils.jsx:5 | A `fb.watch` link with no other marker is Unknown here but Facebook for the other classifier. |
| PlatformUtils.FacebookBeforeTikTok | src/utils/PlatformUtils.jsx:5-6 | A URL with both `facebook.com` and `tiktok.com` (and no YouTube marker) is Facebook here but TikTok for the other classifier. |
| YouTube.ExtractIdSpec | src/utils/youtube.js:6 | The nested split yields an id iff the marker occurs; the id is a prefix of the text after the first marker that contains neither the marker nor the stop string and ends where one of them starts. |
| YouTube.NestedCut | src/utils/youtube.js:12 | `split(marker)[1].split(stop)[0]` is the longest prefix free of both the marker and the stop string. |
| YouTube.ShortLinkRewrite | src/utils/youtube.js:5-7 | A link with `youtu.be/` becomes the embed prefix followed by the text after the first `youtu.be/`, up to the next `?` or `youtu.be/`. |
| YouTube.ShortLinkWithoutSlashUnchanged | src/utils/youtube.js:5-6 | A link with `youtu.be` but not `youtu.be/` makes the split throw, and the catch returns it unchanged. |
| YouTube.WatchLinkRewrite | src/utils/youtube.js:11-13 | A link with `watch?v=` and no `youtu.be` becomes the embed prefix followed by the text after the first `watch?v=`, up to the next `&` or `watch?v=`. |
| YouTube.OtherUrlsUnchanged | src/utils/youtube.js:17-21 | A link with neither marker is returned as it is. |
| YouTube.PrefixHasNoMarker | src/utils/youtube.js:7 | The embed prefix contains neither `youtu.be` nor `watch?v=`. |
| YouTube.RewrittenHasPrefix | src/utils/youtube.js:7 | A rewritten link starts with the embed prefix. |
| YouTube.EmbedLinkUnchanged | src/utils/youtube.js:17-18 | An embed link whose id has no marker is returned unchanged. |
| YouTube.RewriteIsIdempotent | src/utils/youtube.js:5-19 | Rewriting a rewritten link changes nothing when the id has no marker. |
| NormalizeUrl.NormalizeUrl | src/utils/normalizeUrl.js:2-47 | A parse failure or an unknown platform returns the input; YouTube uses the `v` parameter when truthy, else the youtu.be path without its first character; Facebook and Twitter wrap the encoded URL in their plugin links. |
| NormalizeUrl.InstagramEndsInEmbed | src/utils/normalizeUrl.js:26-28 | The Instagram result extends the input and ends in `/embed`; a trailing `/` is not doubled, so it ends in `//embed` only when the input ended in `//`. |
| NormalizeUrl.TikTokRewritesFirstOnly | src/utils/normalizeUrl.js:21 | Only the first `tiktok.com` becomes `www.tiktok.com/embed`; the text before and after it is unchanged. |
| NormalizeUrl.TikTokHostPosition | src/utils/normalizeUrl.js:21 | In a `https://www.tiktok.com` link the first `tiktok.com` starts at index 12. |
| NormalizeUrl.TikTokWwwDoubled | src/utils/normalizeUrl.js:21 | A `https://www.tiktok.com/...` link becomes `https://www.www.tiktok.com/embed/...`. |
| SocialEmbed.SocialEmbed | src/components/SocialEmbed.jsx:4-23 | Nothing iff the URL is empty; Unsupported iff none of the eight case-sensitive markers occurs; a crash iff `new URL` throws on a non-short YouTube link; Facebook links get the plugin frame, Instagram links get the link followed by `embed`, and Twitter links get the twitframe wrapper of the encoded link. |
| SocialEmbed.ShortLinkIdIsLastSegment | src/components/SocialEmbed.jsx:9-10 | A youtu.be link embeds its last `/` segment, a suffix of the link with no `/`, query included. |
| SocialEmbed.WatchLinkUsesVParameter | src/components/SocialEmbed.jsx:9-10 | A parsed youtube.com link embeds its `v` parameter, printed as "null" when absent. |
| SocialEmbed.PathRewrite | src/components/SocialEmbed.jsx:11-20 | TikTok links have the first `/video/` replaced by `/embed/v2/`, LinkedIn links the first `/posts/` by `/embed/feed/`. |
| SocialEmbed.XLinkUnsupported | src/components/SocialEmbed.jsx:17-22 | An `x.com` link with no other marker is unsupported here although the URL classifier calls it Twitter. |
| SocialEmbed.LowerKeepsMarker | src/components/SocialEmbed.jsx:8 | A lower-case marker found in a URL is still found after lower-casing the URL. |
| SocialEmbed.LowerMarkers | src/utils/detectPlatform.js:13-21 | The detector markers are already lower-case. |
| SocialEmbed.SupportedIsDetected | src/components/SocialEmbed.jsx:8-20 | Every supported non-LinkedIn link is recognised by the URL classifier. |
| SocialEmbed.InstagramAgreesWithNormalizeUrl | src/components/SocialEmbed.jsx:15-16 | The embed's Instagram frame equals `normalizeUrl`'s result iff the link ends in `/`; otherwise the `/` is missing. |
| SocialFeed.HandleAddPost | src/components/SocialFeed.jsx:44-71 | The error is cleared first; an empty or unsupported input sets its error and leaves posts alone; a success prepends the post, keeps the old posts in order and clears the input; a failure sets the error; loading ends false. |
| SocialFeed.AcceptedLinksAreDetected | src/components/SocialFeed.jsx:8-16 | Every accepted link is classified YouTube, TikTok, Facebook or Instagram. |
| SocialFeed.TwitterLinksRejected | src/components/SocialFeed.jsx:8-16 | A Twitter link without the five markers is rejected although it is classified Twitter. |
| SocialFeed.AcceptedLinksEmbed | src/components/SocialFeed.jsx:8-16 | Every accepted link can be embedded: `SocialEmbed` never calls it unsupported. |
| WatchPricing.CeilDiv | src/components/WatchTaskForm.jsx:59 | `Math.ceil(a / b)`: the least quotient whose multiple reaches `a`. |
| WatchPricing.PointsPerView | src/components/WatchTaskForm.jsx:58-59 | Points per view are an even number: twice the least number of 30-second blocks covering the duration. |
| WatchPricing.PointsPerViewOnOptions | src/components/WatchTaskForm.jsx:58-59 | 15 and 30 seconds cost 2 per view, 45 and 60 seconds cost 4. |
| WatchPricing.PointsPerViewMonotone | src/components/WatchTaskForm.jsx:59 | A longer duration never costs less per view. |
| WatchPricing.FundPerWatch | src/components/WatchTaskForm.jsx:60 | The fund `cost * watches` is a multiple of the watch count whose quotient is the reward per view, and is 0 only with no watches or no reward. |
| WatchPricing.FundBoundsOnOptions | src/components/WatchTaskForm.jsx:58-60 | Over the option lists the fund lies between 100 and 4000, and both bounds are reached. |
| WatchPricing.LoadedPoints | src/components/WatchTaskForm.jsx:44-51 | The loaded balance is `points || 0`; a failed request keeps the current balance. |
| WatchTaskForm.Recalculate | src/components/WatchTaskForm.jsx:58-64 | The warning shows iff the fund exceeds the balance (equality is affordable); nothing else changes. |
| WatchTaskForm.HandleSubmit | src/components/WatchTaskForm.jsx:66-103 | An empty or unparsable URL is refused first, then an unaffordable fund; a success takes the returned points (`??`, so 0 is kept) and resets url, duration 30, watches 100 and the warning; a failure sets the message; loading ends false. |
| WatchTaskForm.DisabledButtonMatchesRefusal | src/components/WatchTaskForm.jsx:167-169 | With a valid URL and no request running, the button is disabled exactly when the handler would refuse. |
| WatchTaskForm.WarningAfterSuccess | src/components/WatchTaskForm.jsx:86-93 | After a success the recalculated warning shows iff the new balance is below the default fund of 200. |
| WatchTaskForm.ZeroBalanceKept | src/components/WatchTaskForm.jsx:86 | A returned balance of 0 is kept rather than replaced by the old one. |
| SubmitTaskForm.Shortfall | src/components/SubmitTaskForm.jsx:72 | The shortfall is non-negative, 0 iff the points are affordable, and tops the balance up exactly to the points when unaffordable. |
| SubmitTaskForm.HandleSubmit | src/components/SubmitTaskForm.jsx:45-70 | An invalid URL is alerted first; unaffordable points only set the not-enough message; a success shows the remaining points, adopts them and clears the url; a failure sets the failure message; duration and watches never change. |
| SubmitTaskForm.RefusalAgreesWithShortfall | src/components/SubmitTaskForm.jsx:49-51 | The button is disabled iff there is a shortfall iff the handler shows the not-enough-points message. |
| SubmitTaskForm.UrlCheckedFirst | src/components/SubmitTaskForm.jsx:47-49 | An invalid URL is reported even when the points are unaffordable. |
| ActionPricing.Price | src/components/ActionTaskForm.jsx:6-11 | Exactly like, share, comment and follow are priced, at 5, 10, 15 and 20. |
| ActionTaskForm.UnitPrice | src/components/ActionTaskForm.jsx:42 | The unit price is the table's price, or 5 for an unknown action; it is always positive. |
| ActionTaskForm.Total | src/components/ActionTaskForm.jsx:41-44 | The total is a whole number of unit prices equal to the quantity, and 0 only for quantity 0. |
| ActionTaskForm.TotalMonotone | src/components/ActionTaskForm.jsx:43 | A larger quantity costs strictly more. |
| ActionTaskForm.HandleSubmit | src/components/ActionTaskForm.jsx:46-69 | An empty URL is refused, then a balance below the total; the handler keeps action, quantity and balance, and starts a balance refresh iff the request succeeds; a success clears the url and shows the server's message or "<action> task submitted!"; a failure shows the server's message or the fallback. |
| ActionTaskForm.Refreshed | src/components/ActionTaskForm.jsx:27-34 | The refresh changes only the balance: to `points || 0` on success, and not at all on failure. |
| ActionTaskForm.SuccessShowsServerBalance | src/components/ActionTaskForm.jsx:61-64 | A successful submit starts the refresh, and a non-zero balance from it replaces the shown one. |
| ActionTaskForm.ExactBalanceAccepted | src/components/ActionTaskForm.jsx:50 | A balance equal to the total is accepted. |
| Countdown.Tick | src/components/WatchPlayer.jsx:104-111 | A tick never goes below 0; it completes iff the time left is at most 1, and otherwise counts down by one. |
| Countdown.RunSpec | src/components/VideoPlayerWithTimer.jsx:52-60 | After `n` ticks from `t`, completion has fired iff `n >= 1` and `n >= t`; until then `t - n` seconds are left, afterwards 0. |
| VideoPlayerWithTimer.GetPlatform | src/components/VideoPlayerWithTimer.jsx:20-27 | The case-sensitive table youtube, tiktok, instagram, facebook, twitter, first match wins, else Unknown. |
| VideoPlayerWithTimer.Affordable | src/components/VideoPlayerWithTimer.jsx:41 | The filter keeps exactly the affordable durations, still in increasing order. |
| VideoPlayerWithTimer.InitialDuration | src/components/VideoPlayerWithTimer.jsx:39-42 | The initial duration is an option: the largest affordable one, or 30 when none is affordable. |
| VideoPlayerWithTimer.InitialDurationMaximisesPoints | src/components/VideoPlayerWithTimer.jsx:39-44 | The chosen duration is worth the most points among the affordable ones. |
| VideoPlayerWithTimer.VideoPoints | src/components/VideoPlayerWithTimer.jsx:44-49 | The video's points are a positive table value, at most one point per six seconds. |
| VideoPlayerWithTimer.TickCard | src/components/VideoPlayerWithTimer.jsx:52-60 | The card's tick counts down like the shared tick and reports the video points on completion only when there is no social action. |
| VideoPlayerWithTimer.ActionPrice | src/components/VideoPlayerWithTimer.jsx:70 | The action price is the table price, or 0 exactly for an unknown action. |
| VideoPlayerWithTimer.HandleAction | src/components/VideoPlayerWithTimer.jsx:68-85 | No social action does nothing; a price above the balance is refused; otherwise the reward is the video points plus the action price. |
| VideoPlayerWithTimer.ActionPriceAgreesWithForm | src/components/VideoPlayerWithTimer.jsx:13-18 | Known actions cost the same here as in the action form; unknown ones cost 0 here but 5 there. |
| VideoPlayerWithTimer.UnknownActionAlwaysRewarded | src/components/VideoPlayerWithTimer.jsx:70-84 | With a non-negative balance, an unknown action is never refused and rewards just the video points. |
| WatchPlayer.Start | src/components/WatchPlayer.jsx:98-101 | Starting clears `completed`, sets `isPlaying`, records the render's `completed` and balance as what the new interval's handler will read, and changes nothing else. |
| WatchPlayer.Stop | src/components/WatchPlayer.jsx:116-120 | Stopping clears `isPlaying`, resets the time to the task's duration and changes nothing else. |
| WatchPlayer.Earned | src/components/WatchPlayer.jsx:130 | The reward is the server's if truthy, else the task's points if truthy, and 0 only when neither is. |
| WatchPlayer.NewBalance | src/components/WatchPlayer.jsx:131 | The server's balance is kept whenever present, 0 included; otherwise the old balance plus the reward. |
| WatchPlayer.CompleteWatch | src/components/WatchPlayer.jsx:123-152 | A handler whose render saw `completed` does nothing, not even stop the player; otherwise the watch becomes completed and stopped, and a reply sets the reward and the balance computed from the balance that render saw. |
| WatchPlayer.CompleteWatchIdempotent | src/components/WatchPlayer.jsx:124 | The handler of any render after a completion changes nothing, whatever its reply. |
| WatchPlayer.TickPlayer | src/components/WatchPlayer.jsx:104-111 | A tick counts down, or at 1 or below sets the time to 0 and runs the handler captured when Play was pressed. |
| WatchPlayer.FirstPlayRewarded | src/components/WatchPlayer.jsx:98-136 | Play on a player that has not completed: the completing tick rewards the watch, stops the player and sets the balance. |
| WatchPlayer.RestartAfterCompletionStalls | src/components/WatchPlayer.jsx:98-126 | Play right after a completion: the completing tick only sets the time to 0; no reward, the balance is kept and the player stays playing with `completed` false. |
| WatchPlayer.StopAndPlayRewardsAgain | src/components/WatchPlayer.jsx:98-126 | From that stalled player, Stop then Play makes the next completing tick reward the watch again. |
| WatchPlayer.VideoMatchFrom | src/components/WatchPlayer.jsx:158 | The regex search finds the leftmost `video/` followed by a digit. |
| WatchPlayer.DigitRun | src/components/WatchPlayer.jsx:158 | `\d+` takes the longest run of digits. |
| WatchPlayer.TikTokVideoIdSpec | src/components/WatchPlayer.jsx:158 | The TikTok id exists iff some `video/` is followed by a digit, and it is the whole non-empty digit run after the leftmost one. |
| WatchPlayer.InstagramIdSpec | src/components/WatchPlayer.jsx:172 | The Instagram id exists iff `/reel/` occurs, and it is the `/`-free text after the first `/reel/` up to the next `/`. |
| WatchPlayer.YouTubeIdSpec | src/components/WatchPlayer.jsx:213 | The YouTube id is the text between the first and second `v=` when non-empty (later parameters are not cut off), else the last `/` segment. |
| WatchPlayer.RenderVideoEmbed | src/components/WatchPlayer.jsx:155-239 | The embed's kind is the first match of tiktok, instagram, facebook/fb.watch, twitter/x.com, youtube, and an unmatched URL is framed as it is. |
| WatchTikTokPromo.StartTime | src/pages/promoted/WatchTikTokPromo.jsx:14 | A video's timer starts at its duration, or 30 when that is falsy; never at 0. |
| WatchTikTokPromo.InitTimers | src/pages/promoted/WatchTikTokPromo.jsx:13-15 | The timer keys are exactly the fetched ids and no timer starts at 0. |
| WatchTikTokPromo.InitTimersLastWins | src/pages/promoted/WatchTikTokPromo.jsx:13-15 | A video that no later video shares an id with sets that id's start time, so the last video with an id wins. |
| WatchTikTokPromo.FetchedTimers | src/pages/promoted/WatchTikTokPromo.jsx:9-17 | A failed fetch keeps the timers, missing data gives none, otherwise they are initialised from the videos. |
| WatchTikTokPromo.TickTimers | src/pages/promoted/WatchTikTokPromo.jsx:22-26 | A tick keeps the key set, counts every positive timer down by one and leaves the rest alone. |
| WatchTikTokPromo.TickKeepsNonNegative | src/pages/promoted/WatchTikTokPromo.jsx:24 | No non-negative timer goes negative. |
| WatchTikTokPromo.TickNSpec | src/pages/promoted/WatchTikTokPromo.jsx:20-29 | After `n` ticks a positive timer is down by `n` but not below 0, others are unchanged, and no id is added or lost. |
| WatchTikTokPromo.EnabledAfterStartTime | src/pages/promoted/WatchTikTokPromo.jsx:54 | For a timer started at `t > 0`, Complete is disabled after `n` ticks iff `n < t`. |
| WatchTikTokPromo.Skip | src/pages/promoted/WatchTikTokPromo.jsx:39 | Skipping removes exactly the videos with that id. |
| WatchTikTokPromo.SkipConcat | src/pages/promoted/WatchTikTokPromo.jsx:39 | The filter keeps the order of the others: it distributes over concatenation. |
| WatchTikTokPromo.SkipIdempotent | src/pages/promoted/WatchTikTokPromo.jsx:39 | A list without the id is unchanged, so skipping twice is skipping once. |
| WatchTikTokPromo.Complete | src/pages/promoted/WatchTikTokPromo.jsx:31-37 | A successful completion removes the video like a skip; a failed one keeps the list. |
| Promotion.Lookup | src/pages/Dashboard.jsx:80 | `table?.[key]` is present iff the table is present and has the key. |
| Promotion.BaseCost | src/pages/PromotedTasks.jsx:60 | The base cost is the task's own cost when truthy, else 50; never 0. |
| Promotion.MarkPromoted | src/pages/Dashboard.jsx:94-96 | Same length and order; a task is promoted afterwards iff it was or has the id; no other field changes. |
| Promotion.MarkPromotedIdempotent | src/pages/Dashboard.jsx:94-96 | Marking twice is marking once. |
| Promotion.Promote | src/pages/Dashboard.jsx:76-105 | No user does nothing; a balance below the cost is refused with the cost in the alert and no state change; otherwise the loading id ends null, a failure alerts "Failed to promote task", and a success adopts the remaining points and marks the task. |
| Promotion.DisabledAfterSuccess | src/pages/Dashboard.jsx:172 | After a successful promotion a button is disabled iff its task has the promoted id or was promoted already. |
| Dashboard.Merge | src/pages/Dashboard.jsx:56-61 | The feed is the video tasks tagged "video" followed by the social tasks tagged "social"; missing lists count as empty; its length is the sum. |
| Dashboard.MergeKinds | src/pages/Dashboard.jsx:58-61 | An entry is a video task iff it lies in the first part, a social task iff in the second. |
| Dashboard.FetchData | src/pages/Dashboard.jsx:50-67 | A failed fetch changes nothing; otherwise lists, feed and costs are replaced, the costs being the body's `data` field, or `{}` without one. |
| Dashboard.RefreshForgetsLocalMarks | src/pages/Dashboard.jsx:56-63 | The feed after a refresh does not depend on the feed before it. |
| Dashboard.ResolveCost | src/pages/Dashboard.jsx:79-81 | The task's own cost or 50, replaced by the truthy platform entry for a video task or action entry for a social task, keyed by the lower-cased name; never 0. |
| Dashboard.ResolveCostCaseInsensitive | src/pages/Dashboard.jsx:80-81 | Lower-casing the task's platform and action first does not change the cost. |
| Dashboard.HandlePromote | src/pages/Dashboard.jsx:76-105 | The handler charges the cost the feed displays, refusing below it and marking the task on success; the lists and costs are untouched. |
| Dashboard.RefusalNamesDisplayedCost | src/pages/Dashboard.jsx:79-86 | With a failing request, the alert names the displayed cost iff the balance is below it. |
| TaskFeed.ResolveCost | src/context/TaskFeed.jsx:26-31 | The base is the table's truthy global cost or 50, with the task's own cost ignored; platform or action entries override it when truthy; never 0. |
| TaskFeed.FetchCosts | src/context/TaskFeed.jsx:11-21 | The feed's table is the whole cost body of a successful fetch; a failure keeps the table. |
| TaskFeed.AgreeOnlyOnDefault | src/context/TaskFeed.jsx:14-15 | Given one cost body, the feed reads its top-level fields and the dashboard its `data`; when only one level holds a table and the task has no own cost, they charge the same iff both charge 50. |
| TaskFeed.OwnCostIgnored | src/context/TaskFeed.jsx:26 | With a body holding no table, a task carrying its own cost of 80 costs 80 on the dashboard and 50 in the feed. |
| TaskFeed.HandlePromote | src/context/TaskFeed.jsx:23-53 | No user does nothing; a balance below the cost is refused; otherwise the loading task ends null, only the clicked entry can change, and a success alerts `res.message` ("undefined" when absent), adopts the remaining points and marks that entry. |
| TaskFeed.MarkingAgreesWhenIdsDistinct | src/context/TaskFeed.jsx:47 | With distinct ids, marking the clicked entry equals the dashboard's marking by id. |
| TaskFeed.DuplicateIdMarkedOnce | src/context/TaskFeed.jsx:47 | With a repeated id only the clicked copy is marked. |
| PromotedTasks.NormalizeType | src/pages/PromotedTasks.jsx:25 | "watch" becomes "video", every other type is kept, and the result is never "watch". |
| PromotedTasks.Endpoint | src/pages/PromotedTasks.jsx:15-17 | The request path starts with `/tasks/promoted/` and ends with `/` and the platform. |
| PromotedTasks.SameEndpointIffSameType | src/pages/PromotedTasks.jsx:15-25 | Two route types request the same path for a platform exactly when they normalise to the same type. |
| PromotedTasks.WatchIsVideo | src/pages/PromotedTasks.jsx:25 | The route types "watch" and "video" request the same path and render the same page. |
| PromotedTasks.TasksData | src/pages/PromotedTasks.jsx:40 | `data.tasks` when present, else the body itself, else `[]`; the result is not a list only for a body object without `tasks`. |
| PromotedTasks.InitialPage | src/pages/PromotedTasks.jsx:27-29 | The page starts loading, with no tasks and no loading id. |
| PromotedTasks.Fetch | src/pages/PromotedTasks.jsx:34-52 | Nothing happens without a truthy platform; otherwise loading ends, a failure empties the list and a reply sets it. |
| PromotedTasks.CardButton | src/pages/PromotedTasks.jsx:123-135 | A promoted task's button shows no cost and is disabled; any other task's button shows its base cost and is disabled only while its own request runs. |
| PromotedTasks.Render | src/pages/PromotedTasks.jsx:94-135 | Loading shows only the loading line; a non-list crashes; the empty list shows the notice; otherwise there is one button per task, in order, as the card rules give it, and watch types embed a player. |
| PromotedTasks.NoPlatformStaysLoading | src/pages/PromotedTasks.jsx:50-52 | A route without a platform never leaves the loading line. |
| PromotedTasks.FailedFetchShowsEmpty | src/pages/PromotedTasks.jsx:43-46 | A failed fetch shows the empty notice. |
| PromotedTasks.HandlePromote | src/pages/PromotedTasks.jsx:57-89 | The handler charges the base cost, refuses below it, and on success marks the task and adopts the remaining points. |
| PromotedTasks.DisplayedCostIsCharged | src/pages/PromotedTasks.jsx:57-64 | A card not yet promoted shows a cost, and with a failing request the alert names that cost iff the balance is below it. |
| History.OfKind | src/pages/History.jsx:35-39 | A group is no longer than the history, holds only entries of its type, and is empty when the type does not occur. |
| History.OfKindMembers | src/pages/History.jsx:35-39 | An entry is in a group exactly when it is in the history and has the group's type. |
| History.Group | src/pages/History.jsx:35-39 | The keys are distinct and are exactly the types that occur; each type's array is exactly its entries. |
| History.AddEntryGroups | src/pages/History.jsx:36-37 | One reducer step keeps the grouping faithful to the history seen so far. |
| History.FirstIndex | src/pages/History.jsx:36 | The position of the first entry of a type. |
| History.KeysInFirstSeenOrder | src/pages/History.jsx:35-39 | The group keys are ordered by where each type first occurs. |
| History.Sum | src/pages/History.jsx:51-58 | The count is the number of entries; the points are their sum (non-negative for non-negative amounts). |
| History.GroupSumSnoc | src/pages/History.jsx:110-117 | One more entry adds to the groups' sum exactly once when its type is a key. |
| History.TotalsPartition | src/pages/History.jsx:108-117 | Over distinct keys covering every type, the per-group totals add up to the grand totals. |
| History.GroupTotalsAddUp | src/pages/History.jsx:108-117 | Under the "all" filter the group totals add up to the grand totals. |
| History.FilteredKeys | src/pages/History.jsx:60-61 | "all" shows every key; another filter shows its own key iff that group exists, else none. |
| History.FilterShowsOnlyItsType | src/pages/History.jsx:60-61 | A specific filter shows at most its own group, and shows it iff some entry has that type. |
| History.Label | src/pages/History.jsx:41-49 | A known type shows its label, any other type shows itself. |
| History.Fetched | src/pages/History.jsx:11-19 | A failed fetch changes nothing; otherwise the balance is `balance || 0` and the history `history || []`. |
| History.Pushed | src/pages/History.jsx:25-30 | A push replaces balance and history iff its id is strictly equal to the stored one, and leaves the page unchanged otherwise. |
| History.PushReachesOnlyItsUser | src/pages/History.jsx:26 | A push with an id reaches only that stored id; an explicit `null` reaches only a browser with no stored id; a push without an id reaches nobody. |
| History.Sections | src/pages/History.jsx:104-131 | An empty history lists no group; otherwise one section per shown key with its label, its entries and their totals. |
| Wallet.FetchWallet | src/pages/Wallet.jsx:24-35 | Loading ends; a success replaces the wallet; a failure keeps it and toasts the server message or "Failed to fetch wallet". |
| Wallet.Redeem | src/pages/Wallet.jsx:42-57 | NaN, 0 and negative amounts are refused without a request; a success clears the input and refetches; a failure keeps it and toasts the server message or "Redeem failed". |
| Wallet.Transfer | src/pages/Wallet.jsx:60-77 | An empty recipient is refused before the amount is checked; a success clears both inputs and refetches; a failure keeps them and toasts the server message or "Transfer failed". |
| Wallet.TransferNeedsRecipientAndAmount | src/pages/Wallet.jsx:62-67 | A transfer refetches iff it has a recipient, a positive amount and a successful reply; a refused one leaves the page unchanged. |
| Wallet.HandlersCommute | src/pages/Wallet.jsx:42-77 | Redeem and transfer commute: either order gives the same page, and each handler's toast and refetch are unaffected by the other. |
| Wallet.Reverse | src/pages/Wallet.jsx:93 | The reversed copy has the same length, with entry `i` taken from the end. |
| Wallet.ReverseInvolution | src/pages/Wallet.jsx:93 | Reversing twice gives the history back. |
| Wallet.ReverseSameElements | src/pages/Wallet.jsx:93 | The reversed copy holds the same transactions. |
| Wallet.Label | src/pages/Wallet.jsx:14-21 | A known type shows its label, any other type shows itself. |
| Wallet.Counterparty | src/pages/Wallet.jsx:99-103 | "from" the sender when present, else "to" the recipient, and empty iff neither is present. |
| Wallet.Rows | src/pages/Wallet.jsx:93-106 | No history lists nothing; otherwise one row per transaction, newest first, with its label, amount and counterparty. |
| Wallet.NewestFirst | src/pages/Wallet.jsx:93 | The last transaction heads the list. |
| AdminRoute.Guard | src/components/AdminRoute.jsx:9-15 | Exactly one outcome: login iff there is no user, the page iff the role is exactly "admin", the dashboard otherwise. |
| AdminRoute.RoleMustMatchExactly | src/components/AdminRoute.jsx:12 | "Admin" and a missing role are not admins. |
| AdminRoute.SignedInRoutedByAdminRoleOnly | src/components/AdminRoute.jsx:9-15 | Two signed-in users are routed alike iff both or neither have the role "admin". |
| DailyLoginCalendar.MonthLength | src/components/DailyLoginCalendar.jsx:11 | Months have 28 to 31 days; February has 29 iff the year is a leap year; April, June, September and November have 30. |
| DailyLoginCalendar.DaysInMonth | src/components/DailyLoginCalendar.jsx:11 | Day 0 of the next month is the last day of this one; years 0 to 99 mean 19xx. |
| DailyLoginCalendar.MonthRollsOver | src/components/DailyLoginCalendar.jsx:11 | A month index twelve higher is the same month a year later. |
| DailyLoginCalendar.TwoDigitYear | src/components/DailyLoginCalendar.jsx:11 | Year 0 is read as 1900, so its February has 28 days. |
| DailyLoginCalendar.Days | src/components/DailyLoginCalendar.jsx:12 | The day list has `n` entries, entry `i` being `i + 1`. |
| DailyLoginCalendar.DaysExact | src/components/DailyLoginCalendar.jsx:12 | The days are exactly 1 to `n`, strictly increasing. |
| DailyLoginCalendar.Style | src/components/DailyLoginCalendar.jsx:20-28 | Green iff claimed; grey iff unclaimed and past; pulsing iff unclaimed and today. |
| DailyLoginCalendar.StylesExclusive | src/components/DailyLoginCalendar.jsx:26-28 | A cell has at most one style, and an unclaimed future day has none. |
| DailyLoginCalendar.Calendar | src/components/DailyLoginCalendar.jsx:4-28 | Nothing iff there is no `dailyLogin`; otherwise one styled cell per day of its month. |
| DailyLoginCalendar.ClaimedDaysShowGreen | src/components/DailyLoginCalendar.jsx:20-26 | A claimed day of the month is green whatever today is. |

## Left out

- Strings.ToLower: lower-cases ASCII `A`-`Z` only; other Unicode case mappings of `toLowerCase` are not modelled.
- The `URL` constructor is the parameter `parsed` (hostname, pathname, `v` query value), and `encodeURIComponent` is the parameter `encode`. Their internals are not modelled.
- `Number()` on an input is the parameter `number`, and `new Date().getDate()` is the parameter `today`.
- Socket.IO pushes and emits, `setInterval`/`setTimeout` timing, `alert` and toast display, `window.open` and navigation are not modelled. Ticks are explicit function calls; message auto-clearing after four seconds is not modelled.
- WatchPlayer.CompleteWatch: the handler's captured `task` is taken to be the current one (a task change stops the timer first), and the balance a `walletUpdated` socket event sets between Play and completion is not modelled.
- WatchPlayer: the progress percentage uses floating-point division and is not modelled.
- SocialFeed: `loadPosts` on mount (src/components/SocialFeed.jsx:31-39) is not modelled. It only copies the fetched list or sets "Failed to load posts".
- ActionTaskForm: the initial total `ACTION_POINTS[initialAction] * 10` is NaN for an unknown initial action. It is not modelled because the first recalculation replaces it.
- Dashboard.HandlePromote, PromotedTasks.HandlePromote: the `fetchLeaderboard()` call after a successful promotion (src/pages/Dashboard.jsx:98, src/pages/PromotedTasks.jsx:82) is not modelled. It refreshes the shared `LeaderboardContext`, which is not part of this model.
- Strings.ReplaceFirst: `$` patterns in the replacement string are not interpreted. None of the replacements used contain `$`.
- History.Group: keys that name `Object.prototype` members (such as "constructor") and the integer-like key ordering of JavaScript objects are not modelled. Keys keep insertion order.
- Promotion.Lookup, ActionPricing.Price, VideoPlayerWithTimer.ActionPrice and the label tables: a lookup such as `table?.[key]` or `ACTION_POINTS[action]` also finds inherited `Object.prototype` members ("constructor", "toString"), which are truthy. These are not modelled; only the table's own keys are found.
- SubmitTaskForm.HandleSubmit: a success reply without `remainingPoints` (undefined) is not modelled. The reply is a number.
- Dashboard, PromotedTasks and TaskFeed: a success payload whose `remainingPoints` is undefined is not modelled. Task `platform` and `action` are assumed to be strings, so `toLowerCase()` does not throw.
- WatchTikTokPromo.InitTimers: non-numeric durations are not modelled. Durations are integers or missing.
- History.Pushed: a push whose `balance` or `history` is undefined is not modelled.
- TaskFeed: the cost table is a parameter of `ResolveCost` and `HandlePromote`; `FetchCosts` says how a fetch sets it, and a failed fetch leaves it as `{}` (`NoCosts`) at first.
- PromotedTasks.HandlePromote requires the fetched value to be a list, because the promote buttons exist only then.
- Wallet: the success toasts carry the parsed amount as a real number; JavaScript's number-to-text formatting is not modelled.

=== FILE: action_pricing.dfy ===
/** The `ACTION_POINTS` table of social actions and their point prices,
    declared identically in src/components/ActionTaskForm.jsx and
    src/components/VideoPlayerWithTimer.jsx. */
module ActionPricing {
  import opened Js

  const ActionPoints: map<string, int> := map["like" := 5, "share" := 10, "comment" := 15, "follow" := 20]

  /** `ACTION_POINTS[action]`, `None` for an action the table lacks. */
  function Price(action: string): (p: Option<int>)
    ensures p.Some? <==> action in {"like", "share", "comment", "follow"}
    ensures p.Some? ==> p.value > 0 && p.value % 5 == 0
    ensures action == "like" ==> p == Some(5)
    ensures action == "share" ==> p == Some(10)
    ensures action == "comment" ==> p == Some(15)
    ensures action == "follow" ==> p == Some(20)
  {
    if action in ActionPoints then Some(ActionPoints[action]) else None
  }
}

=== FILE: action_task_form.dfy ===
/** `ActionTaskForm` (src/components/ActionTaskForm.jsx): the form that buys
    likes, shares, comments or follows. The total is recalculated by an
    effect; the submit handler checks the URL and the balance. */
module ActionTaskForm {
  import opened Js
  import opened ActionPricing
  import Arith
  import WatchPricing

  const QuantityOptions: seq<nat> := [10, 20, 50, 100, 200, 500, 1000]

  /** The form state; `totalPoints` is not stored, it is always
      `Total(action, quantity)` once the effect has run. */
  datatype Form = Form(url: string, action: string, quantity: nat, userPoints: int, msg: string)

  const InvalidUrlAlert := "Paste a valid URL"
  const NotEnoughAlert := CrossMark + " Not enough points to submit this task!"
  const FailedMsg := CrossMark + " Submission failed!"

  /** `ACTION_POINTS[selectedAction] || 5`. */
  function UnitPrice(action: string): (p: int)
    ensures p > 0
    ensures Price(action).Some? ==> p == Price(action).value
    ensures Price(action).None? ==> p == 5
  {
    IntOr(Price(action), 5)
  }

  /** `base * quantity`. */
  function Total(action: string, quantity: nat): (t: int)
    ensures t >= 0
    ensures t == 0 <==> quantity == 0
    ensures t % UnitPrice(action) == 0 && t / UnitPrice(action) == quantity
  {
    Arith.MultipleOf(UnitPrice(action), quantity);
    UnitPrice(action) * quantity
  }

  /** For a fixed action the total grows with the quantity, strictly. */
  lemma TotalMonotone(action: string, q1: nat, q2: nat)
    requires q1 < q2
    ensures Total(action, q1) < Total(action, q2)
  {
    var p := UnitPrice(action);
    assert p * q2 == p * q1 + p * (q2 - q1);
  }

  /** What a submit did: the form after it, the alert shown, if any, and
      whether it started `fetchUserPoints()` to refresh the balance. */
  datatype Submitted = Submitted(form: Form, alert: Option<string>, refresh: bool)

  /** `handleSubmit`. `reply` is the `/tasks/action` request: `Ok(m)` with
      `m` the `res.data.message`, or the rejection. The handler itself keeps
      the balance; a success starts the refresh that replaces it (see
      `Refreshed`). */
  function HandleSubmit(f: Form, reply: Outcome<Option<string>>): (r: Submitted)
    ensures f.url == "" ==> r == Submitted(f, Some(InvalidUrlAlert), false)
    ensures f.url != "" && f.userPoints < Total(f.action, f.quantity) ==> r == Submitted(f, Some(NotEnoughAlert), false)
    ensures r.alert.None? <==> f.url != "" && f.userPoints >= Total(f.action, f.quantity)
    ensures r.refresh <==> r.alert.None? && reply.Ok?
    ensures r.form.action == f.action && r.form.quantity == f.quantity && r.form.userPoints == f.userPoints
    ensures r.alert.None? && reply.Ok? ==>
      r.form.url == "" && r.form.msg == CheckMark + " " + StrOr(reply.data, f.action + " task submitted!")
    ensures r.alert.None? && reply.Failed? ==> r.form == f.(msg := StrOr(reply.message, FailedMsg))
  {
    if f.url == "" then Submitted(f, Some(InvalidUrlAlert), false)
    else if f.userPoints < Total(f.action, f.quantity) then Submitted(f, Some(NotEnoughAlert), false)
    else
      match reply
      case Ok(message) =>
        Submitted(f.(msg := CheckMark + " " + StrOr(message, f.action + " task submitted!"), url := ""), None, true)
      case Failed(message) => Submitted(f.(msg := StrOr(message, FailedMsg)), None, false)
  }

  /** `fetchUserPoints()`, on mount and after a successful submit: `reply`
      is the `/users/me` request, `Some(points)` with `res.data.points`, or
      `None` when it fails. Only the balance can change. */
  function Refreshed(f: Form, reply: Option<Option<int>>): (g: Form)
    ensures g.(userPoints := f.userPoints) == f
    ensures reply.None? ==> g == f
    ensures reply.Some? ==> g.userPoints == IntOr(reply.value, 0)
  {
    f.(userPoints := WatchPricing.LoadedPoints(f.userPoints, reply))
  }

  /** A successful submit refreshes the balance: once the refresh answers
      with a non-zero balance, the form shows it; a refused or failed submit
      starts no refresh. */
  lemma SuccessShowsServerBalance(f: Form, message: Option<string>, points: int)
    requires f.url != "" && f.userPoints >= Total(f.action, f.quantity)
    requires points != 0
    ensures HandleSubmit(f, Ok(message)).refresh
    ensures Refreshed(HandleSubmit(f, Ok(message)).form, Some(Some(points))).userPoints == points
  {
  }

  /** A balance equal to the total is enough. */
  lemma ExactBalanceAccepted(f: Form, reply: Outcome<Option<string>>)
    requires f.url != "" && f.userPoints == Total(f.action, f.quantity)
    ensures HandleSubmit(f, reply).alert.None?
  {
  }
}

=== FILE: admin_route.dfy ===
/** `AdminRoute` (src/components/AdminRoute.jsx): the guard in front of the
    admin pages. */
module AdminRoute {
  import opened Js

  /** The field of the signed-in user the guard reads. */
  datatype User = User(role: Option<string>)

  /** Where the guard sends the visitor. */
  datatype Access = ToLogin | ToDashboard | Children

  /** No user goes to the login page, a user whose role is not exactly
      "admin" goes to the dashboard, and only an admin sees the page. */
  function Guard(user: Option<User>): (a: Access)
    ensures a == ToLogin <==> user.None?
    ensures a == Children <==> user.Some? && user.value.role == Some("admin")
    ensures a == ToDashboard <==> user.Some? && user.value.role != Some("admin")
  {
    match user
    case None => ToLogin
    case Some(u) => if u.role != Some("admin") then ToDashboard else Children
  }

  /** The role comparison is exact: a differently cased or missing role is
      not an admin. */
  lemma RoleMustMatchExactly()
    ensures Guard(Some(User(Some("Admin")))) == ToDashboard
    ensures Guard(Some(User(None))) == ToDashboard
  {
  }

  /** The role is all the guard reads of a signed-in user: two signed-in
      users are routed alike iff both or neither have the role "admin". */
  lemma SignedInRoutedByAdminRoleOnly(u1: User, u2: User)
    ensures Guard(Some(u1)) == Guard(Some(u2)) <==>
      (u1.role == Some("admin") <==> u2.role == Some("admin"))
  {
  }
}

=== FILE: arith.dfy ===
/** Integer facts the price rules rely on: a product by a positive factor
    is a multiple of it, and dividing it back gives the other factor. */
module Arith {
  /** `p * q` is a multiple of `p` whose quotient is `q`. */
  lemma MultipleOf(p: int, q: nat)
    requires p > 0
    ensures p * q >= 0 && (p * q == 0 <==> q == 0)
    ensures (p * q) % p == 0 && (p * q) / p == q
  {
    var t := p * q;
    var d := t / p;
    var r := t % p;
    assert t == p * d + r && 0 <= r < p;
    assert p * (q - d) == r;
    ProductBounds(p, q - d);
  }

  /** A non-zero multiple of a positive `p` is at least `p` away from 0. */
  lemma ProductBounds(p: int, k: int)
    requires p > 0
    ensures k >= 1 ==> p * k >= p
    ensures k <= -1 ==> p * k <= -p
  {
  }
}

=== FILE: countdown.dfy ===
/** The one-second countdown used by the watch players
    (src/components/VideoPlayerWithTimer.jsx and src/components/WatchPlayer.jsx):
    each tick maps the time left `prev` to `prev - 1`, or, once `prev <= 1`,
    to 0 while clearing the interval and signalling completion. */
module Countdown {

  datatype Step = Step(next: int, done: bool)

  /** One tick of the `setTimeLeft(prev => ...)` updater. */
  function Tick(prev: int): (s: Step)
    ensures s.next >= 0
    ensures s.done <==> prev <= 1
    ensures s.done ==> s.next == 0
    ensures !s.done ==> s.next == prev - 1 && s.next >= 1
  {
    if prev <= 1 then Step(0, true) else Step(prev - 1, false)
  }

  /** `n` ticks of a running interval starting from `t`; the interval is
      cleared, so ticking stops, once a tick signals completion. */
  function Run(t: int, n: nat): (s: Step)
    decreases n
  {
    if n == 0 then Step(t, false)
    else
      var first := Tick(t);
      if first.done then first else Run(first.next, n - 1)
  }

  /** Completion is signalled within `n` ticks exactly when `n` reaches the
      starting time (and at least one tick has happened); until then the
      time left is `t - n`, and afterwards it stays 0. */
  lemma {:induction false} RunSpec(t: int, n: nat)
    ensures Run(t, n).done <==> n >= 1 && n >= t
    ensures Run(t, n).next == if Run(t, n).done then 0 else t - n
    ensures Run(t, n).next >= 0 || n == 0
    decreases n
  {
    if n > 0 && t > 1 {
      RunSpec(t - 1, n - 1);
    }
  }
}

=== FILE: daily_login_calendar.dfy ===
/** `DailyLoginCalendar` (src/components/DailyLoginCalendar.jsx): one cell
    per day of the given month, each styled as claimed, missed or today.
    The current day of the month is the parameter `today`; like the
    component, it is compared with every month shown, not only the current
    one. */
module DailyLoginCalendar {
  import opened Js

  /** The `dailyLogin` prop. */
  datatype DailyLogin = DailyLogin(claimedDays: seq<int>, month: int, year: int)

  /** Leap years of the proleptic Gregorian calendar `Date` uses. */
  predicate IsLeap(y: int) {
    y % 4 == 0 && (y % 100 != 0 || y % 400 == 0)
  }

  /** The length of month `m` (0 = January) of year `y`. */
  function MonthLength(y: int, m: int): (n: int)
    requires 0 <= m < 12
    ensures 28 <= n <= 31
    ensures n == 29 <==> m == 1 && IsLeap(y)
    ensures n == 28 <==> m == 1 && !IsLeap(y)
    ensures n == 30 <==> m in {3, 5, 8, 10}
  {
    if m == 1 then (if IsLeap(y) then 29 else 28)
    else if m in {3, 5, 8, 10} then 30
    else 31
  }

  /** `new Date(year, month + 1, 0).getDate()`: day 0 of the next month is
      the last day of month `month`. A year from 0 to 99 means 1900 plus
      that year, and a month outside 0..11 rolls over into the neighbouring
      years. */
  function DaysInMonth(year: int, month: int): (n: int)
    ensures 28 <= n <= 31
    ensures 0 <= month < 12 && year >= 100 ==> n == MonthLength(year, month)
    ensures 0 <= year <= 99 && 0 <= month < 12 ==> n == MonthLength(1900 + year, month)
  {
    var y := if 0 <= year <= 99 then 1900 + year else year;
    MonthLength(y + month / 12, month % 12)
  }

  /** A month index twelve higher is the same month a year later. */
  lemma MonthRollsOver(year: int, month: int)
    requires year >= 100
    ensures DaysInMonth(year, month + 12) == DaysInMonth(year + 1, month)
  {
    assert (month + 12) / 12 == month / 12 + 1;
    assert (month + 12) % 12 == month % 12;
  }

  /** A two-digit year is read as 19xx: year 0 is not a leap year here,
      although the proleptic calendar makes year 0 one. */
  lemma TwoDigitYear()
    ensures IsLeap(0) && DaysInMonth(0, 1) == 28
    ensures DaysInMonth(2000, 1) == 29
  {
  }

  /** `Array.from({ length: n }, (_, i) => i + 1)`. */
  function Days(n: nat): (ds: seq<int>)
    ensures |ds| == n
    ensures forall i :: 0 <= i < n ==> ds[i] == i + 1
  {
    seq(n, i requires 0 <= i < n => i + 1)
  }

  /** The cells are exactly the days 1..n, each once, in increasing order. */
  lemma DaysExact(n: nat)
    ensures forall d :: d in Days(n) <==> 1 <= d <= n
    ensures forall i, j :: 0 <= i < j < n ==> Days(n)[i] < Days(n)[j]
  {
    forall d | 1 <= d <= n ensures d in Days(n) {
      assert Days(n)[d - 1] == d;
    }
  }

  /** The three style classes of a day's cell. */
  datatype Cell = Cell(day: int, claimed: bool, missed: bool, current: bool)

  /** Claimed days are green; unclaimed past days are grey; today, if
      unclaimed, pulses. */
  function Style(day: int, claimedDays: seq<int>, today: int): (c: Cell)
    ensures c.day == day
    ensures c.claimed <==> day in claimedDays
    ensures c.missed <==> day !in claimedDays && day < today
    ensures c.current <==> day !in claimedDays && day == today
  {
    var isClaimed := day in claimedDays;
    Cell(day, isClaimed, !isClaimed && day < today, day == today && !isClaimed)
  }

  /** A cell carries at most one of the styles, and an unclaimed future day
      carries none. */
  lemma StylesExclusive(day: int, claimedDays: seq<int>, today: int)
    ensures var c := Style(day, claimedDays, today);
      !(c.claimed && c.missed) && !(c.claimed && c.current) && !(c.missed && c.current)
    ensures day !in claimedDays && day > today ==> Style(day, claimedDays, today) == Cell(day, false, false, false)
  {
  }

  /** The rendered calendar: nothing without a `dailyLogin`, otherwise one
      styled cell per day of its month. */
  function Calendar(dailyLogin: Option<DailyLogin>, today: int): (r: Option<seq<Cell>>)
    ensures r.None? <==> dailyLogin.None?
    ensures r.Some? ==>
      var d := dailyLogin.value;
      && |r.value| == DaysInMonth(d.year, d.month)
      && forall i :: 0 <= i < |r.value| ==> r.value[i] == Style(i + 1, d.claimedDays, today)
  {
    match dailyLogin
    case None => None
    case Some(d) =>
      var days := Days(DaysInMonth(d.year, d.month));
      Some(seq(|days|, i requires 0 <= i < |days| => Style(days[i], d.claimedDays, today)))
  }

  /** Every claimed day of the month shows green, whatever `today` is. */
  lemma ClaimedDaysShowGreen(d: DailyLogin, today: int, day: int)
    requires 1 <= day <= DaysInMonth(d.year, d.month) && day in d.claimedDays
    ensures Calendar(Some(d), today).value[day - 1].claimed
  {
  }
}

=== FILE: dashboard.dfy ===
/** `Dashboard` (src/pages/Dashboard.jsx): the merged task feed built from
    the video and social task lists, the per-task promotion cost, and the
    promote handler. The three fetches are one reply parameter: any of
    them failing leaves the page as it was. */
module Dashboard {
  import opened Js
  import opened Strings
  import opened Promotion

  /** `ts.map(t => ({ ...t, type: kind }))`. */
  function Tag(ts: seq<Task>, kind: string): (r: seq<Task>)
    ensures |r| == |ts|
    ensures forall i :: 0 <= i < |ts| ==> r[i] == ts[i].(kind := kind)
  {
    seq(|ts|, i requires 0 <= i < |ts| => ts[i].(kind := kind))
  }

  /** The unified feed: the video tasks (tagged "video") followed by the
      social tasks (tagged "social"); a missing list counts as empty. */
  function Merge(videos: Option<seq<Task>>, social: Option<seq<Task>>): (r: seq<Task>)
    ensures |r| == |videos.GetOr([])| + |social.GetOr([])|
    ensures forall i :: 0 <= i < |videos.GetOr([])| ==> r[i] == videos.GetOr([])[i].(kind := "video")
    ensures forall i :: 0 <= i < |social.GetOr([])| ==>
      r[|videos.GetOr([])| + i] == social.GetOr([])[i].(kind := "social")
  {
    Tag(videos.GetOr([]), "video") + Tag(social.GetOr([]), "social")
  }

  /** Every merged task is a video or a social task, and the video ones
      come first. */
  lemma MergeKinds(videos: Option<seq<Task>>, social: Option<seq<Task>>)
    ensures var r := Merge(videos, social);
      forall i :: 0 <= i < |r| ==>
        (r[i].kind == "video" <==> i < |videos.GetOr([])|)
        && (r[i].kind == "social" <==> i >= |videos.GetOr([])|)
  {
    var r := Merge(videos, social);
    var n := |videos.GetOr([])|;
    forall i | 0 <= i < |r|
      ensures (r[i].kind == "video" <==> i < n) && (r[i].kind == "social" <==> i >= n)
    {
      if i >= n {
        assert r[n + (i - n)] == social.GetOr([])[i - n].(kind := "social");
      }
    }
  }

  /** The `data` fields of the two task payloads and the whole cost body. */
  datatype Fetched = Fetched(videos: Option<seq<Task>>, social: Option<seq<Task>>, costs: CostsBody)

  datatype Page = Page(videos: seq<Task>, actions: seq<Task>, costs: CostTable, state: State)

  /** `fetchData()`; `reply` is `None` when one of the three requests
      throws, in which case nothing is set. */
  function FetchData(p: Page, reply: Option<Fetched>): (r: Page)
    ensures reply.None? ==> r == p
    ensures r.state.user == p.state.user && r.state.loadingId == p.state.loadingId
    ensures reply.Some? ==>
      && r.videos == reply.value.videos.GetOr([])
      && r.actions == reply.value.social.GetOr([])
      && r.state.tasks == Merge(reply.value.videos, reply.value.social)
      && r.costs == reply.value.costs.data.GetOr(NoCosts)
  {
    match reply
    case None => p
    case Some(f) =>
      Page(f.videos.GetOr([]), f.social.GetOr([]), f.costs.data.GetOr(NoCosts),
           p.state.(tasks := Merge(f.videos, f.social)))
  }

  /** A refresh replaces the feed wholesale: the tasks afterwards do not
      depend on the feed before, so a task marked promoted locally shows as
      promoted after the next five-second refresh only if the server says so. */
  lemma RefreshForgetsLocalMarks(p1: Page, p2: Page, f: Fetched)
    ensures FetchData(p1, Some(f)).state.tasks == FetchData(p2, Some(f)).state.tasks
    ensures FetchData(p1, Some(f)).costs == FetchData(p2, Some(f)).costs
  {
  }

  /** `task.promoteCost || 50`, then, for a video task, the cost table's
      entry for the lower-cased platform, or, for a social task, its entry
      for the lower-cased action, when that entry is truthy. */
  function ResolveCost(t: Task, costs: CostTable): (c: int)
    ensures c != 0
    ensures t.kind == "video" ==>
      var e := Lookup(costs.platforms, ToLower(t.platform));
      (TruthyInt(e) ==> c == e.value) && (!TruthyInt(e) ==> c == BaseCost(t))
    ensures t.kind == "social" ==>
      var e := Lookup(costs.actions, ToLower(t.action));
      (TruthyInt(e) ==> c == e.value) && (!TruthyInt(e) ==> c == BaseCost(t))
    ensures t.kind != "video" && t.kind != "social" ==> c == BaseCost(t)
  {
    var base := BaseCost(t);
    if t.kind == "video" then IntOr(Lookup(costs.platforms, ToLower(t.platform)), base)
    else if t.kind == "social" then IntOr(Lookup(costs.actions, ToLower(t.action)), base)
    else base
  }

  /** The table lookup ignores the case of the platform and action names. */
  lemma ResolveCostCaseInsensitive(t: Task, costs: CostTable)
    ensures ResolveCost(t.(platform := ToLower(t.platform), action := ToLower(t.action)), costs)
         == ResolveCost(t, costs)
  {
    ToLowerIdempotent(t.platform);
    ToLowerIdempotent(t.action);
  }

  /** `handlePromote(task)`: the shared handler, charged the same cost the
      feed displays on the task's button. */
  function HandlePromote(p: Page, t: Task, reply: Option<Option<PromoteData>>): (r: (Page, Option<string>))
    ensures r.0.videos == p.videos && r.0.actions == p.actions && r.0.costs == p.costs
    ensures p.state.user.Some? && p.state.user.value.points < ResolveCost(t, p.costs) ==>
      r == (p, Some(NeedAlert(ResolveCost(t, p.costs))))
    ensures p.state.user.Some? && p.state.user.value.points >= ResolveCost(t, p.costs)
            && reply.Some? && reply.value.Some? ==>
      && r.0.state.user == Some(User(reply.value.value.remainingPoints))
      && r.0.state.tasks == MarkPromoted(p.state.tasks, t.id)
  {
    var (s, alert) := Promote(p.state, t, ResolveCost(t, p.costs), reply);
    (p.(state := s), alert)
  }

  /** With a failing request, the alert asks for the displayed cost
      exactly when the balance is below it; otherwise it reports the
      failure. */
  lemma RefusalNamesDisplayedCost(p: Page, t: Task)
    requires p.state.user.Some?
    ensures var c := ResolveCost(t, p.costs);
      HandlePromote(p, t, None).1 == Some(NeedAlert(c)) <==> p.state.user.value.points < c
  {
    var c := ResolveCost(t, p.costs);
    assert FailedAlert[0] == 'F';
    assert NeedAlert(c)[0] == 'Y';
  }
}

=== FILE: detect_platform.dfy ===
/** `detectPlatformFromUrl` (src/utils/detectPlatform.js): an ordered,
    case-insensitive substring classifier. */
module DetectPlatform {
  import opened Js
  import opened Strings
  import opened Platforms

  /** The checks in source order: youtube, tiktok, facebook, instagram, twitter. */
  const Rules: seq<Rule> := [
    Rule(["youtube.com", "youtu.be"], YouTube),
    Rule(["tiktok.com"], TikTok),
    Rule(["facebook.com", "fb.watch"], Facebook),
    Rule(["instagram.com"], Instagram),
    Rule(["x.com", "twitter.com"], Twitter)
  ]

  /** None of the seven markers occurs in `l`. */
  predicate NoMarker(l: string) {
    && !Contains(l, "youtube.com") && !Contains(l, "youtu.be")
    && !Contains(l, "tiktok.com")
    && !Contains(l, "facebook.com") && !Contains(l, "fb.watch")
    && !Contains(l, "instagram.com")
    && !Contains(l, "x.com") && !Contains(l, "twitter.com")
  }

  /** `detectPlatformFromUrl(url)`. `None` stands for every value that is not
      a string (null, undefined, a number, an object). */
  function DetectPlatformFromUrl(url: Option<string>): (r: Platform)
    ensures r in {YouTube, TikTok, Facebook, Instagram, Twitter, Unknown}
    ensures url.None? || url.value == "" ==> r == Unknown
    ensures url.Some? && url.value != "" ==> (r == Unknown <==> NoMarker(ToLower(url.value)))
  {
    if url.None? || url.value == "" then Unknown
    else
      var lowerUrl := ToLower(url.value);
      if Contains(lowerUrl, "youtube.com") || Contains(lowerUrl, "youtu.be") then YouTube
      else if Contains(lowerUrl, "tiktok.com") then TikTok
      else if Contains(lowerUrl, "facebook.com") || Contains(lowerUrl, "fb.watch") then Facebook
      else if Contains(lowerUrl, "instagram.com") then Instagram
      else if Contains(lowerUrl, "x.com") || Contains(lowerUrl, "twitter.com") then Twitter
      else Unknown
  }

  /** The if-chain is the ordered rule table applied to the lower-cased URL:
      the first rule that matches wins. */
  lemma MatchesRuleTable(s: string)
    requires s != ""
    ensures DetectPlatformFromUrl(Some(s)) == FirstMatch(Rules, ToLower(s))
  {
    RulesInOrder(ToLower(s));
  }

  /** The table, rule by rule. */
  lemma RulesInOrder(l: string)
    ensures FirstMatch(Rules, l) ==
      if Contains(l, "youtube.com") || Contains(l, "youtu.be") then YouTube
      else if Contains(l, "tiktok.com") then TikTok
      else if Contains(l, "facebook.com") || Contains(l, "fb.watch") then Facebook
      else if Contains(l, "instagram.com") then Instagram
      else if Contains(l, "x.com") || Contains(l, "twitter.com") then Twitter
      else Unknown
  {
    FirstMatchOfFive(Rules, l);
    TwoMarkers("youtube.com", "youtu.be", l);
    OneMarker("tiktok.com", l);
    TwoMarkers("facebook.com", "fb.watch", l);
    OneMarker("instagram.com", l);
    TwoMarkers("x.com", "twitter.com", l);
  }

  /** The result depends only on the lower-cased input. */
  lemma CaseInsensitive(s: string, t: string)
    requires ToLower(s) == ToLower(t)
    ensures DetectPlatformFromUrl(Some(s)) == DetectPlatformFromUrl(Some(t))
  {
  }

  /** Lower-casing the input first changes nothing. */
  lemma LowerCasedInputSameResult(s: string)
    ensures DetectPlatformFromUrl(Some(ToLower(s))) == DetectPlatformFromUrl(Some(s))
  {
    ToLowerIdempotent(s);
  }

  /** A `fb.watch` short link is a Facebook link here (it is not in
      `detectPlatform`, see PlatformUtils). */
  lemma FbWatchIsFacebook(s: string)
    requires var l := ToLower(s);
      Contains(l, "fb.watch") && !Contains(l, "youtube.com") && !Contains(l, "youtu.be")
      && !Contains(l, "tiktok.com")
    ensures DetectPlatformFromUrl(Some(s)) == Facebook
  {
  }
}

=== FILE: history.dfy ===
/** `History` (src/pages/History.jsx): the wallet history grouped by entry
    type in first-seen order, the grand totals, the per-group totals, the
    type filter and the group labels. The fetch and the socket push are
    functions of their replies. */
module History {
  import opened Js

  /** The fields of a history entry the page reads; `kind` is `type`. */
  datatype Entry = Entry(kind: string, amount: int)

  // ---------------------------------------------------------------------------
  // Grouping
  // ---------------------------------------------------------------------------

  /** The entries of one type, in history order. */
  function OfKind(h: seq<Entry>, k: string): (r: seq<Entry>)
    ensures |r| <= |h|
    ensures forall i :: 0 <= i < |r| ==> r[i].kind == k
    ensures (forall i :: 0 <= i < |h| ==> h[i].kind != k) ==> r == []
    decreases |h|
  {
    if |h| == 0 then []
    else
      var init := OfKind(h[..|h| - 1], k);
      var last := h[|h| - 1];
      if last.kind == k then init + [last] else init
  }

  /** A group holds exactly the history's entries of its type. */
  lemma {:induction false} OfKindMembers(h: seq<Entry>, k: string)
    ensures forall e :: e in OfKind(h, k) <==> e in h && e.kind == k
    decreases |h|
  {
    if |h| > 0 {
      var last := h[|h| - 1];
      OfKindMembers(h[..|h| - 1], k);
      assert h == h[..|h| - 1] + [last];
    }
  }

  /** The set of types occurring in the history. */
  function Kinds(h: seq<Entry>): set<string> {
    set e | e in h :: e.kind
  }

  /** The grouped object: its keys in insertion order and its arrays. */
  datatype Groups = Groups(keys: seq<string>, items: map<string, seq<Entry>>)

  predicate Distinct(ks: seq<string>) {
    forall i, j :: 0 <= i < j < |ks| ==> ks[i] != ks[j]
  }

  /** One more entry extends its own type's list and no other. */
  lemma OfKindSnoc(h: seq<Entry>, e: Entry, k: string)
    ensures OfKind(h + [e], k) == if e.kind == k then OfKind(h, k) + [e] else OfKind(h, k)
  {
    assert (h + [e])[..|h + [e]| - 1] == h;
  }

  /** One more entry adds its type to the set of types. */
  lemma KindsSnoc(h: seq<Entry>, e: Entry)
    ensures Kinds(h + [e]) == Kinds(h) + {e.kind}
  {
    forall x | x in h + [e] ensures x in h || x == e { }
    forall x | x in h ensures x in h + [e] { }
  }

  /** The reducer's step: push `e` onto its type's array, appending the
      type as a new key when it is seen for the first time. */
  function AddEntry(g: Groups, e: Entry): Groups {
    if e.kind in g.items then Groups(g.keys, g.items[e.kind := g.items[e.kind] + [e]])
    else Groups(g.keys + [e.kind], g.items[e.kind := [e]])
  }

  /** What a grouping of `h` satisfies. */
  ghost predicate GroupsOf(g: Groups, h: seq<Entry>) {
    && Distinct(g.keys)
    && (forall k :: k in g.keys <==> k in g.items)
    && g.items.Keys == Kinds(h)
    && (forall k :: k in g.items ==> g.items[k] == OfKind(h, k))
  }

  /** The step keeps the keys distinct and in step with the arrays. */
  lemma AddEntryKeys(g: Groups, h: seq<Entry>, e: Entry)
    requires GroupsOf(g, h)
    ensures var r := AddEntry(g, e);
      Distinct(r.keys) && (forall k :: k in r.keys <==> k in r.items) && r.items.Keys == Kinds(h + [e])
  {
    KindsSnoc(h, e);
  }

  /** The step keeps every array equal to its type's entries. */
  lemma AddEntryItems(g: Groups, h: seq<Entry>, e: Entry)
    requires GroupsOf(g, h)
    ensures var r := AddEntry(g, e);
      forall k :: k in r.items ==> r.items[k] == OfKind(h + [e], k)
  {
    var r := AddEntry(g, e);
    forall k | k in r.items ensures r.items[k] == OfKind(h + [e], k) {
      OfKindSnoc(h, e, k);
      if k == e.kind && e.kind !in g.items {
        forall i | 0 <= i < |h| ensures h[i].kind != k {
          assert h[i] in h;
        }
      }
    }
  }

  /** The step keeps the grouping faithful to the history. */
  lemma AddEntryGroups(g: Groups, h: seq<Entry>, e: Entry)
    requires GroupsOf(g, h)
    ensures GroupsOf(AddEntry(g, e), h + [e])
  {
    AddEntryKeys(g, h, e);
    AddEntryItems(g, h, e);
  }

  /** `history.reduce(...)` with the step above, from `{}`. */
  function Group(h: seq<Entry>): (g: Groups)
    ensures Distinct(g.keys)
    ensures forall k :: k in g.keys <==> k in g.items
    ensures g.items.Keys == Kinds(h)
    ensures forall k :: k in g.items ==> g.items[k] == OfKind(h, k)
    decreases |h|
  {
    if |h| == 0 then Groups([], map[])
    else
      var init := h[..|h| - 1];
      var e := h[|h| - 1];
      assert h == init + [e];
      AddEntryGroups(Group(init), init, e);
      AddEntry(Group(init), e)
  }

  /** The position of the first entry of type `k`. */
  function FirstIndex(h: seq<Entry>, k: string): (i: nat)
    requires k in Kinds(h)
    ensures i < |h| && h[i].kind == k
    ensures forall j :: 0 <= j < i ==> h[j].kind != k
    decreases |h|
  {
    if h[0].kind == k then 0
    else
      assert k in Kinds(h[1..]) by {
        var e :| e in h && e.kind == k;
        var j :| 0 <= j < |h| && h[j] == e;
        assert h[1..][j - 1] == e;
      }
      1 + FirstIndex(h[1..], k)
  }

  /** A prefix keeps the first occurrence of a type it contains. */
  lemma FirstIndexInPrefix(h: seq<Entry>, n: nat, k: string)
    requires n <= |h| && k in Kinds(h[..n])
    ensures k in Kinds(h) && FirstIndex(h[..n], k) == FirstIndex(h, k)
  {
    var i := FirstIndex(h[..n], k);
    assert h[i] == h[..n][i];
    assert h[i] in h;
    forall j | 0 <= j < i ensures h[j].kind != k {
      assert h[..n][j] == h[j];
    }
  }

  /** Keys naming types of `h`, ordered by where each type first occurs. */
  ghost predicate FirstSeenOrder(ks: seq<string>, h: seq<Entry>) {
    && (forall i :: 0 <= i < |ks| ==> ks[i] in Kinds(h))
    && (forall i, j :: 0 <= i < j < |ks| ==> FirstIndex(h, ks[i]) < FirstIndex(h, ks[j]))
  }

  /** Types already seen keep their first index when an entry is added,
      and that index lies before the new entry. */
  lemma SeenKeepFirstIndex(ks: seq<string>, h: seq<Entry>, e: Entry)
    requires forall i :: 0 <= i < |ks| ==> ks[i] in Kinds(h)
    ensures forall i :: 0 <= i < |ks| ==>
      && ks[i] in Kinds(h + [e])
      && FirstIndex(h + [e], ks[i]) == FirstIndex(h, ks[i]) < |h|
  {
    var h' := h + [e];
    assert h'[..|h|] == h;
    forall i | 0 <= i < |ks|
      ensures ks[i] in Kinds(h') && FirstIndex(h', ks[i]) == FirstIndex(h, ks[i]) < |h|
    {
      FirstIndexInPrefix(h', |h|, ks[i]);
    }
  }

  /** A type seen for the first time is first seen at the new entry. */
  lemma NewKindFirstIndex(h: seq<Entry>, e: Entry)
    requires e.kind !in Kinds(h)
    ensures e.kind in Kinds(h + [e]) && FirstIndex(h + [e], e.kind) == |h|
  {
    var h' := h + [e];
    assert h'[|h|] == e;
    forall j | 0 <= j < |h| ensures h'[j].kind != e.kind {
      assert h'[j] == h[j] && h[j] in h;
    }
  }

  /** The reducer's step keeps the keys in first-seen order. */
  lemma AddEntryKeepsOrder(g: Groups, h: seq<Entry>, e: Entry)
    requires (forall k :: k in g.keys <==> k in g.items) && g.items.Keys == Kinds(h)
    requires FirstSeenOrder(g.keys, h)
    ensures FirstSeenOrder(AddEntry(g, e).keys, h + [e])
  {
    var h' := h + [e];
    SeenKeepFirstIndex(g.keys, h, e);
    if e.kind in g.items {
      assert AddEntry(g, e).keys == g.keys;
    } else {
      NewKindFirstIndex(h, e);
      var ks := g.keys + [e.kind];
      assert AddEntry(g, e).keys == ks;
      forall i | 0 <= i < |ks| ensures ks[i] in Kinds(h') {
        if i < |g.keys| {
          assert ks[i] == g.keys[i];
        }
      }
      forall i, j | 0 <= i < j < |ks| ensures FirstIndex(h', ks[i]) < FirstIndex(h', ks[j]) {
        assert ks[i] == g.keys[i];
        if j < |g.keys| {
          assert ks[j] == g.keys[j];
        }
      }
    }
  }

  /** The keys appear in the order the types are first seen in the
      history. */
  lemma {:induction false} KeysInFirstSeenOrder(h: seq<Entry>)
    ensures FirstSeenOrder(Group(h).keys, h)
    decreases |h|
  {
    if |h| > 0 {
      var init := h[..|h| - 1];
      var e := h[|h| - 1];
      assert h == init + [e];
      KeysInFirstSeenOrder(init);
      AddEntryKeepsOrder(Group(init), init, e);
    }
  }

  // ---------------------------------------------------------------------------
  // Totals
  // ---------------------------------------------------------------------------

  datatype Totals = Totals(count: int, points: int)

  function Plus(a: Totals, b: Totals): Totals {
    Totals(a.count + b.count, a.points + b.points)
  }

  /** `items.reduce((acc, h) => { acc.count += 1; acc.points += h.amount; ... })`. */
  function Sum(h: seq<Entry>): (t: Totals)
    ensures t.count == |h|
    ensures (forall i :: 0 <= i < |h| ==> h[i].amount >= 0) ==> t.points >= 0
    decreases |h|
  {
    if |h| == 0 then Totals(0, 0)
    else Plus(Sum(h[..|h| - 1]), Totals(1, h[|h| - 1].amount))
  }

  /** `f(k)` added up over the keys, in key order. */
  function SumOver(keys: seq<string>, f: string -> Totals): Totals
    decreases |keys|
  {
    if |keys| == 0 then Totals(0, 0)
    else Plus(SumOver(keys[..|keys| - 1], f), f(keys[|keys| - 1]))
  }

  /** The totals summed over the given groups. */
  function GroupSum(keys: seq<string>, h: seq<Entry>): Totals {
    SumOver(keys, k => Sum(OfKind(h, k)))
  }

  /** Over distinct keys, raising one key's value by `d` raises the sum by
      `d` when that key is present and leaves it alone otherwise. */
  lemma {:induction false} SumOverBump(keys: seq<string>, f: string -> Totals, g: string -> Totals,
                                       x: string, d: Totals)
    requires Distinct(keys)
    requires forall k :: g(k) == if k == x then Plus(f(k), d) else f(k)
    ensures SumOver(keys, g) == if x in keys then Plus(SumOver(keys, f), d) else SumOver(keys, f)
    decreases |keys|
  {
    if |keys| > 0 {
      DistinctInit(keys);
      SumOverBump(keys[..|keys| - 1], f, g, x, d);
    }
  }

  /** One more entry adds its amount to the groups' sum once if its type is
      among the keys and not at all otherwise. */
  lemma GroupSumSnoc(keys: seq<string>, h: seq<Entry>, e: Entry)
    requires Distinct(keys)
    ensures GroupSum(keys, h + [e]) ==
      if e.kind in keys then Plus(GroupSum(keys, h), Totals(1, e.amount)) else GroupSum(keys, h)
  {
    var f := k => Sum(OfKind(h, k));
    var g := k => Sum(OfKind(h + [e], k));
    forall k ensures g(k) == if k == e.kind then Plus(f(k), Totals(1, e.amount)) else f(k) {
      KeySumSnoc(h, e, k);
    }
    SumOverBump(keys, f, g, e.kind, Totals(1, e.amount));
  }

  /** One more entry adds to its own type's totals and no other's. */
  lemma KeySumSnoc(h: seq<Entry>, e: Entry, k: string)
    ensures Sum(OfKind(h + [e], k)) ==
      if e.kind == k then Plus(Sum(OfKind(h, k)), Totals(1, e.amount)) else Sum(OfKind(h, k))
  {
    OfKindSnoc(h, e, k);
    if e.kind == k {
      SumSnoc(OfKind(h, k), e);
    }
  }

  /** The keys before the last are distinct and do not contain the last. */
  lemma DistinctInit(keys: seq<string>)
    requires Distinct(keys) && |keys| > 0
    ensures Distinct(keys[..|keys| - 1])
    ensures keys[|keys| - 1] !in keys[..|keys| - 1]
    ensures forall x :: x in keys <==> x in keys[..|keys| - 1] || x == keys[|keys| - 1]
  {
    assert keys == keys[..|keys| - 1] + [keys[|keys| - 1]];
    var init := keys[..|keys| - 1];
    forall i | 0 <= i < |init| ensures init[i] != keys[|keys| - 1] {
      assert init[i] == keys[i];
    }
  }

  /** Totalling one more entry adds one to the count and its amount to the
      points. */
  lemma SumSnoc(h: seq<Entry>, e: Entry)
    ensures Sum(h + [e]) == Plus(Sum(h), Totals(1, e.amount))
  {
    assert (h + [e])[..|h + [e]| - 1] == h;
  }

  /** Groups over distinct keys covering every type add up to the grand
      totals: the per-group counts and points partition the history's. */
  lemma {:induction false} TotalsPartition(keys: seq<string>, h: seq<Entry>)
    requires Distinct(keys)
    requires forall e :: e in h ==> e.kind in keys
    ensures GroupSum(keys, h) == Sum(h)
    decreases |h|
  {
    if |h| == 0 {
      GroupSumOfEmpty(keys, h);
    } else {
      var init := h[..|h| - 1];
      var e := h[|h| - 1];
      assert h == init + [e];
      assert e in h;
      TotalsPartition(keys, init);
      GroupSumSnoc(keys, init, e);
    }
  }

  /** Without entries every group is empty. */
  lemma {:induction false} GroupSumOfEmpty(keys: seq<string>, h: seq<Entry>)
    requires |h| == 0
    ensures GroupSum(keys, h) == Totals(0, 0)
  {
    var f := k => Sum(OfKind(h, k));
    forall k ensures f(k) == Totals(0, 0) {
      assert OfKind(h, k) == [];
    }
    SumOverZero(keys, f);
  }

  /** Summing nothing but zeros gives zero. */
  lemma {:induction false} SumOverZero(keys: seq<string>, f: string -> Totals)
    requires forall k :: f(k) == Totals(0, 0)
    ensures SumOver(keys, f) == Totals(0, 0)
    decreases |keys|
  {
    if |keys| > 0 {
      SumOverZero(keys[..|keys| - 1], f);
    }
  }

  /** The per-group totals shown under the "all" filter add up to the grand
      totals shown at the top. */
  lemma GroupTotalsAddUp(h: seq<Entry>)
    ensures GroupSum(Group(h).keys, h) == Sum(h)
  {
    var g := Group(h);
    forall e | e in h ensures e.kind in g.keys {
      assert e.kind in Kinds(h);
    }
    TotalsPartition(g.keys, h);
  }

  // ---------------------------------------------------------------------------
  // Filter and labels
  // ---------------------------------------------------------------------------

  /** `filter === "all" ? Object.keys(grouped) : [filter].filter(f => grouped[f])`. */
  function FilteredKeys(g: Groups, filter: string): (r: seq<string>)
    ensures filter == "all" ==> r == g.keys
    ensures filter != "all" ==> (r == [filter] <==> filter in g.items) && (r == [] <==> filter !in g.items)
  {
    if filter == "all" then g.keys
    else if filter in g.items then [filter]
    else []
  }

  /** A specific filter shows its group exactly when some entry has that
      type, and then shows only that group. */
  lemma FilterShowsOnlyItsType(h: seq<Entry>, filter: string)
    requires filter != "all"
    ensures var ks := FilteredKeys(Group(h), filter);
      (|ks| == 1 <==> exists e :: e in h && e.kind == filter) && (|ks| <= 1) && (forall k :: k in ks ==> k == filter)
  {
    if exists e :: e in h && e.kind == filter {
      var e :| e in h && e.kind == filter;
      assert filter in Kinds(h);
    }
  }

  const TypeLabels: map<string, string> := map[
    "video-view" := "🎥 Video Views",
    "action" := "👍 Social Actions",
    "redeem" := "💰 Redeems",
    "transfer_in" := "🔄 Received Transfers",
    "transfer_out" := "↗️ Sent Transfers",
    "admin_add" := "🛠️ Admin Added",
    "admin_deduct" := "🛠️ Admin Deducted"
  ]

  /** `typeLabels[type] || type`. */
  function Label(kind: string): (r: string)
    ensures kind in TypeLabels ==> r == TypeLabels[kind]
    ensures kind !in TypeLabels ==> r == kind
  {
    LabelOr(TypeLabels, kind)
  }

  // ---------------------------------------------------------------------------
  // Page state
  // ---------------------------------------------------------------------------

  datatype Page = Page(currentPoints: int, history: seq<Entry>)

  /** The `data` of `/wallet`. */
  datatype WalletData = WalletData(balance: Option<int>, history: Option<seq<Entry>>)

  /** `fetchHistory()`: `reply` is `None` when the request throws or its
      payload has no `data`; absent fields default to 0 and []. */
  function Fetched(p: Page, reply: Option<WalletData>): (r: Page)
    ensures reply.None? ==> r == p
    ensures reply.Some? ==> r.currentPoints == IntOr(reply.value.balance, 0)
    ensures reply.Some? ==> r.history == reply.value.history.GetOr([])
  {
    match reply
    case None => p
    case Some(d) => Page(IntOr(d.balance, 0), d.history.GetOr([]))
  }

  /** The `userId` a push carries: absent, an explicit `null`, or an id. */
  datatype PushedId = Undefined | Null | Id(id: string)

  /** A `walletUpdated` push. */
  datatype Update = Update(userId: PushedId, balance: int, history: seq<Entry>)

  /** `data.userId === localStorage.getItem("userId")`, where the stored
      side is `null` when no id is stored: an id matches the same stored id,
      an explicit `null` matches an empty store, and an absent id never
      matches (`undefined === null` is false). */
  predicate SameUser(pushed: PushedId, storedId: Option<string>) {
    match pushed
    case Undefined => false
    case Null => storedId.None?
    case Id(s) => storedId == Some(s)
  }

  /** The push replaces the balance and history exactly when its id is
      strictly equal to the stored one; otherwise the page is unchanged. */
  function Pushed(p: Page, storedId: Option<string>, u: Update): (r: Page)
    ensures SameUser(u.userId, storedId) ==> r == Page(u.balance, u.history)
    ensures !SameUser(u.userId, storedId) ==> r == p
  {
    if SameUser(u.userId, storedId) then Page(u.balance, u.history) else p
  }

  /** Who a push reaches: a push naming an id reaches only the user with
      that id stored; a push with an explicit `null` reaches only a browser
      with nothing stored; a push without an id reaches nobody. */
  lemma PushReachesOnlyItsUser(p: Page, storedId: Option<string>, u: Update)
    requires u.history != p.history
    ensures u.userId.Id? ==> (Pushed(p, storedId, u) != p <==> storedId == Some(u.userId.id))
    ensures u.userId.Null? ==> (Pushed(p, storedId, u) != p <==> storedId.None?)
    ensures u.userId.Undefined? ==> Pushed(p, storedId, u) == p
  {
  }

  /** What the page lists: nothing when the history is empty, otherwise each
      shown group's label, entries and totals. */
  datatype Section = Section(title: string, items: seq<Entry>, totals: Totals)

  function Sections(h: seq<Entry>, filter: string): (r: seq<Section>)
    ensures |h| == 0 ==> r == []
    ensures |h| > 0 ==> |r| == |FilteredKeys(Group(h), filter)|
    ensures |h| > 0 ==> forall i :: 0 <= i < |r| ==>
      var k := FilteredKeys(Group(h), filter)[i];
      r[i].title == Label(k) && r[i].items == OfKind(h, k) && r[i].totals == Sum(OfKind(h, k))
  {
    if |h| == 0 then []
    else
      var g := Group(h);
      var ks := FilteredKeys(g, filter);
      seq(|ks|, i requires 0 <= i < |ks| =>
        var items := if ks[i] in g.items then g.items[ks[i]] else [];
        Section(Label(ks[i]), items, Sum(items)))
  }
}

=== FILE: js.dfy ===
/** JavaScript value semantics the front-end relies on.

    A field that may be `null` or `undefined` is an `Option`. The two fallback
    operators differ: `a || d` falls back on every falsy value (for numbers:
    missing and 0; for strings: missing and ""), whereas `a ?? d` falls back
    only on a missing value. NaN never reaches these operators in the modelled
    code and is not represented. */
module Js {

  datatype Option<+T> = None | Some(value: T) {
    /** `this ?? d`: the value when present, whatever it is. */
    function GetOr(d: T): T {
      match this
      case Some(v) => v
      case None => d
    }
  }

  /** A number is truthy when it is present and non-zero. */
  predicate TruthyInt(x: Option<int>) {
    x.Some? && x.value != 0
  }

  /** A string is truthy when it is present and non-empty. */
  predicate TruthyStr(x: Option<string>) {
    x.Some? && x.value != ""
  }

  /** `x || d` on a number. */
  function IntOr(x: Option<int>, d: int): (r: int)
    ensures TruthyInt(x) ==> r == x.value
    ensures !TruthyInt(x) ==> r == d
    ensures r == 0 ==> (x.None? || x.value == 0) && d == 0
  {
    if TruthyInt(x) then x.value else d
  }

  /** `x || d` on a string. */
  function StrOr(x: Option<string>, d: string): (r: string)
    ensures TruthyStr(x) ==> r == x.value
    ensures !TruthyStr(x) ==> r == d
  {
    if TruthyStr(x) then x.value else d
  }

  /** The marks the forms put in front of success and failure messages. */
  const CheckMark := "✅"
  const CrossMark := "❌"

  /** A request's outcome: the data it resolved with, or the rejection with
      the server's `err.response?.data?.message`, if any. */
  datatype Outcome<T> = Ok(data: T) | Failed(message: Option<string>)

  /** `table[key] || key` for a table of non-empty labels. */
  function LabelOr(table: map<string, string>, key: string): (r: string)
    requires forall k :: k in table ==> table[k] != ""
    ensures key in table ==> r == table[key]
    ensures key !in table ==> r == key
    ensures r == "" ==> key == ""
  {
    if key in table then table[key] else key
  }
}

=== FILE: normalize_url.dfy ===
/** `normalizeUrl` (src/utils/normalizeUrl.js): per-platform embed rewriting
    behind a `try` around `new URL(url)`. The parse result and
    `encodeURIComponent` are parameters. */
module NormalizeUrl {
  import opened Js
  import opened Strings
  import opened Url
  import YouTube

  const FacebookPlugin := "https://www.facebook.com/plugins/video.php?href="
  const FacebookOptions := "&show_text=0&width=560"
  const TwitFrame := "https://twitframe.com/show?url="

  /** `normalizeUrl(url, platform)`. `parsed` is `new URL(url)`, `None` when it
      throws; `encode` is `encodeURIComponent`. */
  function NormalizeUrl(url: string, platform: string, parsed: Option<ParsedUrl>,
                        encode: string -> string): (r: string)
    ensures parsed.None? ==> r == url
    ensures platform !in {"youtube", "tiktok", "instagram", "facebook", "twitter"} ==> r == url
    ensures parsed.Some? && platform == "youtube" && TruthyStr(parsed.value.v) ==>
      r == YouTube.EmbedPrefix + parsed.value.v.value
    ensures parsed.Some? && platform == "youtube" && !TruthyStr(parsed.value.v) ==>
      r == (if parsed.value.hostname == "youtu.be"
            then YouTube.EmbedPrefix + Tail(parsed.value.pathname) else url)
    ensures parsed.Some? && platform == "facebook" ==>
      r == FacebookPlugin + encode(url) + FacebookOptions
    ensures parsed.Some? && platform == "twitter" ==> r == TwitFrame + encode(url)
  {
    match parsed
    case None => url
    case Some(u) =>
      if platform == "youtube" then
        var videoId := u.v;
        if TruthyStr(videoId) then YouTube.EmbedPrefix + videoId.value
        else if u.hostname == "youtu.be" then YouTube.EmbedPrefix + Tail(u.pathname)
        else url
      else if platform == "tiktok" then
        ReplaceFirst(url, "tiktok.com", "www.tiktok.com/embed")
      else if platform == "instagram" then
        if EndsWith(url, "/") then url + "embed" else url + "/embed"
      else if platform == "facebook" then
        FacebookPlugin + encode(url) + FacebookOptions
      else if platform == "twitter" then
        TwitFrame + encode(url)
      else url
  }

  /** `s.slice(1)`: everything but the first character; "" stays "". */
  function Tail(s: string): string {
    if |s| == 0 then s else s[1..]
  }

  /** Instagram: the result is the input followed by `embed` or `/embed`, so it
      always ends in `/embed`, and a trailing `/` is not doubled: the result
      ends in `//embed` only when the input already ended in `//`. */
  lemma InstagramEndsInEmbed(url: string, u: ParsedUrl, encode: string -> string)
    ensures var r := NormalizeUrl(url, "instagram", Some(u), encode);
      && |url| < |r| && r[..|url|] == url
      && EndsWith(r, "/embed")
      && (EndsWith(r, "//embed") <==> EndsWith(url, "//"))
  {
    var r := NormalizeUrl(url, "instagram", Some(u), encode);
    if EndsWith(url, "/") {
      assert r == url + "embed";
      assert r[|r| - 6..] == url[|url| - 1..] + "embed";
      if |url| >= 2 {
        assert r[|r| - 7..] == url[|url| - 2..] + "embed";
      }
    } else {
      assert r == url + "/embed";
      assert r[|r| - 6..] == "/embed";
      if |url| >= 1 {
        assert r[|r| - 7..] == url[|url| - 1..] + "/embed";
      }
    }
  }

  /** TikTok: only the first `tiktok.com` is rewritten, so a later
      occurrence is still there in the result. */
  lemma TikTokRewritesFirstOnly(url: string, u: ParsedUrl, encode: string -> string)
    requires Contains(url, "tiktok.com")
    ensures var i := IndexOf(url, "tiktok.com").value;
      var r := NormalizeUrl(url, "tiktok", Some(u), encode);
      && r[..i] == url[..i]
      && r[i..i + 20] == "www.tiktok.com/embed"
      && r[i + 20..] == url[i + 10..]
      && (Contains(url[i + 10..], "tiktok.com") ==> Contains(r, "tiktok.com"))
  {
    ReplaceFirstOnlyFirst(url, "tiktok.com", "www.tiktok.com/embed");
  }

  /** In `https://www.tiktok.com...` the first `tiktok.com` starts at 12. */
  lemma TikTokHostPosition(rest: string)
    ensures IndexOf("https://www.tiktok.com" + rest, "tiktok.com") == Some(12)
  {
    var s := "https://www.tiktok.com" + rest;
    forall j | 0 <= j < 12
      ensures !OccursAt(s, "tiktok.com", j)
    {
      assert s[j..j + 10][0] == s[j];
      assert s[j..j + 10][1] == s[j + 1];
    }
    assert s[12..22] == "tiktok.com";
    assert OccursAt(s, "tiktok.com", 12);
  }

  /** The pieces of `https://www.tiktok.com...` around its first `tiktok.com`. */
  lemma TikTokHostPieces(rest: string)
    ensures var s := "https://www.tiktok.com" + rest;
      |s| >= 22 && s[..12] == "https://www." && s[22..] == rest
  {
    var s := "https://www.tiktok.com" + rest;
    assert s[..22] == "https://www.tiktok.com";
    assert s[..12] == s[..22][..12];
  }

  /** The rewrite keeps the prefix and inserts the replacement there. */
  lemma TikTokRewriteShape(s: string, u: ParsedUrl, encode: string -> string)
    requires IndexOf(s, "tiktok.com") == Some(12)
    ensures NormalizeUrl(s, "tiktok", Some(u), encode) == s[..12] + "www.tiktok.com/embed" + s[22..]
  {
  }

  /** Because the host part before `tiktok.com` is kept, the usual link form
      `https://www.tiktok.com/...` comes out with a doubled `www.`. */
  lemma TikTokWwwDoubled(rest: string, u: ParsedUrl, encode: string -> string)
    ensures NormalizeUrl("https://www.tiktok.com" + rest, "tiktok", Some(u), encode)
      == "https://www.www.tiktok.com/embed" + rest
  {
    var s := "https://www.tiktok.com" + rest;
    TikTokHostPosition(rest);
    TikTokRewriteShape(s, u, encode);
    TikTokHostPieces(rest);
    DoubledHost(rest);
  }

  /** The kept host part followed by the replacement. */
  lemma DoubledHost(rest: string)
    ensures "https://www." + "www.tiktok.com/embed" + rest == "https://www.www.tiktok.com/embed" + rest
  {
    assert "https://www." + "www.tiktok.com/embed" == "https://www.www.tiktok.com/embed";
  }
}

=== FILE: platform_utils.dfy ===
/** `detectPlatform` (src/utils/PlatformUtils.jsx): a second lower-casing
    classifier whose table tests facebook before tiktok and has no `fb.watch`
    marker. The lemmas say exactly where it agrees with `detectPlatformFromUrl`. */
module PlatformUtils {
  import opened Js
  import opened Strings
  import opened Platforms
  import FromUrl = DetectPlatform

  /** The checks in source order: youtube, facebook, tiktok, instagram, twitter. */
  const Rules: seq<Rule> := [
    Rule(["youtube.com", "youtu.be"], YouTube),
    Rule(["facebook.com"], Facebook),
    Rule(["tiktok.com"], TikTok),
    Rule(["instagram.com"], Instagram),
    Rule(["x.com", "twitter.com"], Twitter)
  ]

  /** The table, rule by rule. */
  lemma RulesInOrder(l: string)
    ensures FirstMatch(Rules, l) ==
      if Contains(l, "youtube.com") || Contains(l, "youtu.be") then YouTube
      else if Contains(l, "facebook.com") then Facebook
      else if Contains(l, "tiktok.com") then TikTok
      else if Contains(l, "instagram.com") then Instagram
      else if Contains(l, "x.com") || Contains(l, "twitter.com") then Twitter
      else Unknown
  {
    FirstMatchOfFive(Rules, l);
    TwoMarkers("youtube.com", "youtu.be", l);
    OneMarker("facebook.com", l);
    OneMarker("tiktok.com", l);
    OneMarker("instagram.com", l);
    TwoMarkers("x.com", "twitter.com", l);
  }

  /** `detectPlatform(url)`; `None` is null or undefined. */
  function DetectPlatform(url: Option<string>): (r: Platform)
    ensures r in {YouTube, TikTok, Facebook, Instagram, Twitter, Unknown}
    ensures url.None? || url.value == "" ==> r == Unknown
    ensures url.Some? && url.value != "" ==> r == FirstMatch(Rules, ToLower(url.value))
  {
    if url.None? || url.value == "" then Unknown
    else
      var u := ToLower(url.value);
      RulesInOrder(u);
      if Contains(u, "youtube.com") || Contains(u, "youtu.be") then YouTube
      else if Contains(u, "facebook.com") then Facebook
      else if Contains(u, "tiktok.com") then TikTok
      else if Contains(u, "instagram.com") then Instagram
      else if Contains(u, "x.com") || Contains(u, "twitter.com") then Twitter
      else Unknown
  }

  /** The result depends only on the lower-cased input. */
  lemma CaseInsensitive(s: string, t: string)
    requires ToLower(s) == ToLower(t)
    ensures DetectPlatform(Some(s)) == DetectPlatform(Some(t))
  {
  }

  /** The two classifiers agree on every input that contains no `fb.watch`
      and does not contain both `facebook.com` and `tiktok.com`. */
  lemma AgreesWithDetectPlatformFromUrl(url: Option<string>)
    requires url.Some? ==> var l := ToLower(url.value);
      !Contains(l, "fb.watch") && !(Contains(l, "facebook.com") && Contains(l, "tiktok.com"))
    ensures DetectPlatform(url) == FromUrl.DetectPlatformFromUrl(url)
  {
  }

  /** A bare `fb.watch` link: Facebook for one classifier, unknown for the other. */
  lemma FbWatchDiverges(s: string)
    requires var l := ToLower(s);
      && Contains(l, "fb.watch")
      && !Contains(l, "youtube.com") && !Contains(l, "youtu.be") && !Contains(l, "tiktok.com")
      && !Contains(l, "facebook.com") && !Contains(l, "instagram.com")
      && !Contains(l, "x.com") && !Contains(l, "twitter.com")
    ensures DetectPlatform(Some(s)) == Unknown
    ensures FromUrl.DetectPlatformFromUrl(Some(s)) == Facebook
  {
  }

  /** A URL carrying both `facebook.com` and `tiktok.com` (and no YouTube
      marker) is Facebook here and TikTok for `detectPlatformFromUrl`. */
  lemma FacebookBeforeTikTok(s: string)
    requires var l := ToLower(s);
      && Contains(l, "facebook.com") && Contains(l, "tiktok.com")
      && !Contains(l, "youtube.com") && !Contains(l, "youtu.be")
    ensures DetectPlatform(Some(s)) == Facebook
    ensures FromUrl.DetectPlatformFromUrl(Some(s)) == TikTok
  {
  }
}

=== FILE: platforms.dfy ===
/** Platforms and the ordered-rule classification every URL detector in the
    front-end follows: a list of rules, each a platform with the substrings
    that identify it, tried in order, the first rule with a matching substring
    deciding. The detectors differ only in their tables, in whether they
    lower-case the URL first, and in what they do with an empty input. */
module Platforms {
  import opened Js
  import opened Strings

  datatype Platform = YouTube | TikTok | Facebook | Instagram | Twitter | LinkedIn | Unknown {
    /** The lower-case name returned by `detectPlatformFromUrl` and `detectPlatform`. */
    function Name(): string {
      match this
      case YouTube => "youtube"
      case TikTok => "tiktok"
      case Facebook => "facebook"
      case Instagram => "instagram"
      case Twitter => "twitter"
      case LinkedIn => "linkedin"
      case Unknown => "unknown"
    }
  }

  /** A rule: the platform and the substrings that identify it. */
  datatype Rule = Rule(markers: seq<string>, platform: Platform)

  /** Some marker of the list occurs in `s`. */
  predicate AnyMarker(markers: seq<string>, s: string)
    decreases |markers|
  {
    |markers| > 0 && (Contains(s, markers[0]) || AnyMarker(markers[1..], s))
  }

  /** Index of the first rule, at or after `from`, one of whose markers occurs in `s`. */
  function FirstRuleFrom(rules: seq<Rule>, s: string, from: nat): (r: Option<nat>)
    ensures r.Some? ==> from <= r.value < |rules| && AnyMarker(rules[r.value].markers, s)
    ensures r.Some? ==> forall k :: from <= k < r.value ==> !AnyMarker(rules[k].markers, s)
    ensures r.None? ==> forall k :: from <= k < |rules| ==> !AnyMarker(rules[k].markers, s)
    decreases |rules| - from
  {
    if from >= |rules| then None
    else if AnyMarker(rules[from].markers, s) then Some(from)
    else FirstRuleFrom(rules, s, from + 1)
  }

  /** Rule `k` matches `s` and no earlier rule does. */
  predicate IsFirstMatching(rules: seq<Rule>, s: string, k: int) {
    && 0 <= k < |rules|
    && AnyMarker(rules[k].markers, s)
    && forall j :: 0 <= j < k ==> !AnyMarker(rules[j].markers, s)
  }

  /** The platform of the first matching rule, `Unknown` when none matches. */
  function FirstMatch(rules: seq<Rule>, s: string): (r: Platform)
    ensures (forall k :: 0 <= k < |rules| ==> !AnyMarker(rules[k].markers, s)) ==> r == Unknown
    ensures forall k :: IsFirstMatching(rules, s, k) ==> r == rules[k].platform
  {
    match FirstRuleFrom(rules, s, 0)
    case Some(k) => rules[k].platform
    case None => Unknown
  }
  /** A one-marker rule matches exactly when its marker occurs. */
  lemma OneMarker(a: string, s: string)
    ensures AnyMarker([a], s) <==> Contains(s, a)
  {
    assert [a][1..] == [];
  }

  /** A two-marker rule matches exactly when either marker occurs. */
  lemma TwoMarkers(a: string, b: string, s: string)
    ensures AnyMarker([a, b], s) <==> Contains(s, a) || Contains(s, b)
  {
    assert [a, b][1..] == [b];
    OneMarker(b, s);
  }

  /** A five-rule table read as the if-chain it stands for. */
  lemma FirstMatchOfFive(rules: seq<Rule>, s: string)
    requires |rules| == 5
    ensures FirstMatch(rules, s) ==
      if AnyMarker(rules[0].markers, s) then rules[0].platform
      else if AnyMarker(rules[1].markers, s) then rules[1].platform
      else if AnyMarker(rules[2].markers, s) then rules[2].platform
      else if AnyMarker(rules[3].markers, s) then rules[3].platform
      else if AnyMarker(rules[4].markers, s) then rules[4].platform
      else Unknown
  {
    assert FirstRuleFrom(rules, s, 5) == None;
    assert FirstRuleFrom(rules, s, 4) == if AnyMarker(rules[4].markers, s) then Some(4) else None;
    assert FirstRuleFrom(rules, s, 3) == if AnyMarker(rules[3].markers, s) then Some(3) else FirstRuleFrom(rules, s, 4);
    assert FirstRuleFrom(rules, s, 2) == if AnyMarker(rules[2].markers, s) then Some(2) else FirstRuleFrom(rules, s, 3);
    assert FirstRuleFrom(rules, s, 1) == if AnyMarker(rules[1].markers, s) then Some(1) else FirstRuleFrom(rules, s, 2);
    assert FirstRuleFrom(rules, s, 0) == if AnyMarker(rules[0].markers, s) then Some(0) else FirstRuleFrom(rules, s, 1);
  }
}

=== FILE: promoted_tasks.dfy ===
/** `PromotedTasks` (src/pages/PromotedTasks.jsx): the promoted tasks of one
    type and platform, fetched when the route names a platform, and the
    promote handler charging the task's own cost. */
module PromotedTasks {
  import opened Js
  import opened Promotion

  /** `type === "watch" ? "video" : type`. */
  function NormalizeType(kind: string): (r: string)
    ensures r != "watch"
    ensures r == "video" <==> kind == "watch" || kind == "video"
    ensures kind != "watch" ==> r == kind
  {
    if kind == "watch" then "video" else kind
  }

  const PromotedPath := "/tasks/promoted/"

  /** `getPromotedTasks(normalizedType, platform)`: the path requested. */
  function Endpoint(kind: string, platform: string): (r: string)
    ensures |r| == |PromotedPath| + |NormalizeType(kind)| + 1 + |platform|
    ensures r[..|PromotedPath|] == PromotedPath
    ensures r[|r| - |platform| - 1..] == "/" + platform
  {
    PromotedPath + NormalizeType(kind) + "/" + platform
  }

  /** Two route types request the same path for a platform exactly when
      they normalise to the same type. */
  lemma SameEndpointIffSameType(k1: string, k2: string, platform: string)
    ensures Endpoint(k1, platform) == Endpoint(k2, platform) <==> NormalizeType(k1) == NormalizeType(k2)
  {
    var n1, n2 := NormalizeType(k1), NormalizeType(k2);
    var e1, e2 := Endpoint(k1, platform), Endpoint(k2, platform);
    if e1 == e2 {
      var tail := "/" + platform;
      assert e1 == (PromotedPath + n1) + tail;
      assert e2 == (PromotedPath + n2) + tail;
      assert e1[..|PromotedPath| + |n1|] == PromotedPath + n1;
      assert e2[..|PromotedPath| + |n2|] == PromotedPath + n2;
      assert (PromotedPath + n1)[|PromotedPath|..] == n1;
      assert (PromotedPath + n2)[|PromotedPath|..] == n2;
    }
  }

  /** The shapes of `response.data`: absent, a bare list, or an object
      whose `tasks` field may be missing. */
  datatype Body = NoBody | Bare(items: seq<Task>) | Wrapped(tasks: Option<seq<Task>>)

  /** `response.data?.tasks ?? response.data ?? []`; `None` stands for the
      non-list object left over when a wrapped body has no `tasks`. */
  function TasksData(b: Body): (r: Option<seq<Task>>)
    ensures r.None? <==> b == Wrapped(None)
    ensures b.NoBody? ==> r == Some([])
    ensures b.Bare? ==> r == Some(b.items)
    ensures b.Wrapped? && b.tasks.Some? ==> r == b.tasks
  {
    match b
    case NoBody => Some([])
    case Bare(items) => Some(items)
    case Wrapped(tasks) => tasks
  }

  datatype Page = Page(user: Option<User>, tasks: Option<seq<Task>>, loading: bool, loadingId: Option<string>)

  /** The first render: no tasks, loading. */
  function InitialPage(user: Option<User>): (p: Page)
    ensures p.loading && p.tasks == Some([]) && p.loadingId.None? && p.user == user
  {
    Page(user, Some([]), true, None)
  }

  /** The effect on mount: `fetchTasks()` runs only when the route gives a
      truthy platform. `reply` is `None` when the request throws, in which
      case the list is emptied. Loading always ends. */
  function Fetch(p: Page, platform: Option<string>, reply: Option<Body>): (r: Page)
    ensures !TruthyStr(platform) ==> r == p
    ensures TruthyStr(platform) ==> !r.loading && r.user == p.user && r.loadingId == p.loadingId
    ensures TruthyStr(platform) && reply.None? ==> r.tasks == Some([])
    ensures TruthyStr(platform) && reply.Some? ==> r.tasks == TasksData(reply.value)
  {
    if !TruthyStr(platform) then p
    else
      match reply
      case None => p.(tasks := Some([]), loading := false)
      case Some(b) => p.(tasks := TasksData(b), loading := false)
  }

  /** A card's promote button: the cost its label shows, `None` when it
      reads "Promoted", and whether it is disabled. */
  datatype Button = Button(cost: Option<int>, disabled: bool)

  /** The button of a task's card: "Promoted" and disabled for a promoted
      task, otherwise "Promote (<base cost> pts)", disabled while that
      task's request runs. */
  function CardButton(t: Task, loadingId: Option<string>): (b: Button)
    ensures b.cost.None? <==> t.promoted
    ensures b.cost.Some? ==> b.cost.value == BaseCost(t)
    ensures b.disabled <==> ButtonDisabled(t, loadingId)
    ensures t.promoted ==> b.disabled
  {
    Button(if t.promoted then None else Some(BaseCost(t)), ButtonDisabled(t, loadingId))
  }

  /** What the page shows: a loading line, an empty notice, a crash when the
      fetched value is not a list, or one card per task with its promote
      button and whether it embeds a watch player. */
  datatype View = Loading | NoTasks | Crash | Cards(buttons: seq<Button>, players: bool)

  function Render(p: Page, kind: string): (v: View)
    ensures p.loading <==> v == Loading
    ensures !p.loading && p.tasks.None? ==> v == Crash
    ensures !p.loading && p.tasks == Some([]) ==> v == NoTasks
    ensures v.Cards? ==>
      && p.tasks.Some? && |v.buttons| == |p.tasks.value| > 0
      && (forall i :: 0 <= i < |v.buttons| ==> v.buttons[i] == CardButton(p.tasks.value[i], p.loadingId))
      && (v.players <==> kind == "watch" || kind == "video")
  {
    if p.loading then Loading
    else
      match p.tasks
      case None => Crash
      case Some(ts) =>
        if |ts| == 0 then NoTasks
        else Cards(seq(|ts|, i requires 0 <= i < |ts| => CardButton(ts[i], p.loadingId)), NormalizeType(kind) == "video")
  }

  /** The route types "watch" and "video" request the same path and
      render the same way. */
  lemma WatchIsVideo(p: Page, platform: string)
    ensures Endpoint("watch", platform) == Endpoint("video", platform)
    ensures Render(p, "watch") == Render(p, "video")
  {
  }

  /** A route without a platform never fetches, so the page stays on its
      loading line. */
  lemma NoPlatformStaysLoading(user: Option<User>, platform: Option<string>, reply: Option<Body>, kind: string)
    requires !TruthyStr(platform)
    ensures Render(Fetch(InitialPage(user), platform, reply), kind) == Loading
  {
  }

  /** A failed fetch shows the empty notice rather than an error. */
  lemma FailedFetchShowsEmpty(p: Page, platform: string, kind: string)
    requires platform != ""
    ensures Render(Fetch(p, Some(platform), None), kind) == NoTasks
  {
  }

  /** `handlePromote(task)`, charging `task.promoteCost || 50`. The button
      exists only once the fetched value is a list. */
  function HandlePromote(p: Page, t: Task, reply: Option<Option<PromoteData>>): (r: (Page, Option<string>))
    requires p.tasks.Some?
    ensures !r.0.loading <==> !p.loading
    ensures r.0.tasks.Some? && |r.0.tasks.value| == |p.tasks.value|
    ensures p.user.Some? && p.user.value.points < BaseCost(t) ==> r == (p, Some(NeedAlert(BaseCost(t))))
    ensures p.user.Some? && p.user.value.points >= BaseCost(t) && reply.Some? && reply.value.Some? ==>
      && r.0.tasks == Some(MarkPromoted(p.tasks.value, t.id))
      && r.0.user == Some(User(reply.value.value.remainingPoints))
      && r.0.loadingId.None?
  {
    var (s, alert) := Promote(State(p.user, p.tasks.value, p.loadingId), t, BaseCost(t), reply);
    (Page(s.user, Some(s.tasks), p.loading, s.loadingId), alert)
  }

  /** The cost on a card's button is the cost its click checks the balance
      against: after a click on the card at index `i`, whose task is not
      yet promoted (a promoted card shows no cost and cannot be clicked),
      the page asks for more points exactly when the balance is below the
      displayed cost. */
  lemma DisplayedCostIsCharged(p: Page, kind: string, i: nat)
    requires !p.loading && p.tasks.Some? && i < |p.tasks.value| && p.user.Some?
    requires !p.tasks.value[i].promoted
    ensures Render(p, kind).Cards? && Render(p, kind).buttons[i].cost.Some?
    ensures var c := Render(p, kind).buttons[i].cost.value;
      HandlePromote(p, p.tasks.value[i], None).1 == Some(NeedAlert(c)) <==> p.user.value.points < c
  {
    var c := BaseCost(p.tasks.value[i]);
    assert FailedAlert[0] == 'F';
    assert NeedAlert(c)[0] == 'Y';
  }
}

=== FILE: promotion.dfy ===
/** Task promotion as the dashboard pages do it: a task record, the cost
    table fetched from the server, marking one task promoted, and the
    promote handler shared by src/pages/Dashboard.jsx and
    src/pages/PromotedTasks.jsx (they differ only in how the cost is
    resolved). */
module Promotion {
  import opened Js
  import opened Strings

  /** The task fields the pages read; `kind` is the `type` field. */
  datatype Task = Task(
    id: string,
    kind: string,
    platform: string,
    action: string,
    promoteCost: Option<int>,
    promoted: bool)

  datatype User = User(points: int)

  /** The promotion-cost object: `platforms` and `actions` tables and an
      optional `global` default. */
  datatype CostTable = CostTable(
    platforms: Option<map<string, int>>,
    actions: Option<map<string, int>>,
    global: Option<int>)

  /** `{}`. */
  const NoCosts := CostTable(None, None, None)

  /** The body `getPromotionCosts()` resolves to: its own cost fields, which
      the task feed reads, and its `data` field, which the dashboard reads
      (`None` when the body has none). */
  datatype CostsBody = CostsBody(top: CostTable, data: Option<CostTable>)

  /** `table?.[key]`. */
  function Lookup(table: Option<map<string, int>>, key: string): (r: Option<int>)
    ensures r.Some? <==> table.Some? && key in table.value
    ensures r.Some? ==> r.value == table.value[key]
  {
    if table.Some? && key in table.value then Some(table.value[key]) else None
  }

  /** `task.promoteCost || 50`. */
  function BaseCost(t: Task): (c: int)
    ensures c != 0
    ensures TruthyInt(t.promoteCost) ==> c == t.promoteCost.value
    ensures !TruthyInt(t.promoteCost) ==> c == 50
  {
    IntOr(t.promoteCost, 50)
  }

  /** `tasks.map(t => t._id === id ? { ...t, promoted: true } : t)`. */
  function MarkPromoted(ts: seq<Task>, id: string): (r: seq<Task>)
    ensures |r| == |ts|
    ensures forall i :: 0 <= i < |ts| ==> r[i].(promoted := ts[i].promoted) == ts[i]
    ensures forall i :: 0 <= i < |ts| ==> (r[i].promoted <==> ts[i].promoted || ts[i].id == id)
  {
    seq(|ts|, i requires 0 <= i < |ts| => if ts[i].id == id then ts[i].(promoted := true) else ts[i])
  }

  /** Marking the same id twice is marking it once. */
  lemma MarkPromotedIdempotent(ts: seq<Task>, id: string)
    ensures MarkPromoted(MarkPromoted(ts, id), id) == MarkPromoted(ts, id)
  {
    var r := MarkPromoted(ts, id);
    var rr := MarkPromoted(r, id);
    forall i | 0 <= i < |ts| ensures rr[i] == r[i] {
      assert rr[i].(promoted := r[i].promoted) == r[i];
    }
  }

  /** The state a promote handler touches. */
  datatype State = State(user: Option<User>, tasks: seq<Task>, loadingId: Option<string>)

  /** The `data` of a successful `promoteTask` payload. */
  datatype PromoteData = PromoteData(message: Option<string>, remainingPoints: int)

  const FailedAlert := "Failed to promote task"

  function NeedAlert(cost: int): string {
    "You need " + IntToDecimal(cost) + " points to promote this task!"
  }

  /** `handlePromote(task)` once the cost is resolved. `reply` is `None` when
      `promoteTask` throws, `Some(None)` when its payload has no `data` (so
      reading `res.data.message` throws), and `Some(Some(d))` otherwise. The
      second result is the alert shown, if any. */
  function Promote(s: State, task: Task, cost: int, reply: Option<Option<PromoteData>>): (res: (State, Option<string>))
    ensures s.user.None? ==> res == (s, None)
    ensures s.user.Some? && s.user.value.points < cost ==> res == (s, Some(NeedAlert(cost)))
    ensures s.user.Some? && s.user.value.points >= cost ==>
      && res.0.loadingId.None?
      && res.1.Some?
      && (reply.None? || reply == Some(None) ==>
            res == (s.(loadingId := None), Some(FailedAlert)))
      && (reply.Some? && reply.value.Some? ==>
            var d := reply.value.value;
            res == (State(Some(User(d.remainingPoints)), MarkPromoted(s.tasks, task.id), None),
                    Some(StrOr(d.message, "Task promoted!"))))
  {
    match s.user
    case None => (s, None)
    case Some(u) =>
      if u.points < cost then (s, Some(NeedAlert(cost)))
      else
        match reply
        case Some(Some(d)) =>
          (State(Some(u.(points := d.remainingPoints)), MarkPromoted(s.tasks, task.id), None),
           Some(StrOr(d.message, "Task promoted!")))
        case _ => (s.(loadingId := None), Some(FailedAlert))
  }

  /** `disabled={task.promoted || loadingTaskId === task._id}`. */
  predicate ButtonDisabled(t: Task, loadingId: Option<string>) {
    t.promoted || loadingId == Some(t.id)
  }

  /** After a successful promotion every task with that id shows a disabled
      button, and every other task's button is disabled exactly when it was
      already promoted. */
  lemma DisabledAfterSuccess(s: State, task: Task, cost: int, d: PromoteData)
    requires s.user.Some? && s.user.value.points >= cost
    ensures var after := Promote(s, task, cost, Some(Some(d))).0;
      && |after.tasks| == |s.tasks|
      && forall i :: 0 <= i < |s.tasks| ==>
           (ButtonDisabled(after.tasks[i], after.loadingId) <==> s.tasks[i].id == task.id || s.tasks[i].promoted)
  {
  }
}

=== FILE: social_embed.dfy ===
/** `SocialEmbed` (src/components/SocialEmbed.jsx): chooses the iframe source
    for a pasted link by a case-sensitive substring chain. The view is one of
    nothing, the "Unsupported URL" paragraph, a render error (when `new URL`
    throws on a YouTube link that is not a short link) or a frame. */
module SocialEmbed {
  import opened Js
  import opened Strings
  import opened Url
  import opened Platforms
  import YT = YouTube
  import NormalizeUrl
  import FromUrl = DetectPlatform

  datatype View = Nothing | Unsupported | Crash | Frame(src: string)

  const YouTubeOptions := "?modestbranding=1&rel=0"
  const FacebookPlugin := "https://www.facebook.com/plugins/video.php?href="
  const FacebookOptions := "&show_text=false"
  const TwitFrame := "https://twitframe.com/show?url="

  /** None of the markers of the chain occurs in `u`; the chain has no
      `x.com` marker and does not lower-case the URL. */
  predicate NoMarker(u: string) {
    && !Contains(u, "youtube.com") && !Contains(u, "youtu.be")
    && !Contains(u, "tiktok.com")
    && !Contains(u, "facebook.com") && !Contains(u, "fb.watch")
    && !Contains(u, "instagram.com")
    && !Contains(u, "twitter.com")
    && !Contains(u, "linkedin.com")
  }

  /** None of the video markers tested before Instagram occurs in `u`. */
  predicate NoVideoMarker(u: string) {
    && !Contains(u, "youtube.com") && !Contains(u, "youtu.be")
    && !Contains(u, "tiktok.com")
    && !Contains(u, "facebook.com") && !Contains(u, "fb.watch")
  }

  /** The YouTube frame source for an id (`null` prints as "null"). */
  function YouTubeSrc(id: string): string {
    YT.EmbedPrefix + id + YouTubeOptions
  }

  /** `SocialEmbed({ url })`. `parsed` is `new URL(url)` (`None` when it
      throws), `encode` is `encodeURIComponent`. */
  function SocialEmbed(url: Option<string>, parsed: Option<ParsedUrl>,
                       encode: string -> string): (r: View)
    ensures r.Nothing? <==> url.None? || url.value == ""
    ensures url.Some? && url.value != "" ==> (r.Unsupported? <==> NoMarker(url.value))
    ensures r.Crash? <==> url.Some? && parsed.None? && Contains(url.value, "youtube.com")
                          && !Contains(url.value, "youtu.be")
    ensures r.Frame? && url.Some? && !Contains(url.value, "youtube.com")
            && !Contains(url.value, "youtu.be") && !Contains(url.value, "tiktok.com")
            && (Contains(url.value, "facebook.com") || Contains(url.value, "fb.watch")) ==>
      r.src == FacebookPlugin + encode(url.value) + FacebookOptions
    ensures url.Some? && NoVideoMarker(url.value) && Contains(url.value, "instagram.com") ==>
      r == Frame(url.value + "embed")
    ensures url.Some? && NoVideoMarker(url.value) && !Contains(url.value, "instagram.com")
            && Contains(url.value, "twitter.com") ==>
      r == Frame(TwitFrame + encode(url.value))
  {
    if url.None? || url.value == "" then Nothing
    else
      var u := url.value;
      if Contains(u, "youtube.com") || Contains(u, "youtu.be") then
        if Contains(u, "youtu.be") then Frame(YouTubeSrc(LastSegment(u, "/")))
        else
          match parsed
          case None => Crash
          case Some(p) => Frame(YouTubeSrc(p.v.GetOr("null")))
      else if Contains(u, "tiktok.com") then Frame(ReplaceFirst(u, "/video/", "/embed/v2/"))
      else if Contains(u, "facebook.com") || Contains(u, "fb.watch") then
        Frame(FacebookPlugin + encode(u) + FacebookOptions)
      else if Contains(u, "instagram.com") then Frame(u + "embed")
      else if Contains(u, "twitter.com") then Frame(TwitFrame + encode(u))
      else if Contains(u, "linkedin.com") then Frame(ReplaceFirst(u, "/posts/", "/embed/feed/"))
      else Unsupported
  }

  /** A short link embeds the text after its last `/`: a `/`-free suffix of
      the link, preceded by a `/` unless the link has none. The `?` query is
      not cut off. */
  lemma ShortLinkIdIsLastSegment(u: string, parsed: Option<ParsedUrl>, encode: string -> string)
    requires Contains(u, "youtu.be")
    ensures var r := SocialEmbed(Some(u), parsed, encode);
      var id := LastSegment(u, "/");
      && r == Frame(YouTubeSrc(id))
      && |id| <= |u| && id == u[|u| - |id|..] && !Contains(id, "/")
      && (|id| < |u| ==> u[|u| - |id| - 1] == '/')
  {
    var id := LastSegment(u, "/");
    LastSegmentIsSuffix(u, "/");
    if |id| < |u| {
      assert u[|u| - |id| - 1..|u| - |id|][0] == u[|u| - |id| - 1];
    }
  }

  /** A YouTube watch link that parses embeds its `v` parameter, or the text
      "null" when there is none. */
  lemma WatchLinkUsesVParameter(u: string, p: ParsedUrl, encode: string -> string)
    requires Contains(u, "youtube.com") && !Contains(u, "youtu.be")
    ensures SocialEmbed(Some(u), Some(p), encode)
      == Frame(YouTubeSrc(if p.v.Some? then p.v.value else "null"))
  {
  }

  /** TikTok and LinkedIn links are rewritten at their first `/video/` or
      `/posts/` and kept verbatim around it. */
  lemma PathRewrite(u: string, parsed: Option<ParsedUrl>, encode: string -> string)
    requires !Contains(u, "youtube.com") && !Contains(u, "youtu.be")
    ensures Contains(u, "tiktok.com") ==>
      SocialEmbed(Some(u), parsed, encode) == Frame(ReplaceFirst(u, "/video/", "/embed/v2/"))
    ensures Contains(u, "linkedin.com") && !Contains(u, "tiktok.com")
            && !Contains(u, "facebook.com") && !Contains(u, "fb.watch")
            && !Contains(u, "instagram.com") && !Contains(u, "twitter.com") ==>
      SocialEmbed(Some(u), parsed, encode) == Frame(ReplaceFirst(u, "/posts/", "/embed/feed/"))
  {
  }

  /** A bare `x.com` link is unsupported here, although both URL detectors
      call it a Twitter link. */
  lemma XLinkUnsupported(u: string, parsed: Option<ParsedUrl>, encode: string -> string)
    requires Contains(u, "x.com") && NoMarker(u)
    requires !Contains(ToLower(u), "youtube.com") && !Contains(ToLower(u), "youtu.be")
    requires !Contains(ToLower(u), "tiktok.com") && !Contains(ToLower(u), "facebook.com")
    requires !Contains(ToLower(u), "fb.watch") && !Contains(ToLower(u), "instagram.com")
    ensures SocialEmbed(Some(u), parsed, encode) == Unsupported
    ensures FromUrl.DetectPlatformFromUrl(Some(u)) == Twitter
  {
    LowerKeepsMarker(u, "x.com");
  }

  /** An occurrence of a lower-case marker survives lower-casing. */
  lemma LowerKeepsMarker(u: string, m: string)
    requires ToLower(m) == m
    ensures Contains(u, m) ==> Contains(ToLower(u), m)
  {
    if Contains(u, m) {
      var i := IndexOf(u, m).value;
      var l := ToLower(u);
      assert l[i..i + |m|] == ToLower(u[i..i + |m|]);
      assert OccursAt(l, m, i);
    }
  }

  lemma LowerMarkers()
    ensures ToLower("youtube.com") == "youtube.com" && ToLower("youtu.be") == "youtu.be"
    ensures ToLower("tiktok.com") == "tiktok.com" && ToLower("facebook.com") == "facebook.com"
    ensures ToLower("fb.watch") == "fb.watch" && ToLower("instagram.com") == "instagram.com"
    ensures ToLower("twitter.com") == "twitter.com"
  {
  }

  /** Every link this component can embed is also recognised by
      `detectPlatformFromUrl` (which lower-cases and knows `x.com`), except a
      LinkedIn link, which that detector does not know. */
  lemma SupportedIsDetected(u: string, parsed: Option<ParsedUrl>, encode: string -> string)
    requires u != ""
    requires SocialEmbed(Some(u), parsed, encode) != Unsupported
    requires !Contains(u, "linkedin.com")
    ensures FromUrl.DetectPlatformFromUrl(Some(u)) != Unknown
  {
    LowerMarkers();
    if Contains(u, "youtube.com") {
      LowerKeepsMarker(u, "youtube.com");
    } else if Contains(u, "youtu.be") {
      LowerKeepsMarker(u, "youtu.be");
    } else if Contains(u, "tiktok.com") {
      LowerKeepsMarker(u, "tiktok.com");
    } else if Contains(u, "facebook.com") {
      LowerKeepsMarker(u, "facebook.com");
    } else if Contains(u, "fb.watch") {
      LowerKeepsMarker(u, "fb.watch");
    } else if Contains(u, "instagram.com") {
      LowerKeepsMarker(u, "instagram.com");
    } else {
      LowerKeepsMarker(u, "twitter.com");
    }
  }

  /** The Instagram frame appends `embed` without a `/`: it agrees with
      `normalizeUrl` exactly when the link already ends in `/`. */
  lemma InstagramAgreesWithNormalizeUrl(u: string, p: ParsedUrl, encode: string -> string)
    requires !Contains(u, "youtube.com") && !Contains(u, "youtu.be")
    requires !Contains(u, "tiktok.com") && !Contains(u, "facebook.com") && !Contains(u, "fb.watch")
    requires Contains(u, "instagram.com")
    ensures SocialEmbed(Some(u), Some(p), encode).Frame?
    ensures SocialEmbed(Some(u), Some(p), encode).src
              == NormalizeUrl.NormalizeUrl(u, "instagram", Some(p), encode)
            <==> EndsWith(u, "/")
  {
    if !EndsWith(u, "/") {
      assert |u + "embed"| != |u + "/embed"|;
    }
  }
}

=== FILE: social_feed.dfy ===
/** `SocialFeed` (src/components/SocialFeed.jsx): the URL check and the
    add-post handler. The `createPost` request is a parameter: `Some(post)`
    is the `res.data` it returned, `None` is a request that threw. */
module SocialFeed {
  import opened Js
  import opened Strings
  import opened Platforms
  import opened Url
  import FromUrl = DetectPlatform
  import SE = SocialEmbed

  /** `isValidUrl(url)`: a case-sensitive test for five markers. There is no
      Twitter or X marker. */
  predicate IsValidUrl(url: string) {
    || Contains(url, "youtube.com")
    || Contains(url, "youtu.be")
    || Contains(url, "tiktok.com")
    || Contains(url, "instagram.com")
    || Contains(url, "facebook.com")
  }

  /** The component state the handler touches. */
  datatype Feed<P> = Feed(input: string, posts: seq<P>, error: string, loading: bool)

  const EmptyError := "Please paste a URL"
  const UnsupportedError := "Unsupported social media link"
  const FailedError := "Failed to add post"

  /** `handleAddPost()`. Only `posts`, `input`, `error` and `loading` can
      change; the posts that were there stay, in order, after at most one
      new post in front. */
  function HandleAddPost<P>(f: Feed<P>, reply: Option<P>): (g: Feed<P>)
    ensures g.error in {"", EmptyError, UnsupportedError, FailedError}
    ensures g.posts == f.posts || (reply.Some? && g.posts == [reply.value] + f.posts)
    ensures g.error == "" <==> g.posts != f.posts || (f.input != "" && IsValidUrl(f.input) && reply.Some?)
    ensures f.input == "" ==> g == f.(error := EmptyError)
    ensures f.input != "" && !IsValidUrl(f.input) ==> g == f.(error := UnsupportedError)
    ensures f.input != "" && IsValidUrl(f.input) ==>
      && !g.loading
      && (reply.Some? ==> g == Feed("", [reply.value] + f.posts, "", false))
      && (reply.None? ==> g == f.(error := FailedError, loading := false))
  {
    var f := f.(error := "");
    if f.input == "" then f.(error := EmptyError)
    else if !IsValidUrl(f.input) then f.(error := UnsupportedError)
    else
      match reply
      case Some(post) => f.(posts := [post] + f.posts, input := "", loading := false)
      case None => f.(error := FailedError, loading := false)
  }

  /** Every accepted link is one `detectPlatformFromUrl` classifies as
      YouTube, TikTok, Facebook or Instagram, never Twitter. */
  lemma AcceptedLinksAreDetected(url: string)
    requires IsValidUrl(url)
    ensures FromUrl.DetectPlatformFromUrl(Some(url)) in {YouTube, TikTok, Facebook, Instagram}
  {
    SE.LowerMarkers();
    if Contains(url, "youtube.com") {
      SE.LowerKeepsMarker(url, "youtube.com");
    } else if Contains(url, "youtu.be") {
      SE.LowerKeepsMarker(url, "youtu.be");
    } else if Contains(url, "tiktok.com") {
      SE.LowerKeepsMarker(url, "tiktok.com");
    } else if Contains(url, "instagram.com") {
      SE.LowerKeepsMarker(url, "instagram.com");
    } else {
      SE.LowerKeepsMarker(url, "facebook.com");
    }
  }

  /** A Twitter or X link with none of the five markers is rejected, although
      the platform detector recognises it. */
  lemma TwitterLinksRejected(url: string)
    requires Contains(url, "twitter.com")
    requires var l := ToLower(url);
      && !Contains(l, "youtube.com") && !Contains(l, "youtu.be") && !Contains(l, "tiktok.com")
      && !Contains(l, "facebook.com") && !Contains(l, "fb.watch") && !Contains(l, "instagram.com")
    ensures !IsValidUrl(url)
    ensures FromUrl.DetectPlatformFromUrl(Some(url)) == Twitter
  {
    SE.LowerMarkers();
    SE.LowerKeepsMarker(url, "twitter.com");
    SE.LowerKeepsMarker(url, "youtube.com");
    SE.LowerKeepsMarker(url, "youtu.be");
    SE.LowerKeepsMarker(url, "tiktok.com");
    SE.LowerKeepsMarker(url, "instagram.com");
    SE.LowerKeepsMarker(url, "facebook.com");
  }

  /** Every accepted link can be rendered by `SocialEmbed`: the feed never
      stores a post that the embed would call unsupported. */
  lemma AcceptedLinksEmbed(url: string, parsed: Option<ParsedUrl>, encode: string -> string)
    requires IsValidUrl(url)
    ensures SE.SocialEmbed(Some(url), parsed, encode) != SE.Unsupported
  {
  }
}

=== FILE: strings.dfy ===
/** The JavaScript string operations the URL rules are built from.

    - `s.includes(sub)` is `Contains`, a substring test;
    - `s.split(sep)` is `Split`, the segments between the occurrences of `sep`
      scanned left to right, so `s.split(sep)[1]` is the text between the first
      and the second occurrence (`Segment`), `[0]` the text before the first
      (`BeforeFirst`) and `.pop()` the text after the last (`LastSegment`);
    - `s.replace(pat, rep)` with a string pattern is `ReplaceFirst`: only the
      first occurrence is replaced;
    - `s.toLowerCase()` is `ToLower`, restricted to ASCII letters. */
module Strings {
  import opened Js

  /** `sub` occurs in `s` starting at index `i`. */
  predicate OccursAt(s: string, sub: string, i: int) {
    0 <= i && i + |sub| <= |s| && s[i..i + |sub|] == sub
  }

  /** `s.indexOf(sub, from)`: the first occurrence at or after `from`. */
  function IndexOfFrom(s: string, sub: string, from: nat): (r: Option<nat>)
    ensures r.Some? ==> from <= r.value && OccursAt(s, sub, r.value)
    ensures r.Some? ==> forall j :: from <= j < r.value ==> !OccursAt(s, sub, j)
    ensures r.None? ==> forall j :: from <= j ==> !OccursAt(s, sub, j)
    decreases |s| - from
  {
    if from + |sub| > |s| then None
    else if s[from..from + |sub|] == sub then Some(from)
    else IndexOfFrom(s, sub, from + 1)
  }

  /** `s.indexOf(sub)`, with `None` for -1. */
  function IndexOf(s: string, sub: string): (r: Option<nat>)
    ensures r.Some? ==> OccursAt(s, sub, r.value)
    ensures r.Some? ==> forall j :: 0 <= j < r.value ==> !OccursAt(s, sub, j)
    ensures r.None? ==> forall j :: !OccursAt(s, sub, j)
  {
    IndexOfFrom(s, sub, 0)
  }

  /** `s.includes(sub)`: by the contract of `IndexOf`, true exactly when
      `sub` occurs somewhere in `s`. */
  predicate Contains(s: string, sub: string) {
    IndexOf(s, sub).Some?
  }

  /** `s.endsWith(suffix)`. */
  predicate EndsWith(s: string, suffix: string) {
    |suffix| <= |s| && s[|s| - |suffix|..] == suffix
  }

  // ---------------------------------------------------------------------------
  // Occurrences in slices and concatenations
  // ---------------------------------------------------------------------------

  lemma OccursInPrefix(s: string, sub: string, n: nat, j: int)
    requires n <= |s|
    requires OccursAt(s[..n], sub, j)
    ensures OccursAt(s, sub, j) && j + |sub| <= n
  {
    assert s[..n][j..j + |sub|] == s[j..j + |sub|];
  }

  lemma OccursInSuffix(s: string, sub: string, n: nat, j: int)
    requires n <= |s|
    ensures OccursAt(s[n..], sub, j) <==> (j >= 0 && OccursAt(s, sub, n + j))
  {
    if j >= 0 && j + |sub| <= |s| - n {
      assert s[n..][j..j + |sub|] == s[n + j..n + j + |sub|];
    }
  }

  /** An occurrence in the left part of a concatenation is one in the whole. */
  lemma ContainsConcatLeft(p: string, t: string, sub: string)
    requires Contains(p, sub)
    ensures Contains(p + t, sub)
  {
    var i := IndexOf(p, sub).value;
    assert (p + t)[i..i + |sub|] == p[i..i + |sub|];
    assert OccursAt(p + t, sub, i);
  }

  /** An occurrence in the right part of a concatenation is one in the whole. */
  lemma ContainsConcatRight(p: string, t: string, sub: string)
    requires Contains(t, sub)
    ensures Contains(p + t, sub)
  {
    var i := IndexOf(t, sub).value;
    assert (p + t)[|p| + i..|p| + i + |sub|] == t[i..i + |sub|];
    assert OccursAt(p + t, sub, |p| + i);
  }

  /** A pattern without '/' cannot straddle a '/'-terminated prefix and what
      follows it: it occurs in `p + t` only if it occurs in `p` or in `t`. */
  lemma NoOccurrenceAcrossSlash(p: string, t: string, sub: string)
    requires |p| > 0 && p[|p| - 1] == '/'
    requires forall k :: 0 <= k < |sub| ==> sub[k] != '/'
    requires !Contains(p, sub) && !Contains(t, sub)
    ensures !Contains(p + t, sub)
  {
    forall j | 0 <= j && j + |sub| <= |p + t|
      ensures !OccursAt(p + t, sub, j)
    {
      if j + |sub| <= |p| {
        assert (p + t)[j..j + |sub|] == p[j..j + |sub|];
        assert !OccursAt(p, sub, j);
      } else if j >= |p| {
        assert (p + t)[j..j + |sub|] == t[j - |p|..j - |p| + |sub|];
        assert !OccursAt(t, sub, j - |p|);
      } else {
        var k := |p| - 1 - j;
        assert (p + t)[j..j + |sub|][k] == '/' != sub[k];
      }
    }
  }

  // ---------------------------------------------------------------------------
  // split
  // ---------------------------------------------------------------------------

  /** `s.split(sep)` for a non-empty separator. */
  function Split(s: string, sep: string): (parts: seq<string>)
    requires |sep| > 0
    ensures |parts| >= 1
    ensures forall k :: 0 <= k < |parts| ==> !Contains(parts[k], sep)
    decreases |s|
  {
    match IndexOf(s, sep)
    case None => [s]
    case Some(i) =>
      assert !Contains(s[..i], sep) by {
        forall j | OccursAt(s[..i], sep, j)
          ensures false
        {
          OccursInPrefix(s, sep, i, j);
        }
      }
      [s[..i]] + Split(s[i + |sep|..], sep)
  }

  /** `parts.join(sep)`. */
  function Join(parts: seq<string>, sep: string): string
    decreases |parts|
  {
    if |parts| == 0 then ""
    else if |parts| == 1 then parts[0]
    else parts[0] + sep + Join(parts[1..], sep)
  }

  /** Joining the segments with the separator gives back the string: `Split`
      loses nothing but the separators themselves. */
  lemma {:induction false} JoinSplit(s: string, sep: string)
    requires |sep| > 0
    ensures Join(Split(s, sep), sep) == s
    decreases |s|
  {
    var idx := IndexOf(s, sep);
    if idx.Some? {
      var i := idx.value;
      var rest := s[i + |sep|..];
      var tail := Split(rest, sep);
      JoinSplit(rest, sep);
      var parts := [s[..i]] + tail;
      assert Split(s, sep) == parts;
      assert parts[1..] == tail;
      assert Join(parts, sep) == s[..i] + sep + rest;
      Recompose(s, i, |sep|);
    }
  }

  /** Cutting a string around a window and gluing the pieces back. */
  lemma Recompose(s: string, i: nat, n: nat)
    requires i + n <= |s|
    ensures s == s[..i] + s[i..i + n] + s[i + n..]
  {
  }

  /** `s.split(sep)[k]`, `None` standing for `undefined`. */
  function Segment(s: string, sep: string, k: nat): Option<string>
    requires |sep| > 0
  {
    var parts := Split(s, sep);
    if k < |parts| then Some(parts[k]) else None
  }

  /** `s.split(sep)[0]`: everything before the first separator, or all of `s`. */
  function BeforeFirst(s: string, sep: string): (r: string)
    requires |sep| > 0
    ensures |r| <= |s| && r == s[..|r|]
    ensures !Contains(r, sep)
    ensures Contains(s, sep) <==> OccursAt(s, sep, |r|)
    ensures !Contains(s, sep) ==> r == s
  {
    var r := Split(s, sep)[0];
    if !Contains(s, sep) then r
    else
      var i := IndexOf(s, sep).value;
      assert r == s[..i];
      r
  }

  /** `s.split(sep)[1]` is the text between the first and the second
      separator (or up to the end), and is `undefined` without a separator. */
  lemma SecondSegment(s: string, sep: string)
    requires |sep| > 0
    ensures !Contains(s, sep) ==> Segment(s, sep, 1) == None
    ensures Contains(s, sep) ==>
      var i := IndexOf(s, sep).value;
      Segment(s, sep, 1) == Some(BeforeFirst(s[i + |sep|..], sep))
  {
  }

  /** `s.split(sep).pop()`: the text after the last separator. */
  function LastSegment(s: string, sep: string): string
    requires |sep| > 0
  {
    var parts := Split(s, sep);
    parts[|parts| - 1]
  }

  /** The last segment is a separator-free suffix, preceded by a separator
      unless it is the whole string. */
  lemma {:induction false} LastSegmentIsSuffix(s: string, sep: string)
    requires |sep| > 0
    ensures var r := LastSegment(s, sep);
      && |r| <= |s| && r == s[|s| - |r|..]
      && !Contains(r, sep)
      && (|r| < |s| ==> OccursAt(s, sep, |s| - |r| - |sep|))
    decreases |s|
  {
    match IndexOf(s, sep)
    case Some(i) =>
      var rest := s[i + |sep|..];
      var r := LastSegment(rest, sep);
      LastSegmentSkipsFirst(s, sep);
      LastSegmentIsSuffix(rest, sep);
      SuffixAfter(s, sep, i, r);
    case None =>
      LastSegmentWithoutSep(s, sep);
  }

  /** Without a separator the last segment is the whole string. */
  lemma LastSegmentWithoutSep(s: string, sep: string)
    requires |sep| > 0 && IndexOf(s, sep).None?
    ensures LastSegment(s, sep) == s
  {
    assert Split(s, sep) == [s];
  }

  /** With a separator present, the last segment is that of the text after
      the first separator. */
  lemma LastSegmentSkipsFirst(s: string, sep: string)
    requires |sep| > 0 && IndexOf(s, sep).Some?
    ensures LastSegment(s, sep) == LastSegment(s[IndexOf(s, sep).value + |sep|..], sep)
  {
    var i := IndexOf(s, sep).value;
    assert Split(s, sep) == [s[..i]] + Split(s[i + |sep|..], sep);
  }

  /** A separator-preceded suffix of the text after position `i + |sep|` is
      one of the whole string. */
  lemma SuffixAfter(s: string, sep: string, i: nat, r: string)
    requires i + |sep| <= |s|
    requires var rest := s[i + |sep|..];
      && |r| <= |rest| && r == rest[|rest| - |r|..]
      && (|r| < |rest| ==> OccursAt(rest, sep, |rest| - |r| - |sep|))
    requires OccursAt(s, sep, i)
    ensures |r| <= |s| && r == s[|s| - |r|..]
    ensures |r| < |s| ==> OccursAt(s, sep, |s| - |r| - |sep|)
  {
    var n := i + |sep|;
    TailOfDrop(s, n, |r|);
    if |r| < |s| - n {
      OccursInSuffix(s, sep, n, |s| - n - |r| - |sep|);
    }
  }

  /** The last `m` characters of a suffix of `s` are the last `m` of `s`. */
  lemma TailOfDrop(s: string, n: nat, m: nat)
    requires n + m <= |s|
    ensures s[n..][|s| - n - m..] == s[|s| - m..]
  {
  }



  // ---------------------------------------------------------------------------
  // replace
  // ---------------------------------------------------------------------------

  /** `s.replace(pat, rep)` with a string pattern (and no `$` in `rep`). */
  function ReplaceFirst(s: string, pat: string, rep: string): (r: string)
    ensures !Contains(s, pat) ==> r == s
    ensures Contains(s, pat) ==> |r| == |s| - |pat| + |rep|
  {
    match IndexOf(s, pat)
    case None => s
    case Some(i) => s[..i] + rep + s[i + |pat|..]
  }

  /** Only the first occurrence is replaced: the text before it is kept, the
      replacement follows, and everything after the replaced occurrence is
      kept verbatim, so a second occurrence survives. */
  lemma ReplaceFirstOnlyFirst(s: string, pat: string, rep: string)
    requires Contains(s, pat)
    ensures var i := IndexOf(s, pat).value;
      var r := ReplaceFirst(s, pat, rep);
      && r[..i] == s[..i]
      && r[i..i + |rep|] == rep
      && r[i + |rep|..] == s[i + |pat|..]
    ensures Contains(s[IndexOf(s, pat).value + |pat|..], pat) ==>
      Contains(ReplaceFirst(s, pat, rep), pat)
  {
    var i := IndexOf(s, pat).value;
    var r := ReplaceFirst(s, pat, rep);
    assert r == s[..i] + rep + s[i + |pat|..];
    assert r[..i] == s[..i];
    assert r[i..i + |rep|] == rep;
    assert r[i + |rep|..] == s[i + |pat|..];
    if Contains(s[i + |pat|..], pat) {
      ContainsConcatRight(s[..i] + rep, s[i + |pat|..], pat);
      assert Contains(r, pat);
    }
  }

  // ---------------------------------------------------------------------------
  // toLowerCase
  // ---------------------------------------------------------------------------

  function LowerChar(c: char): char {
    if 'A' <= c <= 'Z' then (c as int - 'A' as int + 'a' as int) as char else c
  }

  /** `s.toLowerCase()` on ASCII letters; every other character is kept. */
  function ToLower(s: string): (r: string)
    ensures |r| == |s|
    ensures forall i :: 0 <= i < |s| ==> r[i] == LowerChar(s[i])
  {
    seq(|s|, i requires 0 <= i < |s| => LowerChar(s[i]))
  }

  /** Lower-casing twice is lower-casing once. */
  lemma ToLowerIdempotent(s: string)
    ensures ToLower(ToLower(s)) == ToLower(s)
  {
  }

  // ---------------------------------------------------------------------------
  // Number formatting
  // ---------------------------------------------------------------------------

  predicate IsDigit(c: char) {
    '0' <= c <= '9'
  }

  function DigitChar(d: nat): char
    requires d < 10
  {
    ('0' as int + d) as char
  }

  /** `String(n)` for a non-negative integer. */
  function NatToDecimal(n: nat): string
    decreases n
  {
    if n < 10 then [DigitChar(n)] else NatToDecimal(n / 10) + [DigitChar(n % 10)]
  }

  /** `String(n)` for an integer. */
  function IntToDecimal(n: int): string {
    if n < 0 then "-" + NatToDecimal(-n) else NatToDecimal(n)
  }
}

=== FILE: submit_task_form.dfy ===
/** `SubmitTaskForm` (src/components/SubmitTaskForm.jsx): the second watch
    promotion form, with the same price rule, a shortfall display and a
    submit handler that reports the remaining balance. */
module SubmitTaskForm {
  import opened Js
  import opened Strings
  import opened WatchPricing

  /** The form state; `points` is always `Fund(duration, watches)`. */
  datatype Form = Form(url: string, duration: nat, watches: nat, userPoints: int, msg: string)

  const InvalidUrlAlert := "Paste a valid URL"
  const NotEnoughMsg := CrossMark + " Not enough points to submit this promotion."
  const SubmittedPrefix := CheckMark + " Submitted! Remaining Points: "
  const FailedMsg := CrossMark + " Submission failed!"

  /** The points the promotion costs. */
  function Points(f: Form): nat {
    Fund(f.duration, f.watches)
  }

  /** `points > userPoints ? points - userPoints : 0`: how many points are
      missing. */
  function Shortfall(points: int, userPoints: int): (s: int)
    ensures s >= 0
    ensures s == 0 <==> points <= userPoints
    ensures userPoints + s >= points
    ensures points > userPoints ==> userPoints + s == points
  {
    if points > userPoints then points - userPoints else 0
  }

  /** `disabled={points > userPoints}`. */
  predicate SubmitDisabled(f: Form) {
    Points(f) > f.userPoints
  }

  /** `handleSubmit`. `reply` is `None` when the request throws and otherwise
      `Some(res.data.remainingPoints)`. The second result is the alert shown,
      if any. */
  function HandleSubmit(f: Form, urlParses: bool, reply: Option<int>): (res: (Form, Option<string>))
    ensures f.url == "" || !urlParses ==> res == (f, Some(InvalidUrlAlert))
    ensures f.url != "" && urlParses && Points(f) > f.userPoints ==>
      res == (f.(msg := NotEnoughMsg), None)
    ensures res.0.duration == f.duration && res.0.watches == f.watches
    ensures res.0.url != f.url ==> res.0.url == "" && reply.Some?
    ensures res.0.userPoints != f.userPoints ==> reply == Some(res.0.userPoints)
    ensures f.url != "" && urlParses && Points(f) <= f.userPoints ==>
      match reply
      case Some(remaining) =>
        res == (Form("", f.duration, f.watches, remaining, SubmittedPrefix + IntToDecimal(remaining)), None)
      case None => res == (f.(msg := FailedMsg), None)
  {
    if f.url == "" || !urlParses then (f, Some(InvalidUrlAlert))
    else if Points(f) > f.userPoints then (f.(msg := NotEnoughMsg), None)
    else
      match reply
      case Some(remaining) =>
        (f.(msg := SubmittedPrefix + IntToDecimal(remaining), userPoints := remaining, url := ""), None)
      case None => (f.(msg := FailedMsg), None)
  }

  /** The button is disabled, the shortfall is positive and a valid
      submission is refused with the message, all under the same condition. */
  lemma RefusalAgreesWithShortfall(f: Form, reply: Option<int>)
    requires f.url != ""
    ensures SubmitDisabled(f) <==> Shortfall(Points(f), f.userPoints) > 0
    ensures SubmitDisabled(f) <==> HandleSubmit(f, true, reply).0.msg == NotEnoughMsg
  {
    if !SubmitDisabled(f) {
      match reply
      case Some(remaining) =>
        var msg := HandleSubmit(f, true, reply).0.msg;
        assert msg[0] == SubmittedPrefix[0] != NotEnoughMsg[0];
      case None =>
        assert |FailedMsg| != |NotEnoughMsg|;
    }
  }

  /** The URL is checked before the balance: an invalid URL gets the URL
      alert even when the balance is too low. */
  lemma UrlCheckedFirst(f: Form, reply: Option<int>)
    requires Points(f) > f.userPoints
    ensures HandleSubmit(f, false, reply) == (f, Some(InvalidUrlAlert))
  {
  }
}

=== FILE: task_feed.dfy ===
/** `TaskFeed` (src/context/TaskFeed.jsx): a feed of tasks passed in by the
    parent, with its own cost rule and promote handler. Unlike the
    dashboard it takes the whole cost body as its table rather than its
    `data` field, starts from the table's `global` entry rather than the
    task's own `promoteCost`, shows `res.message` as is, and marks only the
    clicked task object promoted. */
module TaskFeed {
  import opened Js
  import opened Strings
  import opened Promotion
  import Dashboard

  /** `promotionCosts.global || 50`, then the platform or action entry of
      the table when it is truthy. */
  function ResolveCost(t: Task, costs: CostTable): (c: int)
    ensures c != 0
    ensures !TruthyInt(costs.global) && t.kind != "video" && t.kind != "social" ==> c == 50
    ensures TruthyInt(costs.global) && t.kind != "video" && t.kind != "social" ==> c == costs.global.value
    ensures t.kind == "video" ==>
      var e := Lookup(costs.platforms, ToLower(t.platform));
      (TruthyInt(e) ==> c == e.value) && (!TruthyInt(e) ==> c == IntOr(costs.global, 50))
    ensures t.kind == "social" ==>
      var e := Lookup(costs.actions, ToLower(t.action));
      (TruthyInt(e) ==> c == e.value) && (!TruthyInt(e) ==> c == IntOr(costs.global, 50))
  {
    var base := IntOr(costs.global, 50);
    if t.kind == "video" then IntOr(Lookup(costs.platforms, ToLower(t.platform)), base)
    else if t.kind == "social" then IntOr(Lookup(costs.actions, ToLower(t.action)), base)
    else base
  }

  /** `fetchCosts()`: the whole body becomes the table; a failed request
      keeps the table, `{}` at first. */
  function FetchCosts(current: CostTable, reply: Option<CostsBody>): (c: CostTable)
    ensures reply.None? ==> c == current
    ensures reply.Some? ==> c == reply.value.top
  {
    match reply
    case None => current
    case Some(b) => b.top
  }

  /** Fed the same cost body, the feed reads its top-level fields and the
      dashboard its `data` field. When only one level carries a table and
      the task has no cost of its own, the two pages charge the same
      exactly when both charge the default 50. */
  lemma AgreeOnlyOnDefault(t: Task, b: CostsBody, current: CostTable, page: Dashboard.Page,
                           videos: Option<seq<Task>>, social: Option<seq<Task>>)
    requires !TruthyInt(t.promoteCost)
    requires b.data.None? || b.top == NoCosts
    ensures var feed := ResolveCost(t, FetchCosts(current, Some(b)));
      var dash := Dashboard.ResolveCost(t, Dashboard.FetchData(page, Some(Dashboard.Fetched(videos, social, b))).costs);
      feed == dash <==> feed == 50 && dash == 50
  {
  }

  /** They disagree on a task that carries its own cost, whatever the
      body: with a body holding no table at either level, the dashboard
      charges the task's 80, the feed charges 50. */
  lemma OwnCostIgnored()
    ensures var t := Task("t1", "video", "YouTube", "", Some(80), false);
      var b := CostsBody(NoCosts, None);
      ResolveCost(t, FetchCosts(NoCosts, Some(b))) == 50
      && Dashboard.ResolveCost(t, b.data.GetOr(NoCosts)) == 80
  {
  }

  /** The already-unwrapped `promoteTask` payload. */
  datatype Payload = Payload(message: Option<string>, remainingPoints: int)

  /** `handlePromote(task)` for the task at index `i` of the feed. Without a
      user, reading `user.points` throws before anything happens. The alert
      on success is `res.message`, printed as "undefined" when absent. */
  function HandlePromote(s: State, i: nat, costs: CostTable, reply: Option<Payload>): (r: (State, Option<string>))
    requires i < |s.tasks|
    ensures s.user.None? ==> r == (s, None)
    ensures s.user.Some? && s.user.value.points < ResolveCost(s.tasks[i], costs) ==>
      r == (s, Some(NeedAlert(ResolveCost(s.tasks[i], costs))))
    ensures s.user.Some? && s.user.value.points >= ResolveCost(s.tasks[i], costs) ==>
      && r.0.loadingId.None?
      && |r.0.tasks| == |s.tasks|
      && (forall j :: 0 <= j < |s.tasks| && j != i ==> r.0.tasks[j] == s.tasks[j])
      && (reply.None? ==> r == (s.(loadingId := None), Some(FailedAlert)))
      && (reply.Some? ==>
            && r.0.user == Some(User(reply.value.remainingPoints))
            && r.0.tasks[i] == s.tasks[i].(promoted := true)
            && r.1 == Some(reply.value.message.GetOr("undefined")))
  {
    match s.user
    case None => (s, None)
    case Some(u) =>
      var cost := ResolveCost(s.tasks[i], costs);
      if u.points < cost then (s, Some(NeedAlert(cost)))
      else
        match reply
        case None => (s.(loadingId := None), Some(FailedAlert))
        case Some(p) =>
          (State(Some(u.(points := p.remainingPoints)), s.tasks[i := s.tasks[i].(promoted := true)], None),
           Some(p.message.GetOr("undefined")))
  }

  /** When the feed's ids are distinct, marking the clicked entry is the
      same as the dashboard's marking by id. */
  lemma MarkingAgreesWhenIdsDistinct(s: State, i: nat, costs: CostTable, p: Payload)
    requires i < |s.tasks|
    requires forall j, k :: 0 <= j < k < |s.tasks| ==> s.tasks[j].id != s.tasks[k].id
    requires s.user.Some? && s.user.value.points >= ResolveCost(s.tasks[i], costs)
    ensures HandlePromote(s, i, costs, Some(p)).0.tasks == MarkPromoted(s.tasks, s.tasks[i].id)
  {
    var r := HandlePromote(s, i, costs, Some(p)).0.tasks;
    var m := MarkPromoted(s.tasks, s.tasks[i].id);
    forall j | 0 <= j < |s.tasks| ensures r[j] == m[j] {
      assert m[j].(promoted := s.tasks[j].promoted) == s.tasks[j];
      if j != i {
        assert s.tasks[j].id != s.tasks[i].id;
      }
    }
  }

  /** With a repeated id only the clicked copy is marked, where the
      dashboard would mark both. */
  lemma DuplicateIdMarkedOnce()
    ensures var a := Task("t1", "video", "youtube", "", None, false);
      var s := State(Some(User(100)), [a, a], None);
      var r := HandlePromote(s, 0, NoCosts, Some(Payload(None, 50))).0.tasks;
      r[0].promoted && !r[1].promoted && MarkPromoted(s.tasks, "t1")[1].promoted
  {
  }
}

=== FILE: url.dfy ===
/** What the WHATWG `URL` parser yields that the front-end reads. The parser
    itself is not modelled: a caller passes `None` where `new URL(url)` would
    throw, and otherwise the parts the code looks at. */
module Url {
  import opened Js

  /** `u.hostname`, `u.pathname` and `u.searchParams.get("v")` (`None` for null). */
  datatype ParsedUrl = ParsedUrl(hostname: string, pathname: string, v: Option<string>)
}

=== FILE: video_player_with_timer.dfy ===
/** `TaskCard` in src/components/VideoPlayerWithTimer.jsx: a watch card with
    a case-sensitive platform label, a duration chosen from the balance, a
    countdown and an optional paid social action. */
module VideoPlayerWithTimer {
  import opened Js
  import opened Strings
  import opened Platforms
  import ActionPricing
  import ActionTaskForm
  import Countdown

  /** The checks of `getPlatform` in source order. */
  const Rules: seq<Rule> := [
    Rule(["youtube.com", "youtu.be"], YouTube),
    Rule(["tiktok.com"], TikTok),
    Rule(["instagram.com"], Instagram),
    Rule(["facebook.com"], Facebook),
    Rule(["twitter.com"], Twitter)
  ]

  /** The table, rule by rule. */
  lemma RulesInOrder(l: string)
    ensures FirstMatch(Rules, l) ==
      if Contains(l, "youtube.com") || Contains(l, "youtu.be") then YouTube
      else if Contains(l, "tiktok.com") then TikTok
      else if Contains(l, "instagram.com") then Instagram
      else if Contains(l, "facebook.com") then Facebook
      else if Contains(l, "twitter.com") then Twitter
      else Unknown
  {
    FirstMatchOfFive(Rules, l);
    TwoMarkers("youtube.com", "youtu.be", l);
    OneMarker("tiktok.com", l);
    OneMarker("instagram.com", l);
    OneMarker("facebook.com", l);
    OneMarker("twitter.com", l);
  }

  /** `getPlatform(url)`: no lower-casing, no `x.com` or `fb.watch` marker. */
  function GetPlatform(url: string): (p: Platform)
    ensures p in {YouTube, TikTok, Instagram, Facebook, Twitter, Unknown}
    ensures p == FirstMatch(Rules, url)
  {
    RulesInOrder(url);
    if Contains(url, "youtube.com") || Contains(url, "youtu.be") then YouTube
    else if Contains(url, "tiktok.com") then TikTok
    else if Contains(url, "instagram.com") then Instagram
    else if Contains(url, "facebook.com") then Facebook
    else if Contains(url, "twitter.com") then Twitter
    else Unknown
  }

  /** The label `getPlatform` returns. */
  function Label(p: Platform): string {
    match p
    case YouTube => "YouTube"
    case TikTok => "TikTok"
    case Instagram => "Instagram"
    case Facebook => "Facebook"
    case Twitter => "Twitter"
    case LinkedIn => "LinkedIn"
    case Unknown => "Unknown"
  }

  const DurationOptions: seq<nat> := [30, 60, 120, 190, 360]
  const PointsByDuration: map<nat, nat> := map[30 := 5, 60 := 10, 120 := 20, 190 := 30, 360 := 50]

  /** `opts.filter(d => POINTS_BY_DURATION[d] <= userPoints)`. */
  function Affordable(opts: seq<nat>, userPoints: int): (r: seq<nat>)
    requires forall i :: 0 <= i < |opts| ==> opts[i] in PointsByDuration
    requires forall i, j :: 0 <= i < j < |opts| ==> opts[i] < opts[j]
    ensures forall d :: d in r <==> d in opts && PointsByDuration[d] <= userPoints
    ensures forall i, j :: 0 <= i < j < |r| ==> r[i] < r[j]
  {
    if |opts| == 0 then []
    else
      var rest := Affordable(opts[1..], userPoints);
      assert forall j :: 0 <= j < |rest| ==> opts[0] < rest[j] by {
        forall j | 0 <= j < |rest| ensures opts[0] < rest[j] {
          assert rest[j] in rest;
          var k :| 0 <= k < |opts[1..]| && opts[1..][k] == rest[j];
          assert opts[k + 1] == rest[j];
        }
      }
      if PointsByDuration[opts[0]] <= userPoints then [opts[0]] + rest else rest
  }

  /** The initial duration: the largest option whose points the balance
      covers (`filter(...).slice(-1)[0]`), or 30 when none is affordable. */
  function InitialDuration(userPoints: int): (d: nat)
    ensures d in DurationOptions
    ensures (exists o :: o in DurationOptions && PointsByDuration[o] <= userPoints) ==>
      PointsByDuration[d] <= userPoints
      && forall o :: o in DurationOptions && PointsByDuration[o] <= userPoints ==> o <= d
    ensures (forall o :: o in DurationOptions ==> PointsByDuration[o] > userPoints) ==> d == 30
  {
    var ok := Affordable(DurationOptions, userPoints);
    if |ok| == 0 then 30
    else
      assert ok[|ok| - 1] in ok;
      assert forall o :: o in ok ==> o <= ok[|ok| - 1] by {
        forall o | o in ok ensures o <= ok[|ok| - 1] {
          var i :| 0 <= i < |ok| && ok[i] == o;
        }
      }
      ok[|ok| - 1]
  }

  /** Points grow with the duration, so the chosen duration is also the one
      worth the most points among the affordable ones. */
  lemma InitialDurationMaximisesPoints(userPoints: int, o: nat)
    requires o in DurationOptions && PointsByDuration[o] <= userPoints
    ensures PointsByDuration[o] <= PointsByDuration[InitialDuration(userPoints)] <= userPoints
  {
  }

  /** The video's points for the selected duration (`POINTS_BY_DURATION[duration]`). */
  function VideoPoints(duration: nat): (p: nat)
    requires duration in DurationOptions
    ensures p > 0 && p in PointsByDuration.Values
    ensures p * 6 <= duration
  {
    PointsByDuration[duration]
  }

  /** One tick of the card's countdown: the completion callback receives
      the video's points, and is called only when there is no social
      action. */
  function TickCard(timeLeft: int, hasSocialAction: bool, videoPoints: nat): (r: (int, Option<nat>))
    ensures r.0 >= 0
    ensures r.1.Some? <==> timeLeft <= 1 && !hasSocialAction
    ensures r.1.Some? ==> r.1.value == videoPoints
    ensures r.0 == Countdown.Tick(timeLeft).next
  {
    var s := Countdown.Tick(timeLeft);
    (s.next, if s.done && !hasSocialAction then Some(videoPoints) else None)
  }

  datatype SocialAction = SocialAction(url: string, action: string)

  datatype ActionResult = NoAction | NotEnoughPoints | Rewarded(points: int)

  /** `ACTION_POINTS[action] || 0`. */
  function ActionPrice(action: string): (p: int)
    ensures p >= 0
    ensures p == 0 <==> ActionPricing.Price(action).None?
  {
    IntOr(ActionPricing.Price(action), 0)
  }

  /** `handleAction()`: nothing without a social action; refused when the
      action's price exceeds the balance; otherwise the card completes with
      the video's points plus the action's. */
  function HandleAction(social: Option<SocialAction>, userPoints: int, videoPoints: nat): (r: ActionResult)
    ensures social.None? <==> r == NoAction
    ensures r == NotEnoughPoints <==> social.Some? && ActionPrice(social.value.action) > userPoints
    ensures r.Rewarded? ==> r.points == videoPoints + ActionPrice(social.value.action)
    ensures r.Rewarded? ==> r.points >= videoPoints
  {
    match social
    case None => NoAction
    case Some(a) =>
      var price := ActionPrice(a.action);
      if price > userPoints then NotEnoughPoints else Rewarded(videoPoints + price)
  }

  /** A known action costs the same here as in the action form; an unknown
      one is free here but priced 5 per unit there. */
  lemma ActionPriceAgreesWithForm(action: string)
    ensures ActionPricing.Price(action).Some? ==> ActionPrice(action) == ActionTaskForm.UnitPrice(action)
    ensures ActionPricing.Price(action).None? ==>
      ActionPrice(action) == 0 && ActionTaskForm.UnitPrice(action) == 5
  {
  }

  /** An unknown action is never refused: its price is 0. */
  lemma UnknownActionAlwaysRewarded(a: SocialAction, userPoints: int, videoPoints: nat)
    requires a.action !in {"like", "share", "comment", "follow"} && userPoints >= 0
    ensures HandleAction(Some(a), userPoints, videoPoints) == Rewarded(videoPoints)
  {
  }
}

=== FILE: wallet.dfy ===
/** `Wallet` (src/pages/Wallet.jsx): the wallet fetch, the redeem and
    transfer handlers with their input checks, and the transaction list
    shown newest first. `Number(input)` is the parameter `number`, which
    yields `None` for NaN; requests are reply parameters. */
module Wallet {
  import opened Js

  /** A transaction; `fromUser`/`toUser` are the counterparties' usernames
      when the objects are present. */
  datatype Tx = Tx(kind: string, amount: int, fromUser: Option<string>, toUser: Option<string>)

  /** The fetched wallet; `history` may be absent. */
  datatype Account = Account(balance: int, history: Option<seq<Tx>>)

  datatype Toast = ErrorToast(message: string) | Redeemed(amount: real) | Transferred(amount: real, to: string)

  datatype Page = Page(
    wallet: Account,
    loading: bool,
    redeemAmount: string,
    transferUser: string,
    transferAmount: string,
    loadingRedeem: bool,
    loadingTransfer: bool)

  /** The first render: empty wallet, loading, empty inputs. */
  const InitialPage := Page(Account(0, Some([])), true, "", "", "", false, false)

  /** `fetchWallet()`: the wallet is replaced on success, a toast reports a
      failure, and loading ends either way. */
  function FetchWallet(p: Page, reply: Outcome<Account>): (r: (Page, Option<Toast>))
    ensures !r.0.loading
    ensures r.0.(wallet := p.wallet, loading := p.loading) == p
    ensures reply.Ok? ==> r.0.wallet == reply.data && r.1.None?
    ensures reply.Failed? ==> r.0.wallet == p.wallet && r.1 == Some(ErrorToast(StrOr(reply.message, "Failed to fetch wallet")))
  {
    match reply
    case Ok(w) => (p.(wallet := w, loading := false), None)
    case Failed(m) => (p.(loading := false), Some(ErrorToast(StrOr(m, "Failed to fetch wallet"))))
  }

  /** `!amt || amt <= 0` rejects NaN, 0 and negative amounts. */
  predicate ValidAmount(amt: Option<real>) {
    amt.Some? && amt.value > 0.0
  }

  const InvalidAmount := "Enter a valid amount"
  const NoRecipient := "Enter recipient username"

  /** What a handler did: the page after it, the toast shown, and whether it
      started a wallet refetch. */
  datatype Handled = Handled(page: Page, toast: Toast, refetch: bool)

  /** `redeem()`: an invalid amount is refused before any request; a
      success clears the input and refetches; the button's loading flag ends
      false once a request was made. */
  function Redeem(p: Page, number: string -> Option<real>, reply: Outcome<()>): (r: Handled)
    ensures !ValidAmount(number(p.redeemAmount)) ==> r == Handled(p, ErrorToast(InvalidAmount), false)
    ensures ValidAmount(number(p.redeemAmount)) ==>
      && !r.page.loadingRedeem
      && r.page.(redeemAmount := p.redeemAmount, loadingRedeem := p.loadingRedeem) == p
      && (r.refetch <==> reply.Ok?)
      && (reply.Ok? ==> r.page.redeemAmount == "" && r.toast == Redeemed(number(p.redeemAmount).value))
      && (reply.Failed? ==> r.page.redeemAmount == p.redeemAmount
                            && r.toast == ErrorToast(StrOr(reply.message, "Redeem failed")))
  {
    var amt := number(p.redeemAmount);
    if !ValidAmount(amt) then Handled(p, ErrorToast(InvalidAmount), false)
    else
      match reply
      case Ok(_) => Handled(p.(redeemAmount := "", loadingRedeem := false), Redeemed(amt.value), true)
      case Failed(m) => Handled(p.(loadingRedeem := false), ErrorToast(StrOr(m, "Redeem failed")), false)
  }

  /** `transfer()`: the recipient is checked before the amount; a success
      clears both inputs and refetches. */
  function Transfer(p: Page, number: string -> Option<real>, reply: Outcome<()>): (r: Handled)
    ensures p.transferUser == "" ==> r == Handled(p, ErrorToast(NoRecipient), false)
    ensures p.transferUser != "" && !ValidAmount(number(p.transferAmount)) ==>
      r == Handled(p, ErrorToast(InvalidAmount), false)
    ensures p.transferUser != "" && ValidAmount(number(p.transferAmount)) ==>
      && !r.page.loadingTransfer
      && r.page.(transferUser := p.transferUser, transferAmount := p.transferAmount,
                 loadingTransfer := p.loadingTransfer) == p
      && (r.refetch <==> reply.Ok?)
      && (reply.Ok? ==>
            && r.page.transferUser == "" && r.page.transferAmount == ""
            && r.toast == Transferred(number(p.transferAmount).value, p.transferUser))
      && (reply.Failed? ==>
            && r.page.transferUser == p.transferUser && r.page.transferAmount == p.transferAmount
            && r.toast == ErrorToast(StrOr(reply.message, "Transfer failed")))
  {
    var amt := number(p.transferAmount);
    if p.transferUser == "" then Handled(p, ErrorToast(NoRecipient), false)
    else if !ValidAmount(amt) then Handled(p, ErrorToast(InvalidAmount), false)
    else
      match reply
      case Ok(_) =>
        Handled(p.(transferUser := "", transferAmount := "", loadingTransfer := false),
                Transferred(amt.value, p.transferUser), true)
      case Failed(m) => Handled(p.(loadingTransfer := false), ErrorToast(StrOr(m, "Transfer failed")), false)
  }

  /** A request is made (and so a refetch or a server failure can follow)
      only with a recipient and a positive amount. */
  lemma TransferNeedsRecipientAndAmount(p: Page, number: string -> Option<real>, reply: Outcome<()>)
    ensures p.transferUser == "" || !ValidAmount(number(p.transferAmount)) ==>
      var r := Transfer(p, number, reply);
      r.page == p && r.toast.ErrorToast? && r.toast.message in {NoRecipient, InvalidAmount}
    ensures Transfer(p, number, reply).refetch <==>
            p.transferUser != "" && ValidAmount(number(p.transferAmount)) && reply.Ok?
  {
  }

  /** Redeeming and transferring touch disjoint inputs, so they commute:
      either order gives the same page, and each handler's toast and
      refetch are what they would be on its own. */
  lemma HandlersCommute(p: Page, number: string -> Option<real>, r1: Outcome<()>, r2: Outcome<()>)
    ensures Transfer(Redeem(p, number, r1).page, number, r2).page
         == Redeem(Transfer(p, number, r2).page, number, r1).page
    ensures var r := Redeem(Transfer(p, number, r2).page, number, r1);
      r.toast == Redeem(p, number, r1).toast && r.refetch == Redeem(p, number, r1).refetch
    ensures var t := Transfer(Redeem(p, number, r1).page, number, r2);
      t.toast == Transfer(p, number, r2).toast && t.refetch == Transfer(p, number, r2).refetch
  {
  }

  // ---------------------------------------------------------------------------
  // Transaction list
  // ---------------------------------------------------------------------------

  /** `s.slice().reverse()`. */
  function Reverse<T>(s: seq<T>): (r: seq<T>)
    ensures |r| == |s|
    ensures forall i :: 0 <= i < |s| ==> r[i] == s[|s| - 1 - i]
  {
    seq(|s|, i requires 0 <= i < |s| => s[|s| - 1 - i])
  }

  /** Reversing twice gives the history back. */
  lemma ReverseInvolution<T>(s: seq<T>)
    ensures Reverse(Reverse(s)) == s
  {
  }

  /** Reversal keeps every transaction and adds none. */
  lemma {:induction false} ReverseSameElements<T>(s: seq<T>)
    ensures multiset(Reverse(s)) == multiset(s)
    decreases |s|
  {
    if |s| > 0 {
      var r := Reverse(s);
      var last := s[|s| - 1];
      assert r == [last] + Reverse(s[..|s| - 1]);
      ReverseSameElements(s[..|s| - 1]);
      assert s == s[..|s| - 1] + [last];
    }
  }

  const TypeLabels: map<string, string> := map[
    "earn" := "Earned",
    "redeem" := "Redeemed",
    "transfer_in" := "Received",
    "transfer_out" := "Sent",
    "admin_add" := "Admin added",
    "admin_deduct" := "Admin deducted"
  ]

  /** `typeLabels[t.type] || t.type`. */
  function Label(kind: string): (r: string)
    ensures kind in TypeLabels ==> r == TypeLabels[kind]
    ensures kind !in TypeLabels ==> r == kind
  {
    LabelOr(TypeLabels, kind)
  }

  /** "from <sender>", else "to <recipient>", else nothing. */
  function Counterparty(t: Tx): (r: string)
    ensures t.fromUser.Some? ==> r == "from " + t.fromUser.value
    ensures t.fromUser.None? && t.toUser.Some? ==> r == "to " + t.toUser.value
    ensures r == "" <==> t.fromUser.None? && t.toUser.None?
  {
    if t.fromUser.Some? then "from " + t.fromUser.value
    else if t.toUser.Some? then "to " + t.toUser.value
    else ""
  }

  datatype Row = Row(title: string, amount: int, counterparty: string)

  /** The transaction list, newest (last) first; nothing when the history
      is absent. */
  function Rows(w: Account): (r: seq<Row>)
    ensures w.history.None? ==> r == []
    ensures w.history.Some? ==> |r| == |w.history.value|
    ensures w.history.Some? ==> forall i :: 0 <= i < |r| ==>
      var t := w.history.value[|r| - 1 - i];
      r[i] == Row(Label(t.kind), t.amount, Counterparty(t))
  {
    match w.history
    case None => []
    case Some(h) =>
      var rev := Reverse(h);
      seq(|rev|, i requires 0 <= i < |rev| => Row(Label(rev[i].kind), rev[i].amount, Counterparty(rev[i])))
  }

  /** The newest transaction heads the list. */
  lemma NewestFirst(w: Account)
    requires w.history.Some? && |w.history.value| > 0
    ensures Rows(w)[0].amount == w.history.value[|w.history.value| - 1].amount
  {
  }
}

=== FILE: watch_player.dfy ===
/** `WatchPlayer` (src/components/WatchPlayer.jsx): play/stop/tick state of
    a watch-to-earn player, the completion reward rule, and the choice of
    embed for the task's URL. The completion request is a parameter. */
module WatchPlayer {
  import opened Js
  import opened Strings
  import opened Platforms
  import YT = YouTube
  import Countdown

  // ---------------------------------------------------------------------------
  // Timer and reward
  // ---------------------------------------------------------------------------

  /** The fields of `task` the player reads. */
  datatype Task = Task(duration: int, points: Option<int>)

  /** The state of the render in which Play was last pressed. The running
      interval calls that render's `handleCompleteWatch`, so this is the
      `completed` flag and the `userPoints` prop the completion reads,
      whatever the state has become since. */
  datatype Seen = Seen(completed: bool, userPoints: int)

  datatype Player = Player(
    timeLeft: int,
    completed: bool,
    isPlaying: bool,
    rewardEarned: Option<int>,
    userPoints: int,
    seen: Seen)

  /** What the current render sees. */
  function Current(p: Player): Seen {
    Seen(p.completed, p.userPoints)
  }

  /** `startTimer()`: the interval it creates closes over the current
      render, taken before `setCompleted(false)` takes effect. */
  function Start(p: Player): (q: Player)
    ensures !q.completed && q.isPlaying
    ensures q.seen == Seen(p.completed, p.userPoints)
    ensures q.(completed := p.completed, isPlaying := p.isPlaying, seen := p.seen) == p
  {
    p.(completed := false, isPlaying := true, seen := Current(p))
  }

  /** `stopTimer()`: the countdown is reset to the task's duration. */
  function Stop(p: Player, task: Task): (q: Player)
    ensures !q.isPlaying && q.timeLeft == task.duration
    ensures q.(isPlaying := p.isPlaying, timeLeft := p.timeLeft) == p
  {
    p.(isPlaying := false, timeLeft := task.duration)
  }

  /** What `/tasks/watch/:id/complete` returned: `res?.data?.rewardPoints`
      and `res?.data?.newBalance`. */
  datatype Reward = Reward(rewardPoints: Option<int>, newBalance: Option<int>)

  /** `rewardPoints || task.points || 0`: a server reward of 0 falls back on
      the task's points. */
  function Earned(task: Task, r: Reward): (e: int)
    ensures TruthyInt(r.rewardPoints) ==> e == r.rewardPoints.value
    ensures !TruthyInt(r.rewardPoints) && TruthyInt(task.points) ==> e == task.points.value
    ensures e == 0 <==> !TruthyInt(r.rewardPoints) && !TruthyInt(task.points)
  {
    IntOr(r.rewardPoints, IntOr(task.points, 0))
  }

  /** `newBalance ?? userPoints + earned`: a server balance of 0 is kept. */
  function NewBalance(userPoints: int, task: Task, r: Reward): (b: int)
    ensures r.newBalance.Some? ==> b == r.newBalance.value
    ensures r.newBalance.None? ==> b == userPoints + Earned(task, r)
  {
    r.newBalance.GetOr(userPoints + Earned(task, r))
  }

  /** `handleCompleteWatch()` of a render that saw `seen`, applied to the
      current state `p`. `reply` is `None` when the request throws. When
      that render saw `completed`, nothing happens at all: `isPlaying` is
      not cleared either. */
  function CompleteWatch(p: Player, seen: Seen, task: Task, reply: Option<Reward>): (q: Player)
    ensures seen.completed ==> q == p
    ensures !seen.completed ==> q.completed && !q.isPlaying && q.timeLeft == p.timeLeft && q.seen == p.seen
    ensures !seen.completed && reply.None? ==> q == p.(completed := true, isPlaying := false)
    ensures !seen.completed && reply.Some? ==>
      && q.rewardEarned == Some(Earned(task, reply.value))
      && q.userPoints == NewBalance(seen.userPoints, task, reply.value)
  {
    if seen.completed then p
    else
      var q := p.(completed := true, isPlaying := false);
      match reply
      case None => q
      case Some(r) => q.(userPoints := NewBalance(seen.userPoints, task, r), rewardEarned := Some(Earned(task, r)))
  }

  /** A handler of any render after a completion does nothing, whatever its
      reply: a completion is not repeated from a fresh render. */
  lemma CompleteWatchIdempotent(p: Player, task: Task, r1: Option<Reward>, r2: Option<Reward>)
    ensures var q := CompleteWatch(p, Current(p), task, r1);
      CompleteWatch(q, Current(q), task, r2) == q
  {
  }

  /** One tick of the running interval: at `timeLeft <= 1` the time left
      becomes 0 and the handler captured at Play runs; otherwise it counts
      down by one. */
  function TickPlayer(p: Player, task: Task, reply: Option<Reward>): (q: Player)
    ensures q.timeLeft >= 0
    ensures p.timeLeft > 1 ==> q == p.(timeLeft := p.timeLeft - 1)
    ensures p.timeLeft <= 1 ==> q == CompleteWatch(p.(timeLeft := 0), p.seen, task, reply)
  {
    var s := Countdown.Tick(p.timeLeft);
    if s.done then CompleteWatch(p.(timeLeft := s.next), p.seen, task, reply) else p.(timeLeft := s.next)
  }

  /** Ticks above 1 only count down, so the interval reaches its completing
      tick with the Play state and a `timeLeft` of at most 1; `k` is that
      value. */
  function Reached(p: Player, k: int): (q: Player)
    requires k <= 1
    ensures q.timeLeft <= 1 && q.(timeLeft := p.timeLeft) == p
  {
    p.(timeLeft := k)
  }

  /** Play pressed on a player that has not completed: the completing tick
      rewards the watch and stops the player. */
  lemma FirstPlayRewarded(p: Player, task: Task, r: Reward, k: int)
    requires !p.completed && k <= 1
    ensures var q := TickPlayer(Reached(Start(p), k), task, Some(r));
      q.completed && !q.isPlaying && q.timeLeft == 0 && q.rewardEarned == Some(Earned(task, r))
      && q.userPoints == NewBalance(p.userPoints, task, r)
  {
  }

  /** Play pressed again after a completion: the interval's handler still
      sees `completed`, so the completing tick only sets the time to 0. No
      request is made, no reward is granted, and the player is left
      playing, with `completed` false. */
  lemma RestartAfterCompletionStalls(p: Player, task: Task, reply: Option<Reward>, k: int)
    requires p.completed && k <= 1
    ensures var q := TickPlayer(Reached(Start(p), k), task, reply);
      && q == Start(p).(timeLeft := 0)
      && q.isPlaying && !q.completed
      && q.rewardEarned == p.rewardEarned && q.userPoints == p.userPoints
  {
  }

  /** From that stalled player, Stop and then Play again does reward: this
      Play's render sees the `completed` false the stalled start left. */
  lemma StopAndPlayRewardsAgain(p: Player, task: Task, reply: Option<Reward>, r: Reward, k: int, j: int)
    requires p.completed && k <= 1 && j <= 1
    ensures var stalled := TickPlayer(Reached(Start(p), k), task, reply);
      var q := TickPlayer(Reached(Start(Stop(stalled, task)), j), task, Some(r));
      q.completed && !q.isPlaying && q.rewardEarned == Some(Earned(task, r))
      && q.userPoints == NewBalance(p.userPoints, task, r)
  {
  }

  // ---------------------------------------------------------------------------
  // Embed choice
  // ---------------------------------------------------------------------------

  /** What `renderVideoEmbed(url)` renders, with the attributes that depend
      on the URL. */
  datatype Embed =
    | TikTokQuote(cite: string, videoId: Option<string>)
    | InstagramQuote(permalink: string)
    | FacebookVideo(href: string, autoplay: string)
    | Tweet(href: string)
    | YouTubeFrame(src: string)
    | PlainFrame(src: string)

  /** The platform each kind of embed stands for. */
  function Kind(e: Embed): Platform {
    match e
    case TikTokQuote(_, _) => TikTok
    case InstagramQuote(_) => Instagram
    case FacebookVideo(_, _) => Facebook
    case Tweet(_) => Twitter
    case YouTubeFrame(_) => YouTube
    case PlainFrame(_) => Unknown
  }

  /** The checks of `renderVideoEmbed` in source order: TikTok first and
      YouTube last, the reverse of the platform detectors. */
  const Rules: seq<Rule> := [
    Rule(["tiktok.com"], TikTok),
    Rule(["instagram.com"], Instagram),
    Rule(["facebook.com", "fb.watch"], Facebook),
    Rule(["twitter.com", "x.com"], Twitter),
    Rule(["youtube.com", "youtu.be"], YouTube)
  ]

  /** The table, rule by rule. */
  lemma RulesInOrder(l: string)
    ensures FirstMatch(Rules, l) ==
      if Contains(l, "tiktok.com") then TikTok
      else if Contains(l, "instagram.com") then Instagram
      else if Contains(l, "facebook.com") || Contains(l, "fb.watch") then Facebook
      else if Contains(l, "twitter.com") || Contains(l, "x.com") then Twitter
      else if Contains(l, "youtube.com") || Contains(l, "youtu.be") then YouTube
      else Unknown
  {
    FirstMatchOfFive(Rules, l);
    OneMarker("tiktok.com", l);
    OneMarker("instagram.com", l);
    TwoMarkers("facebook.com", "fb.watch", l);
    TwoMarkers("twitter.com", "x.com", l);
    TwoMarkers("youtube.com", "youtu.be", l);
  }

  /** The leftmost match of `/video\/(\d+)/` starts at `i`. */
  predicate VideoMatchAt(url: string, i: int) {
    OccursAt(url, "video/", i) && i + 6 < |url| && IsDigit(url[i + 6])
  }

  /** Where the leftmost match at or after `from` starts. */
  function VideoMatchFrom(url: string, from: nat): (r: Option<nat>)
    ensures r.Some? ==> from <= r.value && VideoMatchAt(url, r.value)
    ensures r.Some? ==> forall j :: from <= j < r.value ==> !VideoMatchAt(url, j)
    ensures r.None? ==> forall j :: from <= j ==> !VideoMatchAt(url, j)
    decreases |url| - from
  {
    if from + 6 >= |url| then None
    else if VideoMatchAt(url, from) then Some(from)
    else VideoMatchFrom(url, from + 1)
  }

  /** The greedy `\d+`: the longest all-digit prefix of `s`. */
  function DigitRun(s: string): (r: string)
    ensures |r| <= |s| && r == s[..|r|]
    ensures forall i :: 0 <= i < |r| ==> IsDigit(r[i])
    ensures |r| < |s| ==> !IsDigit(s[|r|])
    decreases |s|
  {
    if |s| > 0 && IsDigit(s[0]) then [s[0]] + DigitRun(s[1..]) else []
  }

  /** `url.match(/video\/(\d+)/)?.[1]`. */
  function TikTokVideoId(url: string): Option<string> {
    match VideoMatchFrom(url, 0)
    case None => None
    case Some(i) => Some(DigitRun(url[i + 6..]))
  }

  /** The TikTok id is present exactly when `video/` is followed by a digit
      somewhere; it is then the whole run of digits after the leftmost such
      `video/`, and never empty. */
  lemma TikTokVideoIdSpec(url: string)
    ensures TikTokVideoId(url).None? <==> forall j :: 0 <= j ==> !VideoMatchAt(url, j)
    ensures TikTokVideoId(url).Some? ==>
      var i := VideoMatchFrom(url, 0).value;
      var id := TikTokVideoId(url).value;
      && OccursAt(url, "video/", i)
      && 0 < |id| && i + 6 + |id| <= |url| && url[i + 6..i + 6 + |id|] == id
      && (forall k :: 0 <= k < |id| ==> IsDigit(id[k]))
      && (i + 6 + |id| < |url| ==> !IsDigit(url[i + 6 + |id|]))
  {
    match VideoMatchFrom(url, 0)
    case None =>
    case Some(i) =>
      var rest := url[i + 6..];
      var id := DigitRun(rest);
      assert rest[0] == url[i + 6];
      assert url[i + 6..i + 6 + |id|] == rest[..|id|];
      if i + 6 + |id| < |url| {
        assert rest[|id|] == url[i + 6 + |id|];
      }
  }

  /** `url.split("/reel/")[1]?.split("/")[0]`. */
  function InstagramId(url: string): Option<string> {
    match Segment(url, "/reel/", 1)
    case None => None
    case Some(seg) => Some(BeforeFirst(seg, "/"))
  }

  /** The permalink; a missing id prints as "undefined". */
  function InstagramPermalink(url: string): string {
    "https://www.instagram.com/reel/" + InstagramId(url).GetOr("undefined") + "/"
  }

  /** The Instagram id is the text after the first `/reel/` up to the next
      `/` (or `/reel/`), and is missing without `/reel/`. */
  lemma InstagramIdSpec(url: string)
    ensures InstagramId(url).None? <==> !Contains(url, "/reel/")
    ensures InstagramId(url).Some? ==>
      var rest := url[IndexOf(url, "/reel/").value + 6..];
      var id := InstagramId(url).value;
      && |id| <= |rest| && id == rest[..|id|] && !Contains(id, "/")
      && (|id| < |rest| ==> rest[|id|] == '/')
  {
    SecondSegment(url, "/reel/");
    if Contains(url, "/reel/") {
      var rest := url[IndexOf(url, "/reel/").value + 6..];
      var seg := BeforeFirst(rest, "/reel/");
      var id := BeforeFirst(seg, "/");
      assert seg[..|id|] == rest[..|id|];
      if |id| < |seg| {
        assert seg[|id|..|id| + 1][0] == seg[|id|];
      } else if |id| < |rest| {
        assert rest[|id|..|id| + 6][0] == rest[|id|];
      }
    }
  }

  /** `url.split("v=")[1] || url.split("/").pop()`. */
  function YouTubeId(url: string): string {
    StrOr(Segment(url, "v=", 1), LastSegment(url, "/"))
  }

  /** The YouTube id is everything between the first `v=` and the next
      `v=` — other query parameters such as `&t=` are not cut off — and,
      when that is empty or there is no `v=`, the last `/` segment. */
  lemma YouTubeIdSpec(url: string)
    ensures Contains(url, "v=") ==>
      var seg := BeforeFirst(url[IndexOf(url, "v=").value + 2..], "v=");
      YouTubeId(url) == if seg != "" then seg else LastSegment(url, "/")
    ensures !Contains(url, "v=") ==> YouTubeId(url) == LastSegment(url, "/")
  {
    SecondSegment(url, "v=");
  }

  /** `renderVideoEmbed(url)` with the player's `isPlaying`. */
  function RenderVideoEmbed(url: string, isPlaying: bool): (e: Embed)
    ensures Kind(e) == FirstMatch(Rules, url)
    ensures e.PlainFrame? ==> e.src == url
  {
    RulesInOrder(url);
    if Contains(url, "tiktok.com") then TikTokQuote(url, TikTokVideoId(url))
    else if Contains(url, "instagram.com") then InstagramQuote(InstagramPermalink(url))
    else if Contains(url, "facebook.com") || Contains(url, "fb.watch") then
      FacebookVideo(url, if isPlaying then "true" else "false")
    else if Contains(url, "twitter.com") || Contains(url, "x.com") then Tweet(url)
    else if Contains(url, "youtube.com") || Contains(url, "youtu.be") then
      YouTubeFrame(YT.EmbedPrefix + YouTubeId(url) + "?modestbranding=1&rel=0&autoplay="
                   + (if isPlaying then "1" else "0"))
    else PlainFrame(url)
  }
}

=== FILE: watch_pricing.dfy ===
/** The watch-task price rule shared by the two watch-promotion forms
    (src/components/WatchTaskForm.jsx and src/components/SubmitTaskForm.jsx):
    two points per started half minute of watching, per watch. */
module WatchPricing {
  import opened Js
  import Arith

  const DurationOptions: seq<nat> := [15, 30, 45, 60]
  const WatchOptions: seq<nat> := [50, 100, 200, 300, 500, 1000]
  const BaseRate: nat := 2

  /** `Math.ceil(a / b)` for a non-negative `a`. */
  function CeilDiv(a: nat, b: nat): (q: nat)
    requires b > 0
    ensures q * b >= a
    ensures q == 0 || (q - 1) * b < a
  {
    (a + b - 1) / b
  }

  /** `BASE_RATE * Math.ceil(duration / 30)`: the reward per view. */
  function PointsPerView(duration: nat): (p: nat)
    ensures p % BaseRate == 0
    ensures (p / BaseRate) * 30 >= duration
    ensures p == 0 || (p / BaseRate - 1) * 30 < duration
  {
    BaseRate * CeilDiv(duration, 30)
  }

  /** `cost * watches`: the points the task is funded with. */
  function Fund(duration: nat, watches: nat): nat {
    PointsPerView(duration) * watches
  }

  /** The fund pays every watch exactly the reward per view: it is a
      multiple of the number of watches with that reward as quotient, and
      empty exactly when there are no watches or no reward. */
  lemma FundPerWatch(duration: nat, watches: nat)
    ensures Fund(duration, watches) == 0 <==> watches == 0 || PointsPerView(duration) == 0
    ensures watches > 0 ==>
      Fund(duration, watches) % watches == 0 && Fund(duration, watches) / watches == PointsPerView(duration)
  {
    var p := PointsPerView(duration);
    if watches > 0 {
      Arith.MultipleOf(watches, p);
      assert Fund(duration, watches) == watches * p;
    } else {
      assert Fund(duration, watches) == 0;
    }
  }

  /** Over the duration options the reward per view is 2 for 15 and 30
      seconds and 4 for 45 and 60 seconds. */
  lemma PointsPerViewOnOptions()
    ensures PointsPerView(15) == 2 && PointsPerView(30) == 2
    ensures PointsPerView(45) == 4 && PointsPerView(60) == 4
  {
  }

  /** The reward per view never decreases with the duration. */
  lemma PointsPerViewMonotone(d1: nat, d2: nat)
    requires d1 <= d2
    ensures PointsPerView(d1) <= PointsPerView(d2)
  {
  }

  /** Every pair of options funds a task with between 100 and 4000 points,
      and the extremes are reached. */
  lemma FundBoundsOnOptions(d: nat, w: nat)
    requires d in DurationOptions && w in WatchOptions
    ensures 100 <= Fund(d, w) <= 4000
    ensures Fund(15, 50) == 100 && Fund(60, 1000) == 4000
  {
    PointsPerViewOnOptions();
  }

  /** `res.data.points || 0` after a successful `/users/me` request; the
      balance is kept when the request fails. */
  function LoadedPoints(current: int, reply: Option<Option<int>>): (p: int)
    ensures reply.None? ==> p == current
    ensures reply.Some? ==> p == IntOr(reply.value, 0)
    ensures reply.Some? && p != 0 ==> reply.value == Some(p)
  {
    match reply
    case None => current
    case Some(points) => IntOr(points, 0)
  }
}

=== FILE: watch_task_form.dfy ===
/** `WatchTaskForm` (src/components/WatchTaskForm.jsx): the watch-task
    creation form. The recalculation effect and the submit handler are
    modelled as functions on the form state; `new URL(url)` succeeding is a
    boolean parameter and the `submitVideo` request an `Option` reply. */
module WatchTaskForm {
  import opened Js
  import opened WatchPricing

  /** The form state. `pointsPerView` and `totalPointsFund` are not stored:
      they are always `PointsPerView(duration)` and `Fund(duration, watches)`. */
  datatype Form = Form(
    url: string,
    duration: nat,
    watches: nat,
    userPoints: int,
    msg: string,
    showWarning: bool,
    loading: bool)

  const InitialForm := Form("", 30, 100, 0, "", false, false)

  const InvalidUrlAlert := "Please paste a valid video URL"
  const NotEnoughAlert := CrossMark + " Not enough points to create this task"
  const SubmittedMsg := CheckMark + " Video watch task submitted!"
  const FailedMsg := CrossMark + " Submission failed! Please check your data or login status."

  /** The effect that runs when `duration`, `watches` or `userPoints` change:
      the warning shows exactly when the fund exceeds the balance, so a fund
      equal to the balance is affordable. */
  function Recalculate(f: Form): (g: Form)
    ensures g.showWarning <==> Fund(g.duration, g.watches) > g.userPoints
    ensures g.(showWarning := f.showWarning) == f
  {
    f.(showWarning := Fund(f.duration, f.watches) > f.userPoints)
  }

  /** The submit button is disabled while the warning shows or a request runs. */
  predicate SubmitDisabled(f: Form) {
    f.showWarning || f.loading
  }

  /** `handleSubmit`. `reply` is `None` when `submitVideo` throws and
      otherwise `Some(res.data.points)`, itself `None` for null or undefined.
      The second result is the alert shown, if any. */
  function HandleSubmit(f: Form, urlParses: bool, reply: Option<Option<int>>): (res: (Form, Option<string>))
    ensures f.url == "" || !urlParses ==> res == (f, Some(InvalidUrlAlert))
    ensures f.url != "" && urlParses && Fund(f.duration, f.watches) > f.userPoints ==>
      res == (f, Some(NotEnoughAlert))
    ensures res.1.None? <==> f.url != "" && urlParses && Fund(f.duration, f.watches) <= f.userPoints
    ensures res.1.None? ==> !res.0.loading
    ensures res.1.None? && reply.Some? ==>
      && res.0.url == "" && res.0.duration == 30 && res.0.watches == 100
      && !res.0.showWarning && res.0.msg == SubmittedMsg
      && res.0.userPoints == reply.value.GetOr(f.userPoints)
    ensures res.1.None? && reply.None? ==> res.0 == f.(msg := FailedMsg, loading := false)
  {
    if f.url == "" || !urlParses then (f, Some(InvalidUrlAlert))
    else if Fund(f.duration, f.watches) > f.userPoints then (f, Some(NotEnoughAlert))
    else
      match reply
      case Some(points) =>
        var updated := points.GetOr(f.userPoints);
        (Form("", 30, 100, updated, SubmittedMsg, false, false), None)
      case None => (f.(msg := FailedMsg, loading := false), None)
  }

  /** Once the recalculation effect has run, the button is disabled exactly
      when the handler would refuse a valid URL for lack of points. */
  lemma DisabledButtonMatchesRefusal(f: Form, reply: Option<Option<int>>)
    requires f.url != "" && !f.loading
    ensures SubmitDisabled(Recalculate(f)) <==> HandleSubmit(Recalculate(f), true, reply).1.Some?
  {
  }

  /** After a successful submission and the recalculation that follows it
      (duration 30 and 100 watches fund 200 points), the warning shows
      exactly when the new balance is below 200. */
  lemma WarningAfterSuccess(f: Form, points: Option<int>)
    requires f.url != "" && Fund(f.duration, f.watches) <= f.userPoints
    ensures var g := Recalculate(HandleSubmit(f, true, Some(points)).0);
      g.showWarning <==> points.GetOr(f.userPoints) < 200
  {
    PointsPerViewOnOptions();
  }

  /** A server balance of 0 is kept (`??` only falls back on null). */
  lemma ZeroBalanceKept(f: Form)
    requires f.url != "" && Fund(f.duration, f.watches) <= f.userPoints
    ensures HandleSubmit(f, true, Some(Some(0))).0.userPoints == 0
  {
  }
}

=== FILE: watch_tiktok_promo.dfy ===
/** `WatchTikTokPromo` (src/pages/promoted/WatchTikTokPromo.jsx): a list of
    promoted videos with a per-video countdown kept in a map from video id
    to seconds left. */
module WatchTikTokPromo {
  import opened Js

  /** The fields of a fetched video the page reads. */
  datatype Video = Video(id: string, duration: Option<int>, points: Option<int>)

  /** `v.duration || 30`. */
  function StartTime(v: Video): (t: int)
    ensures t != 0
    ensures TruthyInt(v.duration) ==> t == v.duration.value
    ensures !TruthyInt(v.duration) ==> t == 30
  {
    IntOr(v.duration, 30)
  }

  /** `vs.forEach(v => timers[v._id] = v.duration || 30)`: a later video with
      the same id overwrites an earlier one. */
  function InitTimers(vs: seq<Video>): (m: map<string, int>)
    ensures m.Keys == set v | v in vs :: v.id
    ensures forall id :: id in m ==> m[id] != 0
    decreases |vs|
  {
    if |vs| == 0 then map[]
    else
      var init := vs[..|vs| - 1];
      var last := vs[|vs| - 1];
      IdsSnoc(vs);
      InitTimers(init)[last.id := StartTime(last)]
  }

  /** The ids of a list are those of all but its last video plus the last one's. */
  lemma IdsSnoc(vs: seq<Video>)
    requires |vs| > 0
    ensures (set v | v in vs :: v.id) == (set v | v in vs[..|vs| - 1] :: v.id) + {vs[|vs| - 1].id}
  {
    assert vs == vs[..|vs| - 1] + [vs[|vs| - 1]];
  }

  /** A video whose id no later video repeats sets that id's timer. */
  lemma {:induction false} InitTimersLastWins(vs: seq<Video>, i: nat)
    requires i < |vs|
    requires forall j :: i < j < |vs| ==> vs[j].id != vs[i].id
    ensures vs[i].id in InitTimers(vs) && InitTimers(vs)[vs[i].id] == StartTime(vs[i])
    decreases |vs|
  {
    if i < |vs| - 1 {
      InitTimersLastWins(vs[..|vs| - 1], i);
    }
  }

  /** The timers after a fetch: `res.data || []`, or unchanged (empty) when
      the request fails. */
  function FetchedTimers(timers: map<string, int>, reply: Option<Option<seq<Video>>>): (m: map<string, int>)
    ensures reply.None? ==> m == timers
    ensures reply == Some(None) ==> m == map[]
    ensures reply.Some? && reply.value.Some? ==> m == InitTimers(reply.value.value)
  {
    match reply
    case None => timers
    case Some(data) => InitTimers(data.GetOr([]))
  }

  /** One interval tick: every positive entry counts down by one; the
      others are left alone. */
  function TickTimers(m: map<string, int>): (r: map<string, int>)
    ensures r.Keys == m.Keys
    ensures forall id :: id in m && m[id] > 0 ==> r[id] == m[id] - 1
    ensures forall id :: id in m && m[id] <= 0 ==> r[id] == m[id]
  {
    map id | id in m :: if m[id] > 0 then m[id] - 1 else m[id]
  }

  /** No entry that was non-negative becomes negative. */
  lemma TickKeepsNonNegative(m: map<string, int>)
    requires forall id :: id in m ==> m[id] >= 0
    ensures forall id :: id in TickTimers(m) ==> TickTimers(m)[id] >= 0
  {
  }

  /** `n` ticks. */
  function TickN(m: map<string, int>, n: nat): map<string, int>
    decreases n
  {
    if n == 0 then m else TickN(TickTimers(m), n - 1)
  }

  /** After `n` ticks every positive timer is down by `n`, but not below 0,
      every other timer is unchanged, and no id is added or lost. */
  lemma {:induction false} TickNSpec(m: map<string, int>, n: nat)
    ensures TickN(m, n).Keys == m.Keys
    ensures forall id :: id in m ==>
      TickN(m, n)[id] == if m[id] > 0 then (if m[id] > n then m[id] - n else 0) else m[id]
    decreases n
  {
    if n > 0 {
      TickNSpec(TickTimers(m), n - 1);
    }
  }

  /** `disabled={timeLeft[v._id] > 0}`: a missing entry is `undefined`,
      which is not greater than 0. */
  predicate CompleteDisabled(m: map<string, int>, id: string) {
    id in m && m[id] > 0
  }

  /** A timer started at `t > 0` keeps the button disabled for `t - 1` ticks
      and enables it at tick `t`. */
  lemma EnabledAfterStartTime(m: map<string, int>, id: string, n: nat)
    requires id in m && m[id] > 0
    ensures CompleteDisabled(TickN(m, n), id) <==> n < m[id]
  {
    TickNSpec(m, n);
  }

  /** `handleSkip(videoId)`: `prev.filter(v => v._id !== videoId)`. */
  function Skip(vs: seq<Video>, id: string): (r: seq<Video>)
    ensures |r| <= |vs|
    ensures forall i :: 0 <= i < |r| ==> r[i].id != id
    ensures forall v :: v in r <==> v in vs && v.id != id
    decreases |vs|
  {
    if |vs| == 0 then []
    else if vs[0].id == id then Skip(vs[1..], id)
    else [vs[0]] + Skip(vs[1..], id)
  }

  /** Filtering keeps the relative order: it distributes over concatenation. */
  lemma {:induction false} SkipConcat(a: seq<Video>, b: seq<Video>, id: string)
    ensures Skip(a + b, id) == Skip(a, id) + Skip(b, id)
    decreases |a|
  {
    if |a| == 0 {
      assert a + b == b;
    } else {
      assert (a + b)[0] == a[0];
      assert (a + b)[1..] == a[1..] + b;
      SkipConcat(a[1..], b, id);
    }
  }

  /** A list without the id is left as it is, so skipping twice is skipping
      once. */
  lemma {:induction false} SkipIdempotent(vs: seq<Video>, id: string)
    ensures (forall i :: 0 <= i < |vs| ==> vs[i].id != id) ==> Skip(vs, id) == vs
    ensures Skip(Skip(vs, id), id) == Skip(vs, id)
    decreases |vs|
  {
    if |vs| > 0 {
      SkipIdempotent(vs[1..], id);
      SkipIdempotent(Skip(vs[1..], id), id);
      if vs[0].id != id {
        assert Skip(vs, id)[1..] == Skip(vs[1..], id);
      }
    }
  }

  /** `handleComplete(videoId)`: the video leaves the list only when the
      completion request succeeds. */
  function Complete(vs: seq<Video>, id: string, succeeded: bool): (r: seq<Video>)
    ensures succeeded ==> r == Skip(vs, id)
    ensures !succeeded ==> r == vs
  {
    if succeeded then Skip(vs, id) else vs
  }
}

=== FILE: youtube.dfy ===
/** `getEmbedUrl` (src/utils/youtube.js): rewrites YouTube short links and
    watch links into embed links by splitting the text, and returns every
    other input unchanged. */
module YouTube {
  import opened Js
  import opened Strings

  const EmbedPrefix := "https://www.youtube.com/embed/"

  /** `url.split(marker)[1].split(stop)[0]` inside the `try`: `None` when the
      marker is absent, where `split(marker)[1]` is `undefined` and the second
      `split` throws. */
  function ExtractId(url: string, marker: string, stop: string): Option<string>
    requires |marker| > 0 && |stop| > 0
  {
    match Segment(url, marker, 1)
    case None => None
    case Some(segment) => Some(BeforeFirst(segment, stop))
  }

  /** `getEmbedUrl(url)`; a thrown exception is caught and the input returned. */
  function GetEmbedUrl(url: string): string {
    if Contains(url, "youtu.be") then
      match ExtractId(url, "youtu.be/", "?")
      case None => url
      case Some(id) => EmbedPrefix + id
    else if Contains(url, "watch?v=") then
      match ExtractId(url, "watch?v=", "&")
      case None => url
      case Some(id) => EmbedPrefix + id
    else if Contains(url, "youtube.com/embed/") then url
    else url
  }

  /** The id taken after the first `marker` is the longest prefix of the text
      that follows it containing neither `stop` nor another `marker`. */
  predicate IsIdAfter(url: string, marker: string, stop: string, id: string)
    requires Contains(url, marker)
  {
    var rest := url[IndexOf(url, marker).value + |marker|..];
    && |id| <= |rest| && id == rest[..|id|]
    && !Contains(id, stop) && !Contains(id, marker)
    && (|id| < |rest| ==> OccursAt(rest, stop, |id|) || OccursAt(rest, marker, |id|))
  }

  /** Cutting `rest` at the first `marker` and then at the first `stop`
      leaves the longest prefix of `rest` that contains neither. */
  lemma NestedCut(rest: string, marker: string, stop: string)
    requires |marker| > 0 && |stop| > 0
    ensures var id := BeforeFirst(BeforeFirst(rest, marker), stop);
      && |id| <= |rest| && id == rest[..|id|]
      && !Contains(id, stop) && !Contains(id, marker)
      && (|id| < |rest| ==> OccursAt(rest, stop, |id|) || OccursAt(rest, marker, |id|))
  {
    var segment := BeforeFirst(rest, marker);
    var id := BeforeFirst(segment, stop);
    assert segment[..|id|] == rest[..|id|];
    if Contains(id, marker) {
      OccursInPrefix(segment, marker, |id|, IndexOf(id, marker).value);
    }
    if |id| < |segment| {
      assert segment[|id|..|id| + |stop|] == rest[|id|..|id| + |stop|];
    }
  }

  lemma ExtractIdSpec(url: string, marker: string, stop: string)
    requires |marker| > 0 && |stop| > 0
    ensures Contains(url, marker) <==> ExtractId(url, marker, stop).Some?
    ensures Contains(url, marker) ==> IsIdAfter(url, marker, stop, ExtractId(url, marker, stop).value)
  {
    SecondSegment(url, marker);
    if Contains(url, marker) {
      var rest := url[IndexOf(url, marker).value + |marker|..];
      NestedCut(rest, marker, stop);
    }
  }

  /** A short link: the result is the embed prefix followed by the id after
      the first `youtu.be/`, cut at the first `?`. This is checked before
      the watch-link rule, so it applies even when `watch?v=` occurs too. */
  lemma ShortLinkRewrite(url: string)
    requires Contains(url, "youtu.be/")
    ensures var r := GetEmbedUrl(url);
      && |EmbedPrefix| <= |r| && r[..|EmbedPrefix|] == EmbedPrefix
      && IsIdAfter(url, "youtu.be/", "?", r[|EmbedPrefix|..])
  {
    ShortMarkerHasNoSlashForm(url);
    ExtractIdSpec(url, "youtu.be/", "?");
  }

  /** A URL with `youtu.be/` contains `youtu.be`. */
  lemma ShortMarkerHasNoSlashForm(url: string)
    requires Contains(url, "youtu.be/")
    ensures Contains(url, "youtu.be")
  {
    var i := IndexOf(url, "youtu.be/").value;
    assert url[i..i + 8] == url[i..i + 9][..8];
    assert "youtu.be/"[..8] == "youtu.be";
    assert OccursAt(url, "youtu.be", i);
  }

  /** `youtu.be` without a following `/`: `split("youtu.be/")[1]` is
      `undefined`, the exception is caught and the input comes back. */
  lemma ShortLinkWithoutSlashUnchanged(url: string)
    requires Contains(url, "youtu.be") && !Contains(url, "youtu.be/")
    ensures GetEmbedUrl(url) == url
  {
    ExtractIdSpec(url, "youtu.be/", "?");
  }

  /** A watch link (and no short-link marker): the embed prefix followed by
      the text after the first `watch?v=`, cut at the first `&`. */
  lemma WatchLinkRewrite(url: string)
    requires !Contains(url, "youtu.be") && Contains(url, "watch?v=")
    ensures var r := GetEmbedUrl(url);
      && |EmbedPrefix| <= |r| && r[..|EmbedPrefix|] == EmbedPrefix
      && IsIdAfter(url, "watch?v=", "&", r[|EmbedPrefix|..])
  {
    ExtractIdSpec(url, "watch?v=", "&");
  }

  /** Embed links and every unrecognised URL come back unchanged. */
  lemma OtherUrlsUnchanged(url: string)
    requires !Contains(url, "youtu.be") && !Contains(url, "watch?v=")
    ensures GetEmbedUrl(url) == url
  {
  }

  lemma PrefixHasNoMarker()
    ensures !Contains(EmbedPrefix, "youtu.be")
    ensures !Contains(EmbedPrefix, "watch?v=")
  {
    PrefixHasNoShortMarker();
    PrefixHasNoWatchMarker();
  }

  /** No `.` of the prefix is followed by `b`. */
  lemma PrefixHasNoShortMarker()
    ensures !Contains(EmbedPrefix, "youtu.be")
  {
    forall j | 0 <= j && j + 8 <= |EmbedPrefix| ensures !OccursAt(EmbedPrefix, "youtu.be", j) {
      assert EmbedPrefix[j..j + 8][5] == EmbedPrefix[j + 5];
      assert EmbedPrefix[j..j + 8][6] == EmbedPrefix[j + 6];
    }
  }

  /** The prefix has no `?`. */
  lemma PrefixHasNoWatchMarker()
    ensures !Contains(EmbedPrefix, "watch?v=")
  {
    forall j | 0 <= j && j + 8 <= |EmbedPrefix| ensures !OccursAt(EmbedPrefix, "watch?v=", j) {
      assert EmbedPrefix[j..j + 8][5] == EmbedPrefix[j + 5];
    }
  }




  /** A rewritten link starts with the embed prefix. */
  lemma RewrittenHasPrefix(url: string)
    requires Contains(url, "youtu.be/") || (!Contains(url, "youtu.be") && Contains(url, "watch?v="))
    ensures var r := GetEmbedUrl(url);
      |EmbedPrefix| <= |r| && r == EmbedPrefix + r[|EmbedPrefix|..]
  {
    if Contains(url, "youtu.be/") {
      ShortLinkRewrite(url);
    } else {
      WatchLinkRewrite(url);
    }
  }

  /** An embed link whose id carries no marker is left alone. */
  lemma EmbedLinkUnchanged(id: string)
    requires !Contains(id, "youtu.be") && !Contains(id, "watch?v=")
    ensures GetEmbedUrl(EmbedPrefix + id) == EmbedPrefix + id
  {
    NoShortMarkerAfterPrefix(id);
    NoWatchMarkerAfterPrefix(id);
    OtherUrlsUnchanged(EmbedPrefix + id);
  }

  /** `youtu.be` cannot straddle the prefix's final `/`, so an id free of
      it gives a link free of it. */
  lemma NoShortMarkerAfterPrefix(id: string)
    requires !Contains(id, "youtu.be")
    ensures !Contains(EmbedPrefix + id, "youtu.be")
  {
    PrefixHasNoShortMarker();
    NoOccurrenceAcrossSlash(EmbedPrefix, id, "youtu.be");
  }

  /** Likewise for `watch?v=`. */
  lemma NoWatchMarkerAfterPrefix(id: string)
    requires !Contains(id, "watch?v=")
    ensures !Contains(EmbedPrefix + id, "watch?v=")
  {
    PrefixHasNoWatchMarker();
    NoOccurrenceAcrossSlash(EmbedPrefix, id, "watch?v=");
  }


  /** A rewritten link is a fixpoint: applying the rewrite again changes
      nothing, provided the extracted id itself carries no marker. */
  lemma RewriteIsIdempotent(url: string)
    requires Contains(url, "youtu.be/") || (!Contains(url, "youtu.be") && Contains(url, "watch?v="))
    requires |EmbedPrefix| <= |GetEmbedUrl(url)|
    requires var id := GetEmbedUrl(url)[|EmbedPrefix|..];
      !Contains(id, "youtu.be") && !Contains(id, "watch?v=")
    ensures GetEmbedUrl(GetEmbedUrl(url)) == GetEmbedUrl(url)
  {
    var r := GetEmbedUrl(url);
    RewrittenHasPrefix(url);
    EmbedLinkUnchanged(r[|EmbedPrefix|..]);
  }
}
